=== FILE: README.md ===
# Chapel front-end lowering builders and the PVM communication protocol, in Dafny

This project models two parts of an early Chapel implementation and proves
properties of them.

**The AST builders of the compiler.** These are the functions in
`compiler/AST/build.cpp` that the parser calls to turn a parsed construct into
primitive statements. The model covers:

- conditional expressions and short-circuit `&&`/`||`;
- compound and logical assignments;
- reductions;
- `while`, `do while`, `for`, `forall`, `coforall` and `for param` loops;
- `select` and `type select`;
- tuple declarations and tuple formals;
- `begin`, `sync` (`buildEndStmt`), `cobegin` and `on`;
- module initialisation functions;
- the back-propagation of initialisers and types in a declaration list.

An AST is the value datatype `Ast.Ast`, with these variants:

- `Block`, with a block tag, loop info and labels;
- `Cond`;
- `Call`, to a name, a primitive or a symbol;
- `Sym`;
- `Def`;
- `Label`.

Every symbol is an `Ident`: a name plus a unique id. The naming context `Ast.Names` supplies fresh ids and holds the builders' static counters, and each builder threads it through explicitly. These counters are `uid` in `build_if_expr`, `build_loop_labels`, `buildBeginStmt`, `buildOnStmt`, `build_reduce` and `build_tuple_arg`, plus the never-advanced one of `build_type_select`. `moduleNumber` and `_initModuleGuards` form the state of the class `BuildModules.InitState`.

The builders that splice statement lists in place work on the class `Ast.BlockStmt` or `Ast.FnStmt`. These are:

- the statement list of a `cobegin`;
- the declaration lists of `backPropagateInitsTypes` and `setVarSymbolAttributes`;
- the loop body of `destructureIndices`;
- the insertion point of a tuple declaration;
- the module body of `createInitFn`;
- the function of `build_tuple_arg`.

These builders are methods with loops, proved against reference functions. Errors are the outcome datatype of `Diagnostics`. Its tags are the five codes of `compiler/include/misc.h` (internal fatal, user fatal, user fatal continue, warning, print).

The meaning of generated code is given by small executable readings:

- `BuildExprs.RunPath` follows the branches a run takes, given an oracle for conditions.
- `BuildLoops.Unroll` runs a loop body k times.
- `BuildParallel.EndRun` tracks the task end count.
- `BuildModules.RunInit` runs a module init function against its guard.
- `BuildSelect.Follow` walks an if/else-if chain.
- `BuildTuples.Holds` evaluates a tuple where clause against a value.

Properties are stated over these readings: each temporary is assigned once, the right operand is evaluated only when needed, the loop condition is evaluated once per iteration, init runs once, the end count is restored.

**The sequential logic of the PVM communication layer.** This is `runtime/comm-pvm/chpl_cfg_comm.c`. The model covers:

- the reply-tag generator `makeTag`, as the class `CommTags.TagGen` with a reduction loop;
- the split of 64-bit values into two 32-bit words and their rejoining;
- the homogeneous envelope serialiser and deserialiser over a send buffer and a receive buffer, as two classes;
- one locale, as the class `CommLocale.Locale`.

The locale holds:

- its id and the number of locales;
- its tag counter;
- the four diagnostics counters and the flags that gate them;
- the barrier flag `okay_to_barrier`;
- its memory, as a byte sequence;
- the trace of the message events it sends and receives.

`put`, `get`, `fork`, `fork_nb`, `broadcast_private`, `barrier`, `rollcall`, `exit_all`, `exit_any` and the diagnostics switches are methods on it. Each method states the exact events it appends to the trace and the exact new state.

PVM itself and the other locales are not modelled. What arrives from them (the bytes of a remote get, the barrier flags received) is a parameter of the method, and so is the memory a function called by a local fork leaves behind.

## Model

| member | source | states |
|---|---|---|
| Diagnostics.TagCode | compiler/include/misc.h:35-39 | the five error kinds map to the codes 1 to 5, one each |
| Diagnostics.TagCodeInjective | compiler/include/misc.h:35-39 | two error kinds with the same code are the same kind |
| Diagnostics.UserFatal | compiler/include/misc.h:36 | the diagnostic is of kind USR_FATAL, halts, and carries its message |
| Diagnostics.InternalFatal | compiler/include/misc.h:35 | the diagnostic is of kind INT_FATAL, halts, and carries its message |
| Ast.Fresh | compiler/AST/build.cpp:192-193 | a new symbol gets the requested name; its id is at or above the supply it was drawn from, and the supply left starts just past it with every other counter unchanged |
| Ast.FreshIsNew | compiler/AST/build.cpp:192-193 | a symbol drawn from any later context has a larger id than one drawn earlier, so no two symbols share an id |
| Ast.FreshDistinct | compiler/AST/build.cpp:192-193 | two symbols drawn one after the other are different, even with the same name |
| Ast.Istr | compiler/AST/build.cpp:190 | the decimal text of a counter is non-empty digits, one digit exactly below 10 |
| Ast.IstrRoundTrip | compiler/AST/build.cpp:190 | reading the decimal text of a counter back gives the counter |
| Ast.NumberedNameInjective | compiler/AST/build.cpp:190 | a prefix followed by two different counter values gives two different names |
| Ast.BlockStmt.InsertAtHead | compiler/AST/build.cpp:376-377 | the statement becomes the first of the list and the rest is unchanged |
| Ast.BlockStmt.InsertAtTail | compiler/AST/build.cpp:381 | the statement becomes the last of the list and the rest is unchanged |
| Ast.BlockStmt.InsertBefore | compiler/AST/build.cpp:72 | the statement is placed just before the one at the given position, and nothing else moves |
| Ast.BlockStmt.Replace | compiler/AST/build.cpp:923-924 | only the statement at the position changes |
| Ast.BlockStmt.RemoveAt | compiler/AST/build.cpp:151 | only the statement at the position leaves the list |
| Ast.FnStmt.InsertFormalAtTail | compiler/AST/build.cpp:790 | the formal is appended; body and where clause are unchanged |
| Ast.FnStmt.InsertAtHead | compiler/AST/build.cpp:800 | the statement becomes the first of the body; formals and where clause are unchanged |
| Ast.FnStmt.InsertAtTail | compiler/AST/build.cpp:152 | the statement becomes the last of the body; formals and where clause are unchanged |
| BuildExprs.IfExpr | compiler/AST/build.cpp:184-219 | a missing else arm is exactly the user-fatal error; otherwise the result is an inline, param- and type-capable function `_if_fn<uid>` whose body is the conditional's lowering, and the if counter advances by one |
| BuildExprs.IfRunMoves | compiler/AST/build.cpp:204-217 | whichever arm runs, each of `_if_tmp1` and `_if_tmp2` is assigned exactly once and no other variable is assigned |
| BuildExprs.IfBodyRun | compiler/AST/build.cpp:204-217 | a run of the lowered conditional evaluates the condition into `_if_tmp1`, then assigns the chosen arm to `_if_tmp2` |
| BuildExprs.IfExprAssignsOnce | compiler/AST/build.cpp:184-219 | every run MOVEs the condition once into `_if_tmp1`, MOVEs exactly one arm, the one the condition selects, into `_if_tmp2`, and returns `_if_tmp2` |
| BuildExprs.IfFnNamesDistinct | compiler/AST/build.cpp:184-190 | two conditional expressions built in sequence get different function names |
| BuildExprs.ShortCircuit | compiler/AST/build.cpp:16-43 | the fragment starts with the temp's definition, then `tmp = left`, then the `_cond_invalid` check, followed by the conditional on `isTrue(tmp)` |
| BuildExprs.ShortCircuitDefinesIfFn | compiler/AST/build.cpp:16-43 | the fragment's function is the `_if_fn` numbered by the current if counter |
| BuildExprs.ShortCircuitRun | compiler/AST/build.cpp:16-43 | a run defines the temp, assigns it the left operand, raises the promotion error only when the check holds, then runs the chosen arm |
| BuildExprs.ShortCircuitLeftOnce | compiler/AST/build.cpp:16-43 | on every run the left operand is assigned to the temp exactly once and the result temp exactly once |
| BuildExprs.AndShortCircuits | compiler/AST/build.cpp:16-28 | for `&&`, when the left operand is false the run does not depend on the right operand, and when it is true the result is `isTrue(right)` |
| BuildExprs.OrShortCircuits | compiler/AST/build.cpp:31-43 | for `\|\|`, when the left operand is true the run does not depend on the right operand, and when it is false the result is `isTrue(right)` |
| BuildExprs.LogicalAndAssignment | compiler/AST/build.cpp:535-543 | `lhs &&= rhs` takes a reference to lhs once into `_ltmp` and assigns `_ltmp && rhs` through it |
| BuildExprs.LogicalOrAssignment | compiler/AST/build.cpp:546-554 | `lhs \|\|= rhs` takes a reference to lhs once into `_ltmp` and assigns `_ltmp \|\| rhs` through it |
| BuildExprs.ReduceOp | compiler/AST/build.cpp:670-677 | `max` and `min` are renamed `_max` and `_min`, any other reduction is kept, and no result still names `max` or `min` |
| BuildExprs.Reduce | compiler/AST/build.cpp:669-703 | an inline `_reduce_scan<uid>` function that moves the data into one temp, declares the element-type temp and sets it, in a type-only block, to the type of the value at the data's iterator head, and returns `_reduce` or `_scan` of a new reduction object over the data |
| BuildExprs.ReduceEvaluatesDataOnce | compiler/AST/build.cpp:681-684 | the data expression is assigned exactly once in the reduction function |
| BuildExprs.PrimitiveCall | compiler/AST/build.cpp:166-181 | a call is built exactly when the first actual is a literal string naming a known primitive, and it takes the remaining actuals; otherwise the two internal errors |
| BuildExprs.PreDecIncWarning | compiler/AST/build.cpp:933-944 | `++e`/`--e` warns and becomes two unary applications of the sign; any other sign is the parser's internal error |
| BuildExprs.PreDecIncIsIdentity | compiler/AST/build.cpp:933-944 | the rewritten expression keeps the value of the original |
| BuildExprs.CompoundAssignment | compiler/AST/build.cpp:475-532 | lhs is taken by reference into `_ltmp` and rhs into `_rtmp`, and the last statement branches on `_isDomain` exactly when the operator is `+` or `-` (the `+=` and `-=` forms) |
| BuildExprs.CompoundLastTaken | compiler/AST/build.cpp:491-529 | the final statement runs exactly one update: domain add or remove, a cast assignment for primitive types, or `op(lhs, rhs)` |
| BuildExprs.CompoundAssignmentRun | compiler/AST/build.cpp:475-532 | on every run each temp is assigned exactly once before the single update; a shift casts without the second step |
| BuildExprs.BuildArg | compiler/AST/build.cpp:758-769 | a type intent becomes a blank-intent type variable of any type; otherwise the intent and type are kept, and the type is `any` exactly when neither type nor default is given |
| BuildLoops.CheckIndices | compiler/AST/build.cpp:346-354 | accepts exactly symbol expressions and `_build_tuple` calls whose every actual is valid; anything else is the user-fatal "invalid index expression" |
| BuildLoops.CheckActuals | compiler/AST/build.cpp:349-351 | passes exactly when every actual is a valid index |
| BuildLoops.Destructure | compiler/AST/build.cpp:312-339 | destructuring only advances the id supply |
| BuildLoops.DestructureIndices | compiler/AST/build.cpp:312-339 | the loop body becomes the destructuring statements followed by the old body |
| BuildLoops.DestructureComponents | compiler/AST/build.cpp:317-328 | each component is destructured at its 1-based position and `_` components are skipped; each later component is inserted in front, so the statements come in reverse order of the components |
| BuildLoops.DestructureBindsLeaves | compiler/AST/build.cpp:312-339 | the variables bound are the non-`_` leaves of the index, each bound to its element path, in reverse order of the leaves, because each later component is inserted in front |
| BuildLoops.LoopParts | compiler/AST/build.cpp:389-429 | the setup statements come before the loop; for an iterator loop the index is `_index` and loop info is `LOOP_FOR(index, iterator)`; a C for keeps its primitive |
| BuildLoops.ForLoop | compiler/AST/build.cpp:357-434 | the index check runs first: an invalid index is exactly the user-fatal error |
| BuildLoops.ForLoopBindsIndices | compiler/AST/build.cpp:384-433 | the loop block has the requested tag and loop info, and its body binds the index leaves before the user body |
| BuildLoops.LoopAroundShape | compiler/AST/build.cpp:384-433 | setup statements, then the loop block ending in its pre label, then the post label |
| BuildLoops.NewLoopLabels | compiler/AST/build.cpp:232-237 | labels `_pre_loop<uid>` and `_post_loop<uid>` with new ids, and the loop counter advances |
| BuildLoops.LoopLabelsDistinct | compiler/AST/build.cpp:232-237 | labels made with different counters differ, and pre and post labels never clash |
| BuildLoops.WhileDoLoop | compiler/AST/build.cpp:240-255 | the pre label, the `_cond` temp and its first test, a WHILE_DO block of the body then the test, controlled by LOOP_WHILEDO(`_cond`) and carrying the new pre/post labels, then the post label; it allocates exactly the condition temp and the two labels, and takes one loop number |
| BuildLoops.WhileDoTestsBeforeEachIteration | compiler/AST/build.cpp:240-255 | unrolled k times: the condition is evaluated before the loop and at the end of each iteration, between the labels |
| BuildLoops.WhileDoEvaluatesTestOncePerIteration | compiler/AST/build.cpp:240-255 | the condition temp is assigned k+1 times in k iterations |
| BuildLoops.DoWhileLoop | compiler/AST/build.cpp:258-282 | the pre label, the `_cond` temp, a DO_WHILE block of the body with the test appended, controlled by LOOP_DOWHILE(`_cond`) and carrying the new pre/post labels, then the post label; it allocates exactly the condition temp and the two labels, and takes one loop number |
| BuildLoops.WithTestRunsLast | compiler/AST/build.cpp:264-270 | the condition assignment is appended after the body, inside its scope |
| BuildLoops.DoWhileTestsAfterEachIteration | compiler/AST/build.cpp:258-282 | unrolled k times: the body runs first and the condition is evaluated at the end of each iteration only |
| BuildLoops.DoWhileEvaluatesTestOncePerIteration | compiler/AST/build.cpp:258-282 | the condition temp is assigned k times in k iterations |
| BuildLoops.CoforallBracketsSyncStack | compiler/AST/build.cpp:363-382 | a coforall declares `_ss`, initialises it as a sync stack before the loop, and waits on it after |
| BuildLoops.CoforallSpawnsOneTaskPerIteration | compiler/AST/build.cpp:363-382 | each iteration pushes the sync stack once, and k iterations raise the end count k times |
| BuildLoops.LoopSpawns | compiler/AST/build.cpp:363-382 | the end-count raises of an unrolled loop are k times those of its body |
| BuildLoops.ParamForLoop | compiler/AST/build.cpp:448-471 | a non-literal range is the user-fatal error; otherwise four new symbols |
| BuildLoops.ParamForMatchesRange | compiler/AST/build.cpp:448-471 | accepted exactly for `lo..hi` or `lo..hi by st`; low, high, stride (1 by default) go into three distinct temps in that order, the index starts at 0, and loop info is `LOOP_PARAM(index, low, high, stride)` |
| BuildModules.MovesAsWritten | compiler/AST/build.cpp:139-150 | because of the `1 \|\|`, the relocation test keeps exactly the single-statement blocks that hold a module definition; `stmtIsGlob` decides nothing |
| BuildModules.Relocated | compiler/AST/build.cpp:139-154 | only statements that move end up in the init function |
| BuildModules.Kept | compiler/AST/build.cpp:139-154 | only module-definition blocks stay in the module |
| BuildModules.RelocationSplits | compiler/AST/build.cpp:139-154 | the moved and the kept statements together are the module's statements (as a multiset) |
| BuildModules.GlobsAreRelocated | compiler/AST/build.cpp:94-106 | a function definition is a glob and is relocated |
| BuildModules.GuardNamesDistinct | compiler/AST/build.cpp:113-128 | guards numbered differently have different names |
| BuildModules.RunInitPlain | compiler/AST/build.cpp:132-154 | statements that do not touch the guard run unchanged |
| BuildModules.InitRunsOnce | compiler/AST/build.cpp:126-137 | with the guard set, init runs the module's statements and clears the guard; with it clear, init runs nothing |
| BuildModules.InitState.EnsureGuards | compiler/AST/build.cpp:120-124 | `_initModuleGuards` is created, defined in the program and called from its init, only the first time |
| BuildModules.InitState.AddGuard | compiler/AST/build.cpp:126-131 | the guard is named after the module and the current module number, defined true in the program's init, and reset in `_initModuleGuards`; the module number advances |
| BuildModules.Relocate | compiler/AST/build.cpp:139-154 | the module keeps exactly its kept statements, and the init function gains the moved ones in their original order |
| BuildModules.RelocateOne | compiler/AST/build.cpp:140-153 | one loop step moves or keeps the next statement |
| BuildModules.InitState.Register | compiler/AST/build.cpp:120-137 | on the first call only, `_initModuleGuards` is created, defined at the head of the program's block and called from the program's init; every module but `_Program` then gets the next numbered guard, defined true ahead of that call and reset in `_initModuleGuards`; exactly the ids used are allocated |
| BuildModules.CreateInitFn | compiler/AST/build.cpp:112-156 | `__init_<module>` is the guard prologue followed by the moved statements, defined at the head of the module; the program's block gains the `_initModuleGuards` definition and the program's init its call on the first call only; `_Program` gets no guard, every other module the next numbered one; exactly the ids used are allocated |
| BuildDecls.LastNonDef | compiler/AST/build.cpp:707-723 | finds the last non-definition, or reports that all are definitions |
| BuildDecls.BackPropagated | compiler/AST/build.cpp:707-723 | the propagated list has the length of the original |
| BuildDecls.NearestDeclaring | compiler/AST/build.cpp:710-721 | the nearest later definition with an init or a type |
| BuildDecls.CarryIsNearest | compiler/AST/build.cpp:707-723 | the pair carried right to left is that of the nearest later declaring definition |
| BuildDecls.BackPropagatedAt | compiler/AST/build.cpp:707-723 | a definition with an init or a type is unchanged; one with neither gets those of the nearest later declaring definition |
| BuildDecls.BackPropagatedIdempotent | compiler/AST/build.cpp:707-723 | propagating twice is propagating once |
| BuildDecls.BackPropagate | compiler/AST/build.cpp:707-723 | on a list of definitions, the result is the back-propagated list; on the first non-definition from the right, the internal error, with the definitions after it already filled |
| BuildDecls.WithAttributes | compiler/AST/build.cpp:727-739 | sets config, param and const and changes nothing else of the variable |
| BuildDecls.FirstNonVarDef | compiler/AST/build.cpp:727-739 | finds the first statement that is not a variable definition, or reports that all are |
| BuildDecls.AttributedUpTo | compiler/AST/build.cpp:727-739 | only the statements before the stopping point change |
| BuildDecls.AttributedTwice | compiler/AST/build.cpp:727-739 | setting attributes twice is setting the second ones |
| BuildDecls.SetVarSymbolAttributes | compiler/AST/build.cpp:727-739 | every variable definition gets the attributes; at the first other statement, the internal error, with the ones before it already set |
| BuildParallel.BeginStmt | compiler/AST/build.cpp:872-886 | `_begin_fn_<uid>`, a void function marked begin (and no-heap when asked), runs the statement then `_downEndCount`; it is preceded by `_upEndCount` and spawned from a BEGIN block |
| BuildParallel.BeginBalancesEndCount | compiler/AST/build.cpp:872-886 | the spawner raises the end count once and the task lowers it once |
| BuildParallel.EndStmt | compiler/AST/build.cpp:890-901 | save the end count, install a fresh one, run the statement, wait, restore |
| BuildParallel.EndRestoresCount | compiler/AST/build.cpp:890-901 | the statement runs under a freshly allocated count, the wait is on that count, and the saved count is back afterwards |
| BuildParallel.CobeginBranch | compiler/AST/build.cpp:911-922 | each branch defines `_me`, pushes the sync stack into it before spawning, and records `_ss = _me` after |
| BuildParallel.CobeginBranchSpawns | compiler/AST/build.cpp:914-919 | between the push and the record, the branch is the begin of its statement followed by `_me.v = true`, so each statement of a cobegin runs as one task that marks its entry done |
| BuildParallel.CobeginBranches | compiler/AST/build.cpp:911-925 | one branch per statement, one begin counter per branch |
| BuildParallel.CobeginBranchesBracket | compiler/AST/build.cpp:911-925 | every branch is bracketed by the push and the record |
| BuildParallel.BranchesOf | compiler/AST/build.cpp:911-925 | the loop builds the branches of the statement list in order |
| BuildParallel.SpawnBranches | compiler/AST/build.cpp:911-925 | each statement of the block is replaced by its branch |
| BuildParallel.SyncStackAround | compiler/AST/build.cpp:926-928 | the sync stack is declared and initialised before the branches and waited on after |
| BuildParallel.CobeginStmt | compiler/AST/build.cpp:905-930 | the block becomes: `_ss` defined and initialised, the branches in order, `_waitSyncStack(_ss)` |
| BuildParallel.OnStmt | compiler/AST/build.cpp:846-868 | with the local flag, the statement in a plain block; otherwise a temp is defined and the locale moved into it, and an `_on_fn_<uid>` function with one `_dummy_locale_arg` formal, holding the statement, is called from an ON block |
| BuildSelect.WhenClauses | compiler/AST/build.cpp:562-575 | the clauses that become arms are WHEN conditionals with conditions |
| BuildSelect.OrFoldDisjuncts | compiler/AST/build.cpp:574-583 | the test is the left-nested `\|\|` of `selectCond == c` over all conditions in order |
| BuildSelect.AnyEqualDisjuncts | compiler/AST/build.cpp:574-583 | the disjuncts of a clause's test are its comparisons, in order |
| BuildSelect.Disjunction | compiler/AST/build.cpp:574-583 | the loop builds the same disjunction |
| BuildSelect.ClauseArmTests | compiler/AST/build.cpp:574-591 | each arm tests `_cond_test` of its clause's conditions and runs its body |
| BuildSelect.Chain | compiler/AST/build.cpp:584-591 | the chain starts with the first arm |
| BuildSelect.ChainDispatches | compiler/AST/build.cpp:584-598 | following the chain runs the first arm whose test holds, else the otherwise body |
| BuildSelect.ScanWhens | compiler/AST/build.cpp:562-572 | the only scan errors are the non-WHEN clause and the second otherwise |
| BuildSelect.ScanOutcome | compiler/AST/build.cpp:557-600 | the scan succeeds exactly when every clause is a WHEN and there is at most one otherwise; errors otherwise; on success the clauses are the non-otherwise ones in order |
| BuildSelect.SelectOfScan | compiler/AST/build.cpp:557-600 | a select is its scan's error, or the chain of the arms of the scanned clauses with the otherwise body |
| BuildSelect.SelectArms | compiler/AST/build.cpp:574-591 | arm k runs the body of WHEN clause k and tests its conditions |
| BuildSelect.SelectSucceeds | compiler/AST/build.cpp:557-600 | a select builds exactly when all clauses are WHENs, at most one is otherwise, and it is not an otherwise alone |
| BuildSelect.SelectNoWhenClauses | compiler/AST/build.cpp:594-596 | the otherwise-without-when error arises exactly for a lone otherwise |
| BuildSelect.SelectEmpty | compiler/AST/build.cpp:557-600 | nothing is built exactly for an empty select |
| BuildSelect.SelectRunsFirstMatch | compiler/AST/build.cpp:557-600 | the built chain runs the body of the first clause with a matching condition, else the otherwise body |
| BuildSelect.Select | compiler/AST/build.cpp:557-600 | the loop builds the reference select, errors included |
| BuildTuples.DeclsUpTo | compiler/AST/build.cpp:66-85 | builds exactly when the list holds only definitions and nested lists; anything else is the internal error; each emitted definition is a non-`_` leaf with an init |
| BuildTuples.LeafPathsComplete | compiler/AST/build.cpp:66-85 | every non-`_` leaf's 1-based path is among the emitted paths |
| BuildTuples.DeclsFollowLeafPaths | compiler/AST/build.cpp:66-85 | the emitted definitions are the non-`_` leaves, left to right, each with init `base(i1)(i2)…` over positions that count wildcards and sub-tuples |
| BuildTuples.TupleVarDecl | compiler/AST/build.cpp:66-85 | the definitions are inserted before the insert point, in order; a malformed list is the internal error |
| BuildTuples.ArgDefsAgreeWithVarDecl | compiler/AST/build.cpp:795-804 | the formal's leaf definitions are those of the declaration builder |
| BuildTuples.TupleWhereMeaning | compiler/AST/build.cpp:805-829 | the where clause holds of a value exactly when it is a tuple of the declared shape at every nesting level |
| BuildTuples.Lower | compiler/AST/build.cpp:808-829 | a size test lowers to `size == n` of the path, and each `&&` consumes one conditional |
| BuildTuples.TupleArgClauses | compiler/AST/build.cpp:795-829 | the function body gains the leaf definitions, and the where clause is the lowering of the shape test |
| BuildTuples.TupleArgNested | compiler/AST/build.cpp:805-819 | one nested component adds its leaf definitions and its `_tuple` test and size test to the where clause |
| BuildTuples.TupleArgLeaf | compiler/AST/build.cpp:797-804 | one leaf component adds its definition to the body unless it is `_` |
| BuildTuples.TupleArg | compiler/AST/build.cpp:775-842 | a new `_tuple_arg_tmp<uid>` formal, the leaf definitions at the head of the body, and the shape clause, conjoined with any existing where clause |
| BuildTypeSelect.TypeFormals | compiler/AST/build.cpp:623-648 | one formal per selected expression |
| BuildTypeSelect.AddTypeFormals | compiler/AST/build.cpp:623-648 | the loop adds `_t1`… as formals in order, typed by the clause's conditions, or any for the otherwise clause |
| BuildTypeSelect.TypeCaseFnShape | compiler/AST/build.cpp:618-654 | a case function `_typeselect<uid>` returns its case number and has the clause's formals |
| BuildTypeSelect.CheckClauses | compiler/AST/build.cpp:611-656 | a successful check has only WHEN clauses |
| BuildTypeSelect.CheckOkWellFormed | compiler/AST/build.cpp:611-656 | the check passes only on WHEN clauses with one condition per expression and at most one otherwise |
| BuildTypeSelect.CheckWellFormedOk | compiler/AST/build.cpp:611-656 | such clauses always pass |
| BuildTypeSelect.CheckMultipleOtherwise | compiler/AST/build.cpp:618-620 | a second otherwise is the user-fatal error |
| BuildTypeSelect.CheckArityMismatch | compiler/AST/build.cpp:638-639 | a condition count different from the expression count is the user-fatal error |
| BuildTypeSelect.CheckNotAWhen | compiler/AST/build.cpp:612-617 | a clause that is not a WHEN is the internal error |
| BuildTypeSelect.CheckErrorSticky | compiler/AST/build.cpp:611-656 | once a clause fails the check, later clauses do not change the error |
| BuildTypeSelect.CaseFnReturns | compiler/AST/build.cpp:618-654 | case function k returns k and constrains each formal by the clause's condition |
| BuildTypeSelect.CasesSelect | compiler/AST/build.cpp:633-664 | the case clauses always form a valid select |
| BuildTypeSelect.TypeSelectSucceeds | compiler/AST/build.cpp:603-666 | the builder succeeds exactly on well-formed clauses, and otherwise fails with the check's error |
| BuildTypeSelect.TypeSelectShape | compiler/AST/build.cpp:657-665 | the result is the temp, the case functions, `tmp = _typeselect<uid>(exprs)`, and the select |
| BuildTypeSelect.TypeSelectDispatch | compiler/AST/build.cpp:664 | the final statement is the select over the case numbers |
| BuildTypeSelect.TypeSelectSameName | compiler/AST/build.cpp:604-640 | two type selects built in sequence name their functions identically, because the counter is never advanced |
| BuildTypeSelect.TypeScanLoop | compiler/AST/build.cpp:611-656 | the clause loop either reports the check's error or leaves the case functions and the numbered case clauses in the two blocks |
| BuildTypeSelect.TypeSelectFinish | compiler/AST/build.cpp:657-665 | the final block is the temp, the case functions, the call and the select over the case clauses |
| BuildTypeSelect.TypeSelect | compiler/AST/build.cpp:603-666 | the loop builds the reference type select, errors included |
| CommTags.NextUnique | runtime/comm-pvm/chpl_cfg_comm.c:172-180 | the counter stays in [1, 4194294], advances by one and wraps to 1 |
| CommTags.ReduceBounds | runtime/comm-pvm/chpl_cfg_comm.c:179 | the reduction loop terminates in [1, 4194294] and leaves in-range tags unchanged |
| CommTags.HighBitsRange | runtime/comm-pvm/chpl_cfg_comm.c:176-177 | the high bits of a 32-bit thread id are at most 1024 |
| CommTags.TagOfValid | runtime/comm-pvm/chpl_cfg_comm.c:174-182 | the tag is in [1, 4194294], never a reserved tag or the envelope tag, fits the 27-bit field, and its arithmetic stays in 32 bits |
| CommTags.TagOfIsCounter | runtime/comm-pvm/chpl_cfg_comm.c:174-182 | on locale 0 with a small thread id the tag is the counter |
| CommTags.TagGen.MakeTag | runtime/comm-pvm/chpl_cfg_comm.c:172-182 | returns the tag for the counter, advances the counter, and keeps it in range |
| CommTags.TagAsWrittenAgrees | runtime/comm-pvm/chpl_cfg_comm.c:174-182 | for every thread id but -2^31 the 32-bit computation gives the same tag |
| CommTags.TagAsWrittenNegative | runtime/comm-pvm/chpl_cfg_comm.c:176-177 | for thread id -2^31 the 32-bit computation gives -102399 |
| CommWords.Low | runtime/comm-pvm/chpl_cfg_comm.c:277 | the low word is a 32-bit int congruent to the value modulo 2^32 |
| CommWords.High | runtime/comm-pvm/chpl_cfg_comm.c:278 | the high word of a 64-bit value is a 32-bit int |
| CommWords.AsSigned | runtime/comm-pvm/chpl_cfg_comm.c:396-397 | a uint64 read as int64 stays in the int64 range |
| CommWords.AsUnsigned | runtime/comm-pvm/chpl_cfg_comm.c:420 | an int64 read as uint64 stays in the uint64 range |
| CommWords.JoinSplitSigned | runtime/comm-pvm/chpl_cfg_comm.c:271-312 | joining the two words of an int64 gives it back |
| CommWords.JoinSplitUnsigned | runtime/comm-pvm/chpl_cfg_comm.c:390-431 | joining the two words of a uint64 gives it back |
| CommWords.SplitJoin | runtime/comm-pvm/chpl_cfg_comm.c:293-312 | splitting a joined pair of words gives them back |
| CommWords.SplitInjective | runtime/comm-pvm/chpl_cfg_comm.c:271-291 | different int64 values have different words |
| CommEnvelope.LeRoundTrip | runtime/comm-pvm/chpl_cfg_comm.c:845-847 | the address bytes read back as the address |
| CommEnvelope.Encode | runtime/comm-pvm/chpl_cfg_comm.c:832-855 | type, reply tag, size, then the address bytes, nothing, or the function id |
| CommEnvelope.ToField | runtime/comm-pvm/chpl_cfg_comm.c:148-150 | the bit fields keep values that fit them |
| CommEnvelope.EnvelopeRoundTrip | runtime/comm-pvm/chpl_cfg_comm.c:615-638 | unpacking what was packed restores type, tag, size and the payload, and consumes exactly the envelope |
| CommEnvelope.EncodeInjective | runtime/comm-pvm/chpl_cfg_comm.c:832-855 | different envelopes pack differently |
| CommEnvelope.PackEnvelope | runtime/comm-pvm/chpl_cfg_comm.c:832-855 | the send buffer gains exactly the envelope's items |
| CommEnvelope.UnpackEnvelope | runtime/comm-pvm/chpl_cfg_comm.c:615-638 | reads the envelope at the read position and advances past it |
| CommEnvelope.EnvelopeThroughBuffers | runtime/comm-pvm/chpl_cfg_comm.c:832-855 | an envelope packed and then unpacked is the original |
| CommLocale.BarrierCount | runtime/comm-pvm/chpl_cfg_comm.c:1404-1434 | locale 0 skips on exit_all; "barrier before main" uses numLocales; otherwise flag 2 gives numLocales-1 and anything else numLocales |
| CommLocale.AwaitOkay | runtime/comm-pvm/chpl_cfg_comm.c:1409-1420 | a set flag is kept; otherwise the first nonzero flag received, or none |
| CommLocale.AwaitOkayIsFirst | runtime/comm-pvm/chpl_cfg_comm.c:1409-1420 | the wait ends on the first nonzero flag |
| CommLocale.Counted | runtime/comm-pvm/chpl_cfg_comm.c:1540-1544 | only the counter of the operation's kind grows, by one, and only when counting |
| CommLocale.BroadcastReachesOthers | runtime/comm-pvm/chpl_cfg_comm.c:1351-1375 | the envelopes go to every locale but this one, in ascending order |
| CommLocale.Others | runtime/comm-pvm/chpl_cfg_comm.c:1351-1375 | ascending locale ids below the count, without this one |
| CommLocale.RemoteOpsAddressOneLocale | runtime/comm-pvm/chpl_cfg_comm.c:1555-1700 | put, get, fork and fork_nb each send exactly one envelope, to the target |
| CommLocale.ForkWaitsForReply | runtime/comm-pvm/chpl_cfg_comm.c:1646-1700 | fork waits for the empty reply on its tag; fork_nb receives nothing |
| CommLocale.TraceEnvelopesDecode | runtime/comm-pvm/chpl_cfg_comm.c:615-638 | every envelope in a valid trace decodes to itself |
| CommLocale.ExitBarrierCounts | runtime/comm-pvm/chpl_cfg_comm.c:1439-1518 | after exit_any on a nonzero locale, the others see flag 2 and bar with numLocales-1; locale 0 sets 1 and bars with numLocales |
| CommLocale.GetLocalAsWrittenCounterexample | runtime/comm-pvm/chpl_cfg_comm.c:1580 | a local get of one byte from 1 into 0 on [1, 2] leaves [1, 1] |
| CommLocale.GetLocalIntended | runtime/comm-pvm/chpl_cfg_comm.c:1570-1618 | the bytes at the remote address land at the local one |
| CommLocale.Locale.constructor | runtime/comm-pvm/chpl_cfg_comm.c:96-106 | counters zero, barrier flag 1, diagnostics off, empty trace |
| CommLocale.Locale.Put | runtime/comm-pvm/chpl_cfg_comm.c:1520-1568 | local: the copy, or the memmove error for a negative size, no message, no count; remote: one Put envelope on the envelope tag, then the data on a fresh tag, acknowledged, and only the put counter |
| CommLocale.Locale.Get | runtime/comm-pvm/chpl_cfg_comm.c:1570-1618 | local: copies as written (from the local address to the remote); remote: one Get envelope, then the data received into memory and acknowledged, and only the get counter |
| CommLocale.Locale.Fork | runtime/comm-pvm/chpl_cfg_comm.c:1620-1655 | local: a direct call; remote: envelope, argument, the wait for the reply, and only the fork counter |
| CommLocale.Locale.ForkNB | runtime/comm-pvm/chpl_cfg_comm.c:1657-1702 | local: a task; remote: envelope and argument without a wait, and only the nb-fork counter |
| CommLocale.Locale.BroadcastPrivate | runtime/comm-pvm/chpl_cfg_comm.c:1342-1383 | nothing for one locale; otherwise one fresh tag and, for every other locale in order, an envelope with the table index then the value |
| CommLocale.Locale.BroadcastTo | runtime/comm-pvm/chpl_cfg_comm.c:1356-1374 | one loop step: envelope and value to that locale, nothing to itself |
| CommLocale.Locale.Barrier | runtime/comm-pvm/chpl_cfg_comm.c:1385-1437 | skip, bar with numLocales, or wait for the flag and bar with the count the flag decides; an unpack failure leaves flag 0 |
| CommLocale.Locale.Rollcall | runtime/comm-pvm/chpl_cfg_comm.c:1267-1279 | several locales clear the barrier flag |
| CommLocale.Locale.Shutdown | runtime/comm-pvm/chpl_cfg_comm.c:1457-1472 | the shutdown envelope to itself, the final barrier, and the launcher signal when there is a parent |
| CommLocale.Locale.ExitAll | runtime/comm-pvm/chpl_cfg_comm.c:1439-1475 | locale 0 sets and broadcasts flag 1 and bars; then the shutdown; the diagnostics and verbose flags are kept, and a failed unpack leaves the barrier flag 0 |
| CommLocale.Locale.ExitAny | runtime/comm-pvm/chpl_cfg_comm.c:1477-1518 | locale 0 as in exit_all; other locales set and broadcast flag 2; then the shutdown; the diagnostics and verbose flags are kept, and a failed unpack leaves the barrier flag 0 |
| CommLocale.Locale.SetAndBroadcast | runtime/comm-pvm/chpl_cfg_comm.c:1709-1753 | sets one flag, and broadcasts it as four bytes when there are several locales |
| CommLocale.Locale.StartCommDiagnostics | runtime/comm-pvm/chpl_cfg_comm.c:1741-1746 | diagnostics on everywhere, private debugging off; with several locales one tag is drawn, with one the tag counter is kept |
| CommLocale.Locale.StopCommDiagnostics | runtime/comm-pvm/chpl_cfg_comm.c:1748-1753 | diagnostics off everywhere; with several locales one tag is drawn, with one the tag counter is kept |
| CommLocale.Locale.StartVerboseComm | runtime/comm-pvm/chpl_cfg_comm.c:1719-1724 | verbose on everywhere; with several locales one tag is drawn, with one the tag counter is kept |
| CommLocale.Locale.StopVerboseComm | runtime/comm-pvm/chpl_cfg_comm.c:1726-1731 | verbose off everywhere; with several locales one tag is drawn, with one the tag counter is kept |
| CommLocale.Locale.SetCommDiagnosticsHere | runtime/comm-pvm/chpl_cfg_comm.c:1755-1761 | only the local diagnostics flag changes |
| CommLocale.Locale.SetVerboseCommHere | runtime/comm-pvm/chpl_cfg_comm.c:1733-1739 | only the local verbose flag changes |

## Left out

- PVM is not modelled: task spawning, sends, receives, buffers and groups. A send or receive is an event of the locale's trace, and what other locales send back is a parameter (`incoming` of `Get`, `received` of `Barrier` and the exits).
- Concurrency is left out: the polling thread and the dispatch in it, and the mutexes and condition variables.
- `chpl_comm_init`, `mysystem`, the gdb launch, and the printf forwarding (`chpl_pvm_printf` and its relatives) are left out, because they are I/O.
- The heterogeneous packers for 16/32-bit, floating-point and class-reference fields are left out. They depend on field tables that are not part of this model.
- The meaning of the primitives downstream (resolution, code generation) is not modelled. The AST constructors, `insert`, `remove` and `copy` are list splices over the datatype. `astr` and `istr` are string concatenation with a decimal rendering.
- CommLocale.Locale.Get: requires a non-negative size for a remote get, since the received bytes are a sequence of that length. The source sends a negative size in the envelope and hands it to the data receive, whose behaviour on it is PVM's.
- CommLocale.Locale.Put: requires a non-negative size for a remote put. The source sends a negative size in the envelope and hands it to the data send, whose behaviour on it is PVM's.
- CommLocale.Counted: the diagnostics counters are unbounded. The source's `int` counters would overflow after 2^31 operations.
- CommLocale.Locale.Shutdown: the shutdown envelope carries the reply tag and size left uninitialised in `msg_info`. These are the parameters `staleTag` and `staleSize`.
- CommEnvelope.Encode: assumes a 64-bit little-endian host. A pointer packs 8 bytes and an int flag is laid out low byte first; a 32-bit or big-endian host is not modelled.
- CommLocale.Locale.Fork: the function called on the local path is not modelled. Its effect on memory is the parameter `callMem`, and the call with its argument is recorded as a `LocalCall` event.
- CommEnvelope.Decode: the message union is modelled as a datatype. Reading a union member other than the one written is not modelled.
- CommTags.TagOf: takes the absolute value of the thread id mathematically, not with 32-bit wrap-around. `CommTags.TagAsWritten` models the wrap-around (see Findings).
- BuildTuples.TupleVarDecl: the declarations block that the source removes afterwards is not modelled, because it is a separate tree.
- BuildParallel.SpawnBranches: replaces the whole statement list with the branches, rather than replacing the statements one by one in place. The resulting list is the same.
- BuildSelect.Select: builds the if/else-if chain from the collected arms, rather than extending the chain while scanning. The chain built is the same.
- BuildSelect.Select: does not remove the WHEN call from the conditional's test. The conditions are read from it, but the tree is not mutated.
- BuildTypeSelect.TypeSelect: requires at least one clause. On an empty clause list the source never creates a case function and dereferences the null one when it builds the call (compiler/AST/build.cpp:663); the model excludes that input.
- BuildModules.CreateInitFn: the module's block and the program's state are separate objects. In the source, for `_Program`, `mod->block` is `theProgram->block` and the new init function becomes `theProgram->initFn`; the model does not capture that aliasing.
- BuildModules.InitState.EnsureGuards: keeps the body of `_initModuleGuards` as a state field, not inside the function symbol.
- `backPropagateInitsTypes` and `setVarSymbolAttributes` report the internal error as an outcome. The source aborts at that point, so the statements processed before the error keep their changes, as the model states.
- `build_loop_labels`, `build_chpl_stmt`, `buildOnStmt` when not local, and the other helpers are modelled only as far as the builders above use them.
- The `fLocal` flag of `buildOnStmt` is a parameter.
- `compiler/include/misc.h` is not part of this model beyond its five error tags. `handleError`, call-stack printing and signal handling are left out.
- The `preadv`/`pwritev` file-I/O test is not part of this model.

## Findings

| source | as written | input that shows it | evidently intended | confidence | as-written member | corrected member |
|---|---|---|---|---|---|---|
| runtime/comm-pvm/chpl_cfg_comm.c:174-182 | `makeTag` negates a negative thread id in 32-bit `int`, so -2^31 stays negative and the high bits are -1024. The thread id is `(int)pthread_self`, a function address truncated to `int`, at every call site (lines 1357, 1548, 1598, 1639, 1688). `PVM_SAFE` (lines 34-45) then treats the negative tag as a failed call and halts through `chpl_error` | thread id -2^31, counter 1, locale 0: the tag is -102399 | the absolute value of the thread id, which gives 102401, in [1, 4194294] | not executed | CommTags.TagAsWritten, CommTags.TagAsWrittenNegative | CommTags.TagOf, CommTags.TagOfValid, CommTags.TagGen.MakeTag |
| runtime/comm-pvm/chpl_cfg_comm.c:1580 | the local path of `chpl_comm_get` copies from the local address to the remote one, as put does | memory [1, 2], local address 0, remote address 1, size 1: the result is [1, 1] and address 0 does not receive 2 | the bytes at the remote address land at the local address, as the remote path does | not executed | CommLocale.Locale.Get, CommLocale.GetLocalAsWrittenCounterexample | CommLocale.GetLocalIntended |

`CommLocale.Locale.Get` keeps the copy direction as written. `CommLocale.GetLocalIntended` states the intended local get. It agrees with what the remote path of `Get` writes into memory.

=== FILE: ast.dfy ===
/**
 * The abstract syntax tree the lowering builders produce, as values.
 *
 * A symbol carries an `Ident`: its name and a unique id.  Every symbol a
 * builder creates takes its id from the naming context `Names`, which also
 * holds each builder's static counter (the numbers appended to the names
 * of compiler-generated functions).  Parent links and in-place list
 * surgery are modelled by building the lists in the order the surgery
 * leaves them; the one list that builders mutate after it was handed to
 * them, a block's statement list, is the class `BlockStmt`.
 */
module Ast {
  import opened Diagnostics

  /** Symbol identity: the name and a unique id. */
  datatype Ident = Ident(name: string, id: nat)

  datatype BlockTag =
    | Normal | Scopeless | TypeOnly | Begin | On | Serial
    | WhileDo | DoWhile | ParamFor | For | Forall | Coforall

  /** Primitive operations the builders emit. */
  datatype Prim =
    | PMove | PReturn | PGetRef | PSetRef | PLogicalFolder | PError | PWhen
    | PLoopWhileDo | PLoopDoWhile | PLoopParam | PLoopFor | PLoopCFor
    | PInit | PTypeOf | PIsTuple | PNew | PGetEndCount | PSetEndCount
    | PGetSerial | PSetSerial | PGetLocale | PNamedPrim(pname: string)

  datatype Intent = IntentBlank | IntentIn | IntentInout | IntentOut | IntentConst | IntentRef | IntentParam | IntentType

  /** The types the builders attach directly to symbols. */
  datatype TypeRef = TUnknown | TAny | TVoid | TInt32

  datatype RetTag = RetValue | RetParam

  /** Flags of a variable (and of a formal argument). */
  datatype VarFlags = VarFlags(
    isCompilerTemp: bool, canParam: bool, canType: bool, isTypeVariable: bool,
    isConfig: bool, isParam: bool, isConst: bool)

  const NoFlags := VarFlags(false, false, false, false, false, false, false)
  const TempFlags := NoFlags.(isCompilerTemp := true)

  /** What a symbol expression refers to. */
  datatype SymRef =
    | Bound(ident: Ident)
    | Unresolved(uname: string)
    | IntLit(i: int)
    | StrLit(s: string)
    | BoolLit(b: bool)
    | VoidLit

  /** The function a call invokes. */
  datatype Callee =
    | Named(name: string)
    | Prim(op: Prim)
    | Resolved(fn: Ident)
    | Computed(fnExpr: Ast)

  datatype LoopLabels = LoopLabels(pre: Ident, post: Ident)

  datatype Symbol =
    | Var(ident: Ident, flags: VarFlags, pragmas: set<string>)
    | Arg(ident: Ident, intent: Intent, typ: TypeRef, defaultExpr: Option<Ast>, variableExpr: Option<Ast>, flags: VarFlags)
    | Fn(ident: Ident, formals: seq<Ast>, body: seq<Ast>, pragmas: set<string>,
         retTag: RetTag, retType: TypeRef, whereClause: Option<Ast>, fnCanParam: bool, fnCanType: bool)
    | ModuleSym(ident: Ident)
    | TypeSym(ident: Ident)

  datatype Ast =
    | Block(tag: BlockTag, body: seq<Ast>, loopInfo: Option<Ast>, labels: Option<LoopLabels>)
    | Cond(test: Ast, thenS: Ast, elseS: Option<Ast>)
    | Call(callee: Callee, args: seq<Ast>)
    | Sym(ref: SymRef)
    | Def(sym: Symbol, init: Option<Ast>, exprType: Option<Ast>)
    | Label(lbl: Ident)

  // ---- small constructors used by every builder ----

  function SymOf(x: Ident): Ast { Sym(Bound(x)) }
  function Lit(i: int): Ast { Sym(IntLit(i)) }
  function Str(s: string): Ast { Sym(StrLit(s)) }
  function PrimCall(p: Prim, args: seq<Ast>): Ast { Call(Prim(p), args) }
  function CallNamed(name: string, args: seq<Ast>): Ast { Call(Named(name), args) }
  function Move(dst: Ast, src: Ast): Ast { PrimCall(PMove, [dst, src]) }
  function DefVar(x: Ident, flags: VarFlags): Ast { Def(Var(x, flags, {}), None, None) }
  function PlainBlock(tag: BlockTag, body: seq<Ast>): Ast { Block(tag, body, None, None) }
  /** A call whose function is defined in place, as a lowered expression is. */
  function CallDefined(fn: Symbol): Ast { Call(Computed(Def(fn, None, None)), []) }

  /** A call names `n` when its function is the name `n`, or a symbol called `n`. */
  predicate IsNamed(c: Callee, n: string)
  {
    match c
    case Named(m) => m == n
    case Resolved(f) => f.name == n
    case Computed(e) => e.Sym? && ((e.ref.Bound? && e.ref.ident.name == n) || (e.ref.Unresolved? && e.ref.uname == n))
    case Prim(_) => false
  }

  /** A symbol expression names `n` when it is unresolved `n` or bound to a symbol called `n`. */
  predicate SymNamed(e: Ast, n: string)
  {
    e.Sym? && ((e.ref.Unresolved? && e.ref.uname == n) || (e.ref.Bound? && e.ref.ident.name == n))
  }

  // ---- the naming context ----

  /**
   * Fresh symbol ids and the static counters of the builders.  `typeSelectUid`
   * is never advanced by the type-select builder.
   */
  datatype Names = Names(
    nextId: nat, ifUid: nat, letUid: nat, loopUid: nat, beginUid: nat,
    onUid: nat, reduceUid: nat, tupleArgUid: nat, typeSelectUid: nat)

  function InitialNames(firstId: nat): Names
  {
    Names(firstId, 1, 1, 1, 1, 1, 1, 1, 1)
  }

  /**
   * A new symbol with the given name.  Its id is at or above the supply it
   * was drawn from, and the supply that is left starts just past it, so no
   * symbol drawn earlier or later has it (see `FreshIsNew`).
   */
  function Fresh(n: Names, name: string): (r: (Ident, Names))
    ensures r.0.name == name
    ensures n.nextId <= r.0.id
    ensures r.1 == n.(nextId := r.0.id + 1)
  {
    (Ident(name, n.nextId), n.(nextId := n.nextId + 1))
  }

  /** The later context has allocated at least as many ids and numbers as the earlier. */
  predicate Advanced(a: Names, b: Names)
  {
    a.nextId <= b.nextId && a.ifUid <= b.ifUid && a.letUid <= b.letUid && a.loopUid <= b.loopUid
    && a.beginUid <= b.beginUid && a.onUid <= b.onUid && a.reduceUid <= b.reduceUid
    && a.tupleArgUid <= b.tupleArgUid && a.typeSelectUid == b.typeSelectUid
  }

  /**
   * Every symbol drawn from a later context has a larger id than one drawn
   * before it, whatever was allocated in between.
   */
  lemma FreshIsNew(n: Names, m: Names, a: string, b: string)
    requires Advanced(Fresh(n, a).1, m)
    ensures Fresh(m, b).0.id > Fresh(n, a).0.id
  {
  }

  /** Two symbols drawn one after the other differ, even when they have the same name. */
  lemma FreshDistinct(n: Names, a: string, b: string)
    ensures Fresh(Fresh(n, a).1, b).0 != Fresh(n, a).0
  {
    FreshIsNew(n, Fresh(n, a).1, a, b);
  }

  // ---- decimal rendering of counters ----

  function Digit(d: nat): (c: char)
    requires d < 10
    ensures '0' <= c <= '9' && (c as int) - ('0' as int) == d
  {
    "0123456789"[d]
  }

  predicate AllDigits(s: string)
  {
    forall i :: 0 <= i < |s| ==> '0' <= s[i] <= '9'
  }

  /** The decimal text of a counter, as appended to generated names. */
  function Istr(n: nat): (s: string)
    ensures |s| >= 1 && AllDigits(s)
    ensures n < 10 <==> |s| == 1
    decreases n
  {
    if n < 10 then [Digit(n)] else Istr(n / 10) + [Digit(n % 10)]
  }

  /** Reads decimal text back as a number. */
  function ParseDecimal(s: string): nat
    requires AllDigits(s)
  {
    if s == [] then 0 else ParseDecimal(s[..|s| - 1]) * 10 + ((s[|s| - 1] as int) - ('0' as int))
  }

  lemma {:induction false} IstrRoundTrip(n: nat)
    ensures ParseDecimal(Istr(n)) == n
    decreases n
  {
    if n >= 10 {
      IstrRoundTrip(n / 10);
      var s := Istr(n);
      assert s[..|s| - 1] == Istr(n / 10);
    }
  }

  /** Different counter values give different generated names. */
  lemma NumberedNameInjective(prefix: string, a: nat, b: nat)
    requires prefix + Istr(a) == prefix + Istr(b)
    ensures a == b
  {
    assert Istr(a) == (prefix + Istr(a))[|prefix|..];
    assert Istr(b) == (prefix + Istr(b))[|prefix|..];
    IstrRoundTrip(a);
    IstrRoundTrip(b);
  }

  // ---- a statement list that builders change in place ----

  class BlockStmt {
    var tag: BlockTag
    var body: seq<Ast>

    constructor (tag: BlockTag, body: seq<Ast>)
      ensures this.tag == tag && this.body == body
    {
      this.tag := tag;
      this.body := body;
    }

    /** The block as a tree value. */
    function AsAst(): (r: Ast)
      reads this
      ensures r.Block? && r.tag == tag && r.body == body
    {
      PlainBlock(tag, body)
    }

    method InsertAtHead(s: Ast)
      modifies this
      ensures body == [s] + old(body) && tag == old(tag)
    {
      body := [s] + body;
    }

    method InsertAtTail(s: Ast)
      modifies this
      ensures body == old(body) + [s] && tag == old(tag)
    {
      body := body + [s];
    }

    /** Places `s` just before the statement at position `at`. */
    method InsertBefore(at: nat, s: Ast)
      requires at < |body|
      modifies this
      ensures body == old(body)[..at] + [s] + old(body)[at..] && tag == old(tag)
      ensures body[at + 1] == old(body)[at]
    {
      body := body[..at] + [s] + body[at..];
    }

    /** Puts `s` in place of the statement at position `at`. */
    method Replace(at: nat, s: Ast)
      requires at < |body|
      modifies this
      ensures body == old(body)[at := s] && tag == old(tag)
    {
      body := body[at := s];
    }

    /** Takes the statement at position `at` out of the list. */
    method RemoveAt(at: nat)
      requires at < |body|
      modifies this
      ensures body == old(body)[..at] + old(body)[at + 1..] && tag == old(tag)
    {
      body := body[..at] + body[at + 1..];
    }
  }

  /**
   * A function under construction: the parts of a function symbol that
   * builders extend in place (its formals, its body, its where clause).
   */
  class FnStmt {
    var formals: seq<Ast>
    var body: seq<Ast>
    var whereClause: Option<Ast>

    constructor (formals: seq<Ast>, body: seq<Ast>, whereClause: Option<Ast>)
      ensures this.formals == formals && this.body == body && this.whereClause == whereClause
    {
      this.formals := formals;
      this.body := body;
      this.whereClause := whereClause;
    }

    method InsertFormalAtTail(f: Ast)
      modifies this
      ensures formals == old(formals) + [f]
      ensures body == old(body) && whereClause == old(whereClause)
    {
      formals := formals + [f];
    }

    method InsertAtHead(s: Ast)
      modifies this
      ensures body == [s] + old(body)
      ensures formals == old(formals) && whereClause == old(whereClause)
    {
      body := [s] + body;
    }

    method InsertAtTail(s: Ast)
      modifies this
      ensures body == old(body) + [s]
      ensures formals == old(formals) && whereClause == old(whereClause)
    {
      body := body + [s];
    }
  }
}

=== FILE: build_decls.dfy ===
/**
 * Declaration lists: `var a, b: t = e` declares several variables at once,
 * and only the last one carries the type and initialiser; they are copied
 * leftwards onto the others.  The variable attributes of a declaration
 * list (config, param, const) are set on every variable it declares.
 */
module BuildDecls {
  import opened Diagnostics
  import opened Ast

  const BackPropagateError := InternalFatal("Major error in backPropagateInitsTypes")
  const SetAttributesError := InternalFatal("Major error in setVarSymbolAttributes")

  // ---- back-propagation of initialisers and types ----

  /** A definition that states its own initialiser or type. */
  predicate Declares(d: Ast)
  {
    d.Def? && (d.init.Some? || d.exprType.Some?)
  }

  /** The (initialiser, type) pair carried into position 0 by a right-to-left scan of `s` that starts with `carry`. */
  function SuffixCarry(s: seq<Ast>, carry: (Option<Ast>, Option<Ast>)): (Option<Ast>, Option<Ast>)
  {
    if s == [] then carry
    else if Declares(s[0]) then (s[0].init, s[0].exprType)
    else SuffixCarry(s[1..], carry)
  }

  /** A definition that declares keeps its own pair; any other receives the carried pair. */
  function Fill(d: Ast, carry: (Option<Ast>, Option<Ast>)): Ast
    requires d.Def?
  {
    if Declares(d) then d else Def(d.sym, carry.0, carry.1)
  }

  predicate AllDefs(s: seq<Ast>)
  {
    forall k :: 0 <= k < |s| ==> s[k].Def?
  }

  /** The definitions after back-propagation, when the scan starts with `carry` at the right end. */
  function BackPropagated(s: seq<Ast>, carry: (Option<Ast>, Option<Ast>)): (r: seq<Ast>)
    requires AllDefs(s)
    ensures |r| == |s|
  {
    if s == [] then []
    else [Fill(s[0], SuffixCarry(s[1..], carry))] + BackPropagated(s[1..], carry)
  }

  /** The position of the rightmost statement that is not a definition, if any. */
  function LastNonDef(s: seq<Ast>): (r: Option<nat>)
    ensures r.None? <==> AllDefs(s)
    ensures r.Some? ==> r.value < |s| && !s[r.value].Def? && AllDefs(s[r.value + 1..])
  {
    LastNonDefBelow(s, |s|)
  }

  /** The position of the rightmost statement below `n` that is not a definition, if any. */
  function LastNonDefBelow(s: seq<Ast>, n: nat): (r: Option<nat>)
    requires n <= |s|
    ensures r.None? ==> forall k :: 0 <= k < n ==> s[k].Def?
    ensures r.Some? ==> r.value < n && !s[r.value].Def? && forall k :: r.value < k < n ==> s[k].Def?
    decreases n
  {
    if n == 0 then None
    else if !s[n - 1].Def? then Some(n - 1)
    else LastNonDefBelow(s, n - 1)
  }

  /** The nearest declaring definition at or after position `j`, if any. */
  function NearestDeclaring(s: seq<Ast>, j: nat): (r: Option<nat>)
    requires j <= |s|
    ensures r.Some? ==> j <= r.value < |s| && Declares(s[r.value]) && forall i :: j <= i < r.value ==> !Declares(s[i])
    ensures r.None? ==> forall i :: j <= i < |s| ==> !Declares(s[i])
    decreases |s| - j
  {
    if j == |s| then None
    else if Declares(s[j]) then Some(j)
    else NearestDeclaring(s, j + 1)
  }

  /** The carried pair is that of the nearest declaring definition to the right, or the starting pair. */
  lemma {:induction false} CarryIsNearest(s: seq<Ast>, j: nat, carry: (Option<Ast>, Option<Ast>))
    requires j <= |s|
    ensures
      var n := NearestDeclaring(s, j);
      SuffixCarry(s[j..], carry) == if n.Some? then (s[n.value].init, s[n.value].exprType) else carry
    decreases |s| - j
  {
    if j < |s| && !Declares(s[j]) {
      CarryIsNearest(s, j + 1, carry);
      assert s[j..][1..] == s[j + 1..];
    }
  }

  /**
   * Element `k` after back-propagation: a definition that declares is kept;
   * any other receives the initialiser and type of the nearest declaring
   * definition to its right (none when there is none).
   */
  lemma {:induction false} BackPropagatedAt(s: seq<Ast>, k: nat)
    requires AllDefs(s) && k < |s|
    ensures BackPropagated(s, (None, None))[k] == Fill(s[k], SuffixCarry(s[k + 1..], (None, None)))
    ensures
      var n := NearestDeclaring(s, k + 1);
      var d := BackPropagated(s, (None, None))[k];
      d.sym == s[k].sym
      && (Declares(s[k]) ==> d == s[k])
      && (!Declares(s[k]) && n.Some? ==> d.init == s[n.value].init && d.exprType == s[n.value].exprType)
      && (!Declares(s[k]) && n.None? ==> d.init == None && d.exprType == None)
    decreases k
  {
    if k > 0 {
      BackPropagatedAt(s[1..], k - 1);
      assert s[1..][k - 1 + 1..] == s[k + 1..];
    }
    CarryIsNearest(s, k + 1, (None, None));
  }

  /** Back-propagating a second time changes nothing. */
  lemma {:induction false} BackPropagatedIdempotent(s: seq<Ast>)
    requires AllDefs(s)
    ensures AllDefs(BackPropagated(s, (None, None)))
    ensures BackPropagated(BackPropagated(s, (None, None)), (None, None)) == BackPropagated(s, (None, None))
  {
    var t := BackPropagated(s, (None, None));
    forall k | 0 <= k < |t|
      ensures t[k].Def?
    {
      BackPropagatedAt(s, k);
    }
    forall k | 0 <= k < |t|
      ensures BackPropagated(t, (None, None))[k] == t[k]
    {
      BackPropagatedAt(t, k);
      BackPropagatedAt(s, k);
      CarryIsNearest(t, k + 1, (None, None));
      CarryIsNearest(s, k + 1, (None, None));
      NearestAgree(s, t, k + 1);
    }
  }

  /** After back-propagation, the declaring definitions and their pairs are the same as before. */
  lemma {:induction false} NearestAgree(s: seq<Ast>, t: seq<Ast>, j: nat)
    requires AllDefs(s) && t == BackPropagated(s, (None, None)) && j <= |s|
    ensures
      var a := NearestDeclaring(s, j);
      var b := NearestDeclaring(t, j);
      (a.None? ==> b.None? || (t[b.value].init == None && t[b.value].exprType == None))
      && (a.Some? ==> b.Some? && b.value <= a.value && t[b.value].init == s[a.value].init && t[b.value].exprType == s[a.value].exprType)
    decreases |s| - j
  {
    if j < |s| {
      BackPropagatedAt(s, j);
      NearestAgree(s, t, j + 1);
      CarryIsNearest(s, j + 1, (None, None));
    }
  }

  /** A non-definition at `k` with only definitions after it is the rightmost one. */
  lemma LastNonDefAt(s: seq<Ast>, k: nat)
    requires k < |s| && !s[k].Def? && AllDefs(s[k + 1..])
    ensures LastNonDef(s) == Some(k)
  {
    forall j | k < j < |s|
      ensures s[j].Def?
    {
      assert s[j] == s[k + 1..][j - k - 1];
    }
    LastNonDefBelowAt(s, |s|, k);
  }

  lemma {:induction false} LastNonDefBelowAt(s: seq<Ast>, n: nat, k: nat)
    requires k < n <= |s| && !s[k].Def? && forall j :: k < j < n ==> s[j].Def?
    ensures LastNonDefBelow(s, n) == Some(k)
    decreases n
  {
    if k < n - 1 {
      LastNonDefBelowAt(s, n - 1, k);
    }
  }

  /** One turn of the scan: position `i - 1` is filled from the pair carried from its right. */
  lemma BackPropagateStep(s: seq<Ast>, i: nat, body: seq<Ast>, carry: (Option<Ast>, Option<Ast>))
    requires 0 < i <= |s| && s[i - 1].Def? && AllDefs(s[i..])
    requires body == s[..i] + BackPropagated(s[i..], (None, None))
    requires carry == SuffixCarry(s[i..], (None, None))
    ensures AllDefs(s[i - 1..])
    ensures SuffixCarry(s[i - 1..], (None, None)) == if Declares(s[i - 1]) then (s[i - 1].init, s[i - 1].exprType) else carry
    ensures Declares(s[i - 1]) ==> body == s[..i - 1] + BackPropagated(s[i - 1..], (None, None))
    ensures !Declares(s[i - 1]) ==>
      body[i - 1 := Def(s[i - 1].sym, carry.0, carry.1)] == s[..i - 1] + BackPropagated(s[i - 1..], (None, None))
  {
    var st := s[i - 1];
    var t := s[i..];
    assert s[i - 1..] == [st] + t;
    assert ([st] + t)[1..] == t;
    assert BackPropagated(s[i - 1..], (None, None)) == [Fill(st, carry)] + BackPropagated(t, (None, None));
    assert s[..i] == s[..i - 1] + [st];
  }

  lemma ScanAt(s: seq<Ast>, i: nat, body: seq<Ast>)
    requires 0 < i <= |s| && AllDefs(s[i..])
    requires body == s[..i] + BackPropagated(s[i..], (None, None))
    ensures |body| == |s| && body[i - 1] == s[i - 1]
  {
  }

  /**
   * Copies initialiser and type leftwards through a declaration list,
   * scanning it from the right.  A statement that is not a definition stops
   * the scan with an internal error; the definitions to its right have
   * already been filled by then.
   */
  method BackPropagate(block: BlockStmt) returns (r: Outcome)
    modifies block
    ensures block.tag == old(block.tag)
    ensures LastNonDef(old(block.body)).None? ==>
      r == Pass && block.body == BackPropagated(old(block.body), (None, None))
    ensures LastNonDef(old(block.body)).Some? ==>
      var k := LastNonDef(old(block.body)).value;
      r == Fail(BackPropagateError)
      && block.body == old(block.body)[..k + 1] + BackPropagated(old(block.body)[k + 1..], (None, None))
  {
    ghost var s := block.body;
    var carry: (Option<Ast>, Option<Ast>) := (None, None);
    var i := |block.body|;
    while i > 0
      invariant 0 <= i <= |s|
      invariant AllDefs(s[i..])
      invariant block.body == s[..i] + BackPropagated(s[i..], (None, None))
      invariant carry == SuffixCarry(s[i..], (None, None))
      invariant block.tag == old(block.tag)
    {
      ScanAt(s, i, block.body);
      var st := block.body[i - 1];
      if !st.Def? {
        LastNonDefAt(s, i - 1);
        return Fail(BackPropagateError);
      }
      BackPropagateStep(s, i, block.body, carry);
      if Declares(st) {
        carry := (st.init, st.exprType);
      } else {
        block.Replace(i - 1, Def(st.sym, carry.0, carry.1));
      }
      i := i - 1;
    }
    assert s[0..] == s;
    r := Pass;
  }

  // ---- variable attributes ----

  predicate IsVarDef(d: Ast)
  {
    d.Def? && d.sym.Var?
  }

  /** The variable definition with its config, param and const flags set as given. */
  function WithAttributes(d: Ast, isConfig: bool, isParam: bool, isConst: bool): (r: Ast)
    requires IsVarDef(d)
    ensures IsVarDef(r) && r.init == d.init && r.exprType == d.exprType
    ensures r.sym.ident == d.sym.ident && r.sym.pragmas == d.sym.pragmas
    ensures r.sym.flags.isConfig == isConfig && r.sym.flags.isParam == isParam && r.sym.flags.isConst == isConst
    ensures r.sym.flags.(isConfig := d.sym.flags.isConfig, isParam := d.sym.flags.isParam, isConst := d.sym.flags.isConst) == d.sym.flags
  {
    Def(Var(d.sym.ident, d.sym.flags.(isConfig := isConfig, isParam := isParam, isConst := isConst), d.sym.pragmas), d.init, d.exprType)
  }

  predicate AllVarDefs(s: seq<Ast>)
  {
    forall k :: 0 <= k < |s| ==> IsVarDef(s[k])
  }

  /** The position of the first statement that is not a variable definition, if any. */
  function FirstNonVarDef(s: seq<Ast>): (r: Option<nat>)
    ensures r.None? <==> AllVarDefs(s)
    ensures r.Some? ==> r.value < |s| && !IsVarDef(s[r.value]) && forall k :: 0 <= k < r.value ==> IsVarDef(s[k])
  {
    FirstNonVarDefFrom(s, 0)
  }

  /** The position of the first statement at or after `j` that is not a variable definition, if any. */
  function FirstNonVarDefFrom(s: seq<Ast>, j: nat): (r: Option<nat>)
    requires j <= |s|
    ensures r.None? ==> forall k :: j <= k < |s| ==> IsVarDef(s[k])
    ensures r.Some? ==> j <= r.value < |s| && !IsVarDef(s[r.value]) && forall k :: j <= k < r.value ==> IsVarDef(s[k])
    decreases |s| - j
  {
    if j == |s| then None
    else if !IsVarDef(s[j]) then Some(j)
    else FirstNonVarDefFrom(s, j + 1)
  }

  /** Every definition of the list with the given attributes. */
  function Attributed(s: seq<Ast>, isConfig: bool, isParam: bool, isConst: bool): (r: seq<Ast>)
    requires AllVarDefs(s)
    ensures |r| == |s| && AllVarDefs(r)
  {
    if s == [] then []
    else Attributed(s[..|s| - 1], isConfig, isParam, isConst) + [WithAttributes(s[|s| - 1], isConfig, isParam, isConst)]
  }

  lemma {:induction false} AttributedAt(s: seq<Ast>, isConfig: bool, isParam: bool, isConst: bool, k: nat)
    requires AllVarDefs(s) && k < |s|
    ensures Attributed(s, isConfig, isParam, isConst)[k] == WithAttributes(s[k], isConfig, isParam, isConst)
    decreases |s|
  {
    if k < |s| - 1 {
      AttributedAt(s[..|s| - 1], isConfig, isParam, isConst, k);
    }
  }

  /** Setting the attributes twice leaves those of the second setting. */
  lemma {:induction false} AttributedTwice(s: seq<Ast>, c1: bool, p1: bool, k1: bool, c2: bool, p2: bool, k2: bool)
    requires AllVarDefs(s)
    ensures Attributed(Attributed(s, c1, p1, k1), c2, p2, k2) == Attributed(s, c2, p2, k2)
    decreases |s|
  {
    if s != [] {
      var init := s[..|s| - 1];
      var last := s[|s| - 1];
      var t := Attributed(s, c1, p1, k1);
      assert t == Attributed(init, c1, p1, k1) + [WithAttributes(last, c1, p1, k1)];
      assert t[..|t| - 1] == Attributed(init, c1, p1, k1);
      AttributedTwice(init, c1, p1, k1, c2, p2, k2);
      WithAttributesTwice(last, c1, p1, k1, c2, p2, k2);
    }
  }

  lemma WithAttributesTwice(d: Ast, c1: bool, p1: bool, k1: bool, c2: bool, p2: bool, k2: bool)
    requires IsVarDef(d)
    ensures WithAttributes(WithAttributes(d, c1, p1, k1), c2, p2, k2) == WithAttributes(d, c2, p2, k2)
  {
  }

  /** The list with the attributes set on its first `n` statements, all variable definitions, and the rest unchanged. */
  function AttributedUpTo(s: seq<Ast>, n: nat, isConfig: bool, isParam: bool, isConst: bool): (r: seq<Ast>)
    requires n <= |s| && forall k :: 0 <= k < n ==> IsVarDef(s[k])
    ensures |r| == |s| && forall k :: n <= k < |s| ==> r[k] == s[k]
  {
    if n == 0 then s
    else AttributedUpTo(s, n - 1, isConfig, isParam, isConst)[n - 1 := WithAttributes(s[n - 1], isConfig, isParam, isConst)]
  }

  lemma {:induction false} AttributedUpToAt(s: seq<Ast>, n: nat, isConfig: bool, isParam: bool, isConst: bool, k: nat)
    requires n <= |s| && (forall j :: 0 <= j < n ==> IsVarDef(s[j])) && k < n
    ensures AttributedUpTo(s, n, isConfig, isParam, isConst)[k] == WithAttributes(s[k], isConfig, isParam, isConst)
    decreases n
  {
    if k < n - 1 {
      AttributedUpToAt(s, n - 1, isConfig, isParam, isConst, k);
    }
  }

  /** Attributing every statement, one position at a time, is attributing the list. */
  lemma AttributedUpToAll(s: seq<Ast>, isConfig: bool, isParam: bool, isConst: bool)
    requires AllVarDefs(s)
    ensures AttributedUpTo(s, |s|, isConfig, isParam, isConst) == Attributed(s, isConfig, isParam, isConst)
  {
    var a := AttributedUpTo(s, |s|, isConfig, isParam, isConst);
    var b := Attributed(s, isConfig, isParam, isConst);
    forall k | 0 <= k < |s|
      ensures a[k] == b[k]
    {
      AttributedUpToAt(s, |s|, isConfig, isParam, isConst, k);
      AttributedAt(s, isConfig, isParam, isConst, k);
    }
  }

  /**
   * Sets the attributes of every variable a declaration list defines,
   * front to back; a statement that is not a variable definition stops it
   * with an internal error, the definitions before it already changed.
   */
  method SetVarSymbolAttributes(block: BlockStmt, isConfig: bool, isParam: bool, isConst: bool) returns (r: Outcome)
    modifies block
    ensures block.tag == old(block.tag)
    ensures FirstNonVarDef(old(block.body)).None? ==>
      r == Pass && block.body == Attributed(old(block.body), isConfig, isParam, isConst)
    ensures FirstNonVarDef(old(block.body)).Some? ==>
      r == Fail(SetAttributesError)
      && block.body == AttributedUpTo(old(block.body), FirstNonVarDef(old(block.body)).value, isConfig, isParam, isConst)
  {
    ghost var s := block.body;
    var i := 0;
    while i < |block.body|
      invariant 0 <= i <= |s|
      invariant forall k :: 0 <= k < i ==> IsVarDef(s[k])
      invariant block.body == AttributedUpTo(s, i, isConfig, isParam, isConst)
      invariant block.tag == old(block.tag)
    {
      var st := block.body[i];
      if !IsVarDef(st) {
        FirstNonVarDefAt(s, 0, i);
        return Fail(SetAttributesError);
      }
      block.Replace(i, WithAttributes(st, isConfig, isParam, isConst));
      i := i + 1;
    }
    AttributedUpToAll(s, isConfig, isParam, isConst);
    r := Pass;
  }

  /** A statement at `k` that is not a variable definition, with only variable definitions from `j` up to it, is the first from `j`. */
  lemma {:induction false} FirstNonVarDefAt(s: seq<Ast>, j: nat, k: nat)
    requires j <= k < |s| && !IsVarDef(s[k]) && forall i :: j <= i < k ==> IsVarDef(s[i])
    ensures FirstNonVarDefFrom(s, j) == Some(k)
    decreases k - j
  {
    if j < k {
      FirstNonVarDefAt(s, j + 1, k);
    }
  }
}

=== FILE: build_exprs.dfy ===
/**
 * Builders that lower an expression into a synthesized function or a short
 * statement list: conditional expressions, the short-circuiting logical
 * operators, reductions, primitive calls, compound assignment, formal
 * arguments and the pre-increment lookalike.
 */
module BuildExprs {
  import opened Diagnostics
  import opened Ast

  // ---- which statements of a lowered body run ----

  /**
   * The statements that run when a statement executes and every conditional
   * test `t` evaluates to `ev(t)`: a conditional runs its taken arm (nothing
   * when the else arm is absent); any other statement runs itself.
   */
  function Taken(s: Ast, ev: Ast -> bool): seq<Ast>
  {
    if !s.Cond? then [s]
    else if ev(s.test) then Taken(s.thenS, ev)
    else if s.elseS.Some? then Taken(s.elseS.value, ev)
    else []
  }

  function RunPath(stmts: seq<Ast>, ev: Ast -> bool): seq<Ast>
  {
    if stmts == [] then [] else Taken(stmts[0], ev) + RunPath(stmts[1..], ev)
  }

  lemma {:induction false} RunPathAppend(a: seq<Ast>, b: seq<Ast>, ev: Ast -> bool)
    ensures RunPath(a + b, ev) == RunPath(a, ev) + RunPath(b, ev)
  {
    if a != [] {
      assert (a + b)[1..] == a[1..] + b;
      RunPathAppend(a[1..], b, ev);
    } else {
      assert a + b == b;
    }
  }

  /** Statements that are not conditionals all run, in order. */
  lemma {:induction false} RunPathStraight(s: seq<Ast>, ev: Ast -> bool)
    requires forall i :: 0 <= i < |s| ==> !s[i].Cond?
    ensures RunPath(s, ev) == s
  {
    if s != [] {
      RunPathStraight(s[1..], ev);
    }
  }

  predicate IsMoveInto(s: Ast, x: Ident)
  {
    s.Call? && s.callee == Prim(PMove) && |s.args| == 2 && s.args[0] == SymOf(x)
  }

  /** How many of the statements assign `x`. */
  function CountMoves(stmts: seq<Ast>, x: Ident): nat
  {
    if stmts == [] then 0 else (if IsMoveInto(stmts[0], x) then 1 else 0) + CountMoves(stmts[1..], x)
  }

  lemma {:induction false} CountMovesAppend(a: seq<Ast>, b: seq<Ast>, x: Ident)
    ensures CountMoves(a + b, x) == CountMoves(a, x) + CountMoves(b, x)
  {
    if a != [] {
      assert (a + b)[1..] == a[1..] + b;
      CountMovesAppend(a[1..], b, x);
    } else {
      assert a + b == b;
    }
  }

  lemma CountMovesCons(s: Ast, rest: seq<Ast>, x: Ident)
    ensures CountMoves([s] + rest, x) == (if IsMoveInto(s, x) then 1 else 0) + CountMoves(rest, x)
  {
    assert ([s] + rest)[1..] == rest;
  }

  lemma RunPathSingle(s: Ast, ev: Ast -> bool)
    ensures RunPath([s], ev) == Taken(s, ev)
  {
    assert [s][1..] == [];
  }

  /** The body of the function a lowered expression defines in place and calls. */
  function DefinedBody(e: Ast): seq<Ast>
  {
    if e.Call? && e.callee.Computed? && e.callee.fnExpr.Def? && e.callee.fnExpr.sym.Fn?
    then e.callee.fnExpr.sym.body else []
  }

  function DefinedFn(e: Ast): Option<Symbol>
  {
    if e.Call? && e.callee.Computed? && e.callee.fnExpr.Def? && e.callee.fnExpr.sym.Fn?
    then Some(e.callee.fnExpr.sym) else None
  }

  // ---- conditional expressions ----

  const IfWithoutElse := "if-then expressions currently require an else-clause"

  /** The value an arm of a conditional expression stores into the result temp. */
  function Folded(tmp1: Ident, arm: Ast): Ast
  {
    PrimCall(PLogicalFolder, [SymOf(tmp1), PrimCall(PGetRef, [arm])])
  }

  function IfTmp1(n: Names): Ident { Ident("_if_tmp1", n.nextId + 1) }
  function IfTmp2(n: Names): Ident { Ident("_if_tmp2", n.nextId + 2) }

  /** The body of a lowered conditional expression. */
  function IfBody(tmp1: Ident, tmp2: Ident, e: Ast, e1: Ast, e2: Ast): seq<Ast>
  {
    [ DefVar(tmp2, TempFlags.(canType := true)),
      DefVar(tmp1, TempFlags.(canParam := true)),
      Move(SymOf(tmp1), e),
      Cond(SymOf(tmp1), Move(SymOf(tmp2), Folded(tmp1, e1)), Some(Move(SymOf(tmp2), Folded(tmp1, e2)))),
      PrimCall(PReturn, [SymOf(tmp2)]) ]
  }

  /**
   * Lowers `if e then e1 else e2` into an inline function `_if_fn<uid>`;
   * without an else arm it is a user error.
   */
  function IfExpr(n: Names, e: Ast, e1: Ast, e2: Option<Ast>): (r: Result<(Symbol, Names)>)
    ensures r.Err? <==> e2.None?
    ensures r.Err? ==> r.diag == UserFatal(IfWithoutElse)
    ensures r.Ok? ==>
      var (fn, m) := r.value;
      fn.Fn? && fn.ident.name == "_if_fn" + Istr(n.ifUid) && fn.ident.id == n.nextId
      && "inline" in fn.pragmas && fn.fnCanParam && fn.fnCanType
      && fn.body == IfBody(IfTmp1(n), IfTmp2(n), e, e1, e2.value)
      && m == n.(nextId := n.nextId + 3, ifUid := n.ifUid + 1)
  {
    if e2.None? then Err(UserFatal(IfWithoutElse))
    else
      var (fnId, n1) := Fresh(n, "_if_fn" + Istr(n.ifUid));
      var (tmp1, n2) := Fresh(n1, "_if_tmp1");
      var (tmp2, n3) := Fresh(n2, "_if_tmp2");
      Ok((Fn(fnId, [], IfBody(tmp1, tmp2, e, e1, e2.value), {"inline"}, RetValue, TUnknown, None, true, true),
          n3.(ifUid := n.ifUid + 1)))
  }

  /** The statements of a lowered conditional that run: the selected arm's assignment only. */
  function IfRun(tmp1: Ident, tmp2: Ident, e: Ast, chosen: Ast): seq<Ast>
  {
    [ DefVar(tmp2, TempFlags.(canType := true)),
      DefVar(tmp1, TempFlags.(canParam := true)),
      Move(SymOf(tmp1), e),
      Move(SymOf(tmp2), Folded(tmp1, chosen)),
      PrimCall(PReturn, [SymOf(tmp2)]) ]
  }

  /** In a run of a lowered conditional, the test temp and the result temp are each assigned once. */
  lemma IfRunMoves(tmp1: Ident, tmp2: Ident, e: Ast, chosen: Ast, x: Ident)
    requires tmp1 != tmp2
    ensures CountMoves(IfRun(tmp1, tmp2, e, chosen), x) == (if x == tmp1 || x == tmp2 then 1 else 0)
  {
    var r := IfRun(tmp1, tmp2, e, chosen);
    CountMovesCons(r[0], r[1..], x);
    CountMovesCons(r[1], r[2..], x);
    CountMovesCons(r[2], r[3..], x);
    CountMovesCons(r[3], r[4..], x);
    CountMovesCons(r[4], [], x);
    assert r[4..] == [r[4]] + [];
  }

  lemma IfBodyRun(tmp1: Ident, tmp2: Ident, e: Ast, e1: Ast, e2: Ast, ev: Ast -> bool)
    ensures RunPath(IfBody(tmp1, tmp2, e, e1, e2), ev) == IfRun(tmp1, tmp2, e, if ev(SymOf(tmp1)) then e1 else e2)
  {
    var b := IfBody(tmp1, tmp2, e, e1, e2);
    assert b == b[..3] + [b[3]] + [b[4]];
    RunPathAppend(b[..3] + [b[3]], [b[4]], ev);
    RunPathAppend(b[..3], [b[3]], ev);
    RunPathStraight(b[..3], ev);
    RunPathStraight([b[4]], ev);
    RunPathSingle(b[3], ev);
    assert Taken(b[3].thenS, ev) == [b[3].thenS];
    assert Taken(b[3].elseS.value, ev) == [b[3].elseS.value];
  }

  /**
   * Whichever way the test goes, the lowered conditional assigns the test
   * temp once, from the test, assigns the result temp exactly once, from the
   * selected arm, and ends by returning the result temp.
   */
  lemma IfExprAssignsOnce(n: Names, e: Ast, e1: Ast, e2: Ast, ev: Ast -> bool)
    ensures IfExpr(n, e, e1, Some(e2)).Ok?
    ensures
      var run := RunPath(IfExpr(n, e, e1, Some(e2)).value.0.body, ev);
      var t1, t2 := IfTmp1(n), IfTmp2(n);
      |run| == 5
      && CountMoves(run, t1) == 1 && run[2] == Move(SymOf(t1), e)
      && CountMoves(run, t2) == 1 && run[3] == Move(SymOf(t2), Folded(t1, if ev(SymOf(t1)) then e1 else e2))
      && run[4] == PrimCall(PReturn, [SymOf(t2)])
  {
    var t1, t2 := IfTmp1(n), IfTmp2(n);
    IfBodyRun(t1, t2, e, e1, e2, ev);
    IfRunMoves(t1, t2, e, if ev(SymOf(t1)) then e1 else e2, t1);
    IfRunMoves(t1, t2, e, if ev(SymOf(t1)) then e1 else e2, t2);
  }

  /** Successive conditional expressions define functions with different names. */
  lemma IfFnNamesDistinct(n: Names, e: Ast, e1: Ast, e2: Ast, f: Ast, f1: Ast, f2: Ast)
    ensures IfExpr(n, e, e1, Some(e2)).Ok?
    ensures
      var m := IfExpr(n, e, e1, Some(e2)).value.1;
      IfExpr(m, f, f1, Some(f2)).Ok?
      && IfExpr(m, f, f1, Some(f2)).value.0.ident.name != IfExpr(n, e, e1, Some(e2)).value.0.ident.name
  {
    var m := IfExpr(n, e, e1, Some(e2)).value.1;
    if "_if_fn" + Istr(m.ifUid) == "_if_fn" + Istr(n.ifUid) {
      NumberedNameInjective("_if_fn", m.ifUid, n.ifUid);
    }
  }

  // ---- && and || ----

  function ShortCircuitTmp(n: Names): Ident { Ident("tmp", n.nextId) }

  /** The naming context the conditional expression inside `&&`/`||` starts from. */
  function Inner(n: Names): Names { n.(nextId := n.nextId + 1) }

  /** The statements in front of the conditional: the temp, its assignment, the promotion guard. */
  function Prologue(lvar: Ident, left: Ast, message: string): seq<Ast>
  {
    [ DefVar(lvar, TempFlags.(canParam := true)),
      Move(SymOf(lvar), left),
      Cond(CallNamed("_cond_invalid", [SymOf(lvar)]), PrimCall(PError, [Str(message)]), None) ]
  }

  function ShortTest(lvar: Ident): Ast
  {
    CallNamed("_cond_test", [CallNamed("isTrue", [SymOf(lvar)])])
  }

  /**
   * The lowering shared by `&&` and `||`: a compiler temp receives the left
   * operand, a guard rejects promotion, and a conditional expression over
   * the temp picks `thenArm` or `elseArm`.
   */
  function ShortCircuit(n: Names, left: Ast, thenArm: Ast, elseArm: Ast, message: string): (r: (Ast, Names))
    ensures
      var lvar := ShortCircuitTmp(n);
      DefinedBody(r.0) == Prologue(lvar, left, message)
        + IfBody(IfTmp1(Inner(n)), IfTmp2(Inner(n)), ShortTest(lvar), thenArm, elseArm)
    ensures r.1 == n.(nextId := n.nextId + 4, ifUid := n.ifUid + 1)
  {
    var (lvar, n1) := Fresh(n, "tmp");
    var (fn, n2) := IfExpr(n1, ShortTest(lvar), thenArm, Some(elseArm)).value;
    (CallDefined(fn.(body := Prologue(lvar, left, message) + fn.body)), n2)
  }

  /** The function a short-circuit defines is the conditional expression's `_if_fn<uid>`. */
  lemma ShortCircuitDefinesIfFn(n: Names, left: Ast, thenArm: Ast, elseArm: Ast, message: string)
    ensures
      var fn := DefinedFn(ShortCircuit(n, left, thenArm, elseArm, message).0);
      fn.Some? && fn.value.ident.name == "_if_fn" + Istr(n.ifUid) && fn.value.ident.id == n.nextId + 1
  {
  }

  const AndMessage := "cannot promote short-circuiting && operator"
  const OrMessage := "cannot promote short-circuiting || operator"

  function LogicalAnd(n: Names, left: Ast, right: Ast): (r: (Ast, Names))
  {
    ShortCircuit(n, left, CallNamed("isTrue", [right]), Sym(BoolLit(false)), AndMessage)
  }

  function LogicalOr(n: Names, left: Ast, right: Ast): (r: (Ast, Names))
  {
    ShortCircuit(n, left, Sym(BoolLit(true)), CallNamed("isTrue", [right]), OrMessage)
  }

  /**
   * What runs of a short-circuit body: the left operand is assigned to the
   * temp exactly once, first; the promotion guard may raise its error; then
   * the conditional runs with the selected arm.
   */
  lemma ShortCircuitRun(n: Names, left: Ast, thenArm: Ast, elseArm: Ast, message: string, ev: Ast -> bool)
    ensures
      var lvar := ShortCircuitTmp(n);
      var t1, t2 := IfTmp1(Inner(n)), IfTmp2(Inner(n));
      var guardRun := if ev(CallNamed("_cond_invalid", [SymOf(lvar)])) then [PrimCall(PError, [Str(message)])] else [];
      RunPath(DefinedBody(ShortCircuit(n, left, thenArm, elseArm, message).0), ev)
        == [DefVar(lvar, TempFlags.(canParam := true)), Move(SymOf(lvar), left)] + guardRun
           + IfRun(t1, t2, ShortTest(lvar), if ev(SymOf(t1)) then thenArm else elseArm)
  {
    var lvar := ShortCircuitTmp(n);
    var t1, t2 := IfTmp1(Inner(n)), IfTmp2(Inner(n));
    var p := Prologue(lvar, left, message);
    RunPathAppend(p, IfBody(t1, t2, ShortTest(lvar), thenArm, elseArm), ev);
    IfBodyRun(t1, t2, ShortTest(lvar), thenArm, elseArm, ev);
    assert p == [p[0], p[1]] + [p[2]];
    RunPathAppend([p[0], p[1]], [p[2]], ev);
    RunPathStraight([p[0], p[1]], ev);
    RunPathSingle(p[2], ev);
    assert Taken(p[2].thenS, ev) == [p[2].thenS];
  }

  /** Before the conditional, a short-circuit run assigns only its temp, once. */
  lemma PrologueRunMoves(lvar: Ident, left: Ast, message: string, guardRun: seq<Ast>, x: Ident)
    requires guardRun == [] || guardRun == [PrimCall(PError, [Str(message)])]
    ensures CountMoves([DefVar(lvar, TempFlags.(canParam := true)), Move(SymOf(lvar), left)] + guardRun, x)
      == (if x == lvar then 1 else 0)
  {
    var d := DefVar(lvar, TempFlags.(canParam := true));
    var mv := Move(SymOf(lvar), left);
    CountMovesCons(d, [mv] + guardRun, x);
    CountMovesCons(mv, guardRun, x);
    assert [d, mv] + guardRun == [d] + ([mv] + guardRun);
    if guardRun != [] {
      CountMovesCons(guardRun[0], [], x);
      assert guardRun == [guardRun[0]] + [];
    }
  }

  /** The left operand of `&&`/`||` is assigned to the temp exactly once in every run. */
  lemma ShortCircuitLeftOnce(n: Names, left: Ast, thenArm: Ast, elseArm: Ast, message: string, ev: Ast -> bool)
    ensures
      var run := RunPath(DefinedBody(ShortCircuit(n, left, thenArm, elseArm, message).0), ev);
      CountMoves(run, ShortCircuitTmp(n)) == 1 && CountMoves(run, IfTmp2(Inner(n))) == 1
  {
    ShortCircuitRun(n, left, thenArm, elseArm, message, ev);
    var lvar := ShortCircuitTmp(n);
    var t1, t2 := IfTmp1(Inner(n)), IfTmp2(Inner(n));
    var guardRun := if ev(CallNamed("_cond_invalid", [SymOf(lvar)])) then [PrimCall(PError, [Str(message)])] else [];
    var prefix := [DefVar(lvar, TempFlags.(canParam := true)), Move(SymOf(lvar), left)] + guardRun;
    var tail := IfRun(t1, t2, ShortTest(lvar), if ev(SymOf(t1)) then thenArm else elseArm);
    PrologueRunMoves(lvar, left, message, guardRun, lvar);
    PrologueRunMoves(lvar, left, message, guardRun, t2);
    CountMovesAppend(prefix, tail, lvar);
    CountMovesAppend(prefix, tail, t2);
    IfRunMoves(t1, t2, ShortTest(lvar), if ev(SymOf(t1)) then thenArm else elseArm, lvar);
    IfRunMoves(t1, t2, ShortTest(lvar), if ev(SymOf(t1)) then thenArm else elseArm, t2);
  }

  /**
   * `&&` short-circuits: when the left operand tests false, the statements that
   * run are the same whatever the right operand is; when it tests true, the
   * stored result is the truth of the right operand.
   */
  lemma AndShortCircuits(n: Names, left: Ast, r1: Ast, r2: Ast, ev: Ast -> bool)
    ensures LogicalAnd(n, left, r1).1 == LogicalAnd(n, left, r2).1
    ensures !ev(SymOf(IfTmp1(Inner(n)))) ==>
      RunPath(DefinedBody(LogicalAnd(n, left, r1).0), ev) == RunPath(DefinedBody(LogicalAnd(n, left, r2).0), ev)
    ensures ev(SymOf(IfTmp1(Inner(n)))) ==>
      Move(SymOf(IfTmp2(Inner(n))), Folded(IfTmp1(Inner(n)), CallNamed("isTrue", [r1])))
        in RunPath(DefinedBody(LogicalAnd(n, left, r1).0), ev)
  {
    ShortCircuitRun(n, left, CallNamed("isTrue", [r1]), Sym(BoolLit(false)), AndMessage, ev);
    ShortCircuitRun(n, left, CallNamed("isTrue", [r2]), Sym(BoolLit(false)), AndMessage, ev);
  }

  /**
   * `||` short-circuits: when the left operand tests true, the statements that
   * run are the same whatever the right operand is; when it tests false, the
   * stored result is the truth of the right operand.
   */
  lemma OrShortCircuits(n: Names, left: Ast, r1: Ast, r2: Ast, ev: Ast -> bool)
    ensures LogicalOr(n, left, r1).1 == LogicalOr(n, left, r2).1
    ensures ev(SymOf(IfTmp1(Inner(n)))) ==>
      RunPath(DefinedBody(LogicalOr(n, left, r1).0), ev) == RunPath(DefinedBody(LogicalOr(n, left, r2).0), ev)
    ensures !ev(SymOf(IfTmp1(Inner(n)))) ==>
      Move(SymOf(IfTmp2(Inner(n))), Folded(IfTmp1(Inner(n)), CallNamed("isTrue", [r1])))
        in RunPath(DefinedBody(LogicalOr(n, left, r1).0), ev)
  {
    ShortCircuitRun(n, left, Sym(BoolLit(true)), CallNamed("isTrue", [r1]), OrMessage, ev);
    ShortCircuitRun(n, left, Sym(BoolLit(true)), CallNamed("isTrue", [r2]), OrMessage, ev);
  }

  // ---- compound assignment via && and || ----

  /** Lowers `lhs &&= rhs`: the lhs reference is taken once, then assigned `ltmp && rhs`. */
  function LogicalAndAssignment(n: Names, lhs: Ast, rhs: Ast): (r: (Ast, Names))
    ensures r.0.Block? && r.0.tag == Scopeless && |r.0.body| == 3
    ensures r.0.body[1] == Move(SymOf(Ident("_ltmp", n.nextId)), PrimCall(PSetRef, [lhs]))
    ensures r.0.body[2] == CallNamed("=", [SymOf(Ident("_ltmp", n.nextId)),
                                           LogicalAnd(n.(nextId := n.nextId + 1), SymOf(Ident("_ltmp", n.nextId)), rhs).0])
    ensures r.1 == n.(nextId := n.nextId + 5, ifUid := n.ifUid + 1)
  {
    var (ltmp, n1) := Fresh(n, "_ltmp");
    var (e, n2) := LogicalAnd(n1, SymOf(ltmp), rhs);
    (PlainBlock(Scopeless, [DefVar(ltmp, TempFlags), Move(SymOf(ltmp), PrimCall(PSetRef, [lhs])), CallNamed("=", [SymOf(ltmp), e])]), n2)
  }

  /** Lowers `lhs ||= rhs`: the lhs reference is taken once, then assigned `ltmp || rhs`. */
  function LogicalOrAssignment(n: Names, lhs: Ast, rhs: Ast): (r: (Ast, Names))
    ensures r.0.Block? && r.0.tag == Scopeless && |r.0.body| == 3
    ensures r.0.body[1] == Move(SymOf(Ident("_ltmp", n.nextId)), PrimCall(PSetRef, [lhs]))
    ensures r.0.body[2] == CallNamed("=", [SymOf(Ident("_ltmp", n.nextId)),
                                           LogicalOr(n.(nextId := n.nextId + 1), SymOf(Ident("_ltmp", n.nextId)), rhs).0])
    ensures r.1 == n.(nextId := n.nextId + 5, ifUid := n.ifUid + 1)
  {
    var (ltmp, n1) := Fresh(n, "_ltmp");
    var (e, n2) := LogicalOr(n1, SymOf(ltmp), rhs);
    (PlainBlock(Scopeless, [DefVar(ltmp, TempFlags), Move(SymOf(ltmp), PrimCall(PSetRef, [lhs])), CallNamed("=", [SymOf(ltmp), e])]), n2)
  }

  // ---- reductions and scans ----

  predicate IsUnresolvedNamed(e: Ast, name: string)
  {
    e.Sym? && e.ref.Unresolved? && e.ref.uname == name
  }

  /** The reduction operator after `max` and `min` are renamed to the library's `_max` and `_min`. */
  function ReduceOp(red: Ast): (r: Ast)
    ensures !IsUnresolvedNamed(r, "max") && !IsUnresolvedNamed(r, "min")
    ensures IsUnresolvedNamed(red, "max") ==> r == Sym(Unresolved("_max"))
    ensures IsUnresolvedNamed(red, "min") ==> r == Sym(Unresolved("_min"))
    ensures !IsUnresolvedNamed(red, "max") && !IsUnresolvedNamed(red, "min") ==> r == red
  {
    if IsUnresolvedNamed(red, "max") then Sym(Unresolved("_max"))
    else if IsUnresolvedNamed(red, "min") then Sym(Unresolved("_min"))
    else red
  }

  /** The element type of the data: the type of the value at the iterator's head cursor. */
  function ElementTypeOf(tmp: Ident): Ast
  {
    var it := CallNamed("_getIterator", [SymOf(tmp)]);
    PrimCall(PTypeOf, [Call(Computed(CallNamed(".", [it, Str("getValue")])),
                            [Call(Computed(CallNamed(".", [it, Str("getHeadCursor")])), [])])])
  }

  /**
   * Lowers `red reduce data` (or `scan`) into an inline function
   * `_reduce_scan<uid>` that stores the data once, computes its element type
   * and returns `_reduce`/`_scan` over a new reduction object.
   */
  function Reduce(n: Names, red: Ast, data: Ast, scan: bool): (r: (Symbol, Names))
    ensures r.0.Fn? && r.0.ident.name == "_reduce_scan" + Istr(n.reduceUid) && "inline" in r.0.pragmas
    ensures |r.0.body| == 5
    ensures r.0.body[0] == DefVar(Ident("_tmp", n.nextId + 1), TempFlags)
    ensures r.0.body[1] == Move(SymOf(Ident("_tmp", n.nextId + 1)), data)
    ensures r.0.body[2] == DefVar(Ident("_tmp", n.nextId + 2), TempFlags.(isTypeVariable := true))
    ensures r.0.body[3] == PlainBlock(TypeOnly, [Move(SymOf(Ident("_tmp", n.nextId + 2)), ElementTypeOf(Ident("_tmp", n.nextId + 1)))])
    ensures
      var ret := r.0.body[4];
      ret.Call? && ret.callee == Prim(PReturn) && |ret.args| == 1 && ret.args[0].Call?
      && ret.args[0].callee == Named(if scan then "_scan" else "_reduce")
      && ret.args[0].args == [PrimCall(PNew, [Call(Computed(ReduceOp(red)), [SymOf(Ident("_tmp", n.nextId + 2))])]),
                              SymOf(Ident("_tmp", n.nextId + 1))]
    ensures r.1 == n.(nextId := n.nextId + 3, reduceUid := n.reduceUid + 1)
  {
    var (fnId, n1) := Fresh(n, "_reduce_scan" + Istr(n.reduceUid));
    var (tmp, n2) := Fresh(n1, "_tmp");
    var (eltType, n3) := Fresh(n2, "_tmp");
    var body := [
      DefVar(tmp, TempFlags),
      Move(SymOf(tmp), data),
      DefVar(eltType, TempFlags.(isTypeVariable := true)),
      PlainBlock(TypeOnly, [Move(SymOf(eltType), ElementTypeOf(tmp))]),
      PrimCall(PReturn, [CallNamed(if scan then "_scan" else "_reduce",
                                   [PrimCall(PNew, [Call(Computed(ReduceOp(red)), [SymOf(eltType)])]), SymOf(tmp)])])
    ];
    (Fn(fnId, [], body, {"inline"}, RetValue, TUnknown, None, false, false), n3.(reduceUid := n.reduceUid + 1))
  }

  /** The data expression is evaluated exactly once in a lowered reduction. */
  lemma ReduceEvaluatesDataOnce(n: Names, red: Ast, data: Ast, scan: bool)
    ensures CountMoves(Reduce(n, red, data, scan).0.body, Ident("_tmp", n.nextId + 1)) == 1
  {
    var b := Reduce(n, red, data, scan).0.body;
    var x := Ident("_tmp", n.nextId + 1);
    CountMovesCons(b[0], b[1..], x);
    CountMovesCons(b[1], b[2..], x);
    CountMovesCons(b[2], b[3..], x);
    CountMovesCons(b[3], b[4..], x);
    CountMovesCons(b[4], [], x);
    assert b[4..] == [b[4]] + [];
  }

  // ---- primitive calls ----

  /**
   * `__primitive("name", args...)`: the first expression must be a string
   * literal naming a known primitive; the call applies it to the rest.
   */
  function PrimitiveCall(primitives: map<string, Prim>, exprs: seq<Ast>): (r: Result<Ast>)
    ensures r.Ok? <==> |exprs| > 0 && exprs[0].Sym? && exprs[0].ref.StrLit? && exprs[0].ref.s in primitives
    ensures r.Ok? ==> r.value == Call(Prim(primitives[exprs[0].ref.s]), exprs[1..])
    ensures r.Err? ==> r.diag.tag == IntFatal
    ensures r.Err? && (exprs == [] || !exprs[0].Sym?) ==> r.diag.msg == "primitive has no name"
    ensures r.Err? && |exprs| > 0 && exprs[0].Sym? && !exprs[0].ref.StrLit? ==>
      r.diag.msg == "primitive with non-literal string name"
  {
    if |exprs| == 0 then Err(InternalFatal("primitive has no name"))
    else if !exprs[0].Sym? then Err(InternalFatal("primitive has no name"))
    else if !exprs[0].ref.StrLit? then Err(InternalFatal("primitive with non-literal string name"))
    else if exprs[0].ref.s !in primitives then Err(InternalFatal("primitive not found '" + exprs[0].ref.s + "'"))
    else Ok(Call(Prim(primitives[exprs[0].ref.s]), exprs[1..]))
  }

  // ---- ++x and --x ----

  /**
   * `++e`/`--e` parse as two unary plus/minus applications; the builder warns
   * that they are not increments.  Any other sign is a parser error.
   */
  function PreDecIncWarning(expr: Ast, sign: char): (r: Result<(Ast, Diag)>)
    ensures r.Ok? <==> sign == '+' || sign == '-'
    ensures r.Ok? ==> r.value.1.tag == UsrWarn && !Halts(r.value.1.tag)
    ensures r.Ok? ==> r.value.0 == CallNamed([sign], [CallNamed([sign], [expr])])
    ensures r.Err? ==> r.diag == InternalFatal("Error in parser")
  {
    if sign == '+' then Ok((CallNamed("+", [CallNamed("+", [expr])]), Diag(UsrWarn, "++ is not a pre-increment")))
    else if sign == '-' then Ok((CallNamed("-", [CallNamed("-", [expr])]), Diag(UsrWarn, "-- is not a pre-decrement")))
    else Err(InternalFatal("Error in parser"))
  }

  /** The value of an integer expression built from literals and unary `+`/`-`. */
  function SignValue(e: Ast): Option<int>
  {
    if e.Sym? && e.ref.IntLit? then Some(e.ref.i)
    else if e.Call? && |e.args| == 1 && e.callee == Named("+") then SignValue(e.args[0])
    else if e.Call? && |e.args| == 1 && e.callee == Named("-") then
      (var v := SignValue(e.args[0]); if v.Some? then Some(-v.value) else None)
    else None
  }

  /** What `++e` and `--e` compute is the value of `e` itself: neither changes anything. */
  lemma PreDecIncIsIdentity(expr: Ast, sign: char, v: int)
    requires sign == '+' || sign == '-'
    requires SignValue(expr) == Some(v)
    ensures SignValue(PreDecIncWarning(expr, sign).value.0) == Some(v)
  {
  }

  // ---- op= ----

  function LTmp(n: Names): Ident { Ident("_ltmp", n.nextId) }
  function RTmp(n: Names): Ident { Ident("_rtmp", n.nextId + 1) }

  function IsShift(op: string): bool { op == "<<" || op == ">>" }

  /** `ltmp = op(ltmp, rtmp)`, the plain assignment a compound assignment performs. */
  function OpAssign(op: string, l: Ident, r: Ident): Ast
  {
    CallNamed("=", [SymOf(l), CallNamed(op, [PrimCall(PGetRef, [SymOf(l)]), SymOf(r)])])
  }

  /** The assignment through a cast back to the left operand's type, for primitive types. */
  function CastAssign(op: string, l: Ident, r: Ident): Ast
  {
    var cast := CallNamed("=", [SymOf(l), CallNamed("_cast", [PrimCall(PTypeOf, [SymOf(l)]),
                                   CallNamed(op, [PrimCall(PGetRef, [SymOf(l)]), SymOf(r)])])]);
    if IsShift(op) then PlainBlock(Normal, [cast])
    else PlainBlock(Normal, [PlainBlock(TypeOnly, [CallNamed("=", [SymOf(l), SymOf(r)])]), cast])
  }

  /** Whether the left operand is a domain, and whether its type is primitive. */
  function DomainTest(l: Ident): Ast { CallNamed("_isDomain", [SymOf(l)]) }
  function PrimitiveTest(l: Ident): Ast { CallNamed("_isPrimitiveType", [PrimCall(PTypeOf, [PrimCall(PGetRef, [SymOf(l)])])]) }

  /**
   * Lowers `lhs op= rhs`: the lhs reference and the rhs value are each taken
   * once into temps; `+=`/`-=` on a domain call its `add`/`remove`; a
   * primitive-typed lhs is assigned through a cast; anything else is
   * assigned `op(lhs, rhs)`.
   */
  function CompoundAssignment(n: Names, op: string, lhs: Ast, rhs: Ast): (r: (Ast, Names))
    ensures r.0.Block? && r.0.tag == Scopeless && |r.0.body| == 5
    ensures r.0.body[1] == Move(SymOf(LTmp(n)), PrimCall(PSetRef, [lhs]))
    ensures r.0.body[3] == Move(SymOf(RTmp(n)), rhs)
    ensures r.0.body[4].Cond?
    ensures (r.0.body[4].test == DomainTest(LTmp(n))) <==> (op == "+" || op == "-")
    ensures r.1 == n.(nextId := n.nextId + 2)
  {
    var (ltmp, n1) := Fresh(n, "_ltmp");
    var (rtmp, n2) := Fresh(n1, "_rtmp");
    var inner := Cond(PrimitiveTest(ltmp), CastAssign(op, ltmp, rtmp), Some(OpAssign(op, ltmp, rtmp)));
    var last :=
      if op == "+" then Cond(DomainTest(ltmp), Call(Computed(CallNamed(".", [SymOf(ltmp), Str("add")])), [SymOf(rtmp)]), Some(inner))
      else if op == "-" then Cond(DomainTest(ltmp), Call(Computed(CallNamed(".", [SymOf(ltmp), Str("remove")])), [SymOf(rtmp)]), Some(inner))
      else inner;
    (PlainBlock(Scopeless, [
       DefVar(ltmp, TempFlags.(canParam := true)),
       Move(SymOf(ltmp), PrimCall(PSetRef, [lhs])),
       DefVar(rtmp, TempFlags.(canParam := true)),
       Move(SymOf(rtmp), rhs),
       last]), n2)
  }

  /** The one update that runs at the end of `lhs op= rhs`. */
  function Update(op: string, l: Ident, r: Ident, ev: Ast -> bool): Ast
  {
    if (op == "+" || op == "-") && ev(DomainTest(l))
    then Call(Computed(CallNamed(".", [SymOf(l), Str(if op == "+" then "add" else "remove")])), [SymOf(r)])
    else if ev(PrimitiveTest(l)) then CastAssign(op, l, r)
    else OpAssign(op, l, r)
  }

  lemma CompoundLastTaken(n: Names, op: string, lhs: Ast, rhs: Ast, ev: Ast -> bool)
    ensures Taken(CompoundAssignment(n, op, lhs, rhs).0.body[4], ev) == [Update(op, LTmp(n), RTmp(n), ev)]
  {
    var l, r := LTmp(n), RTmp(n);
    var last := CompoundAssignment(n, op, lhs, rhs).0.body[4];
    var inner := Cond(PrimitiveTest(l), CastAssign(op, l, r), Some(OpAssign(op, l, r)));
    assert Taken(CastAssign(op, l, r), ev) == [CastAssign(op, l, r)];
    assert Taken(OpAssign(op, l, r), ev) == [OpAssign(op, l, r)];
    assert Taken(inner, ev) == [if ev(PrimitiveTest(l)) then CastAssign(op, l, r) else OpAssign(op, l, r)];
    if op == "+" || op == "-" {
      assert last.test == DomainTest(l) && last.elseS == Some(inner);
      if ev(DomainTest(l)) {
        assert Taken(last, ev) == Taken(last.thenS, ev);
      } else {
        assert Taken(last, ev) == Taken(inner, ev);
      }
    } else {
      assert last == inner;
    }
  }

  /**
   * In every run of `lhs op= rhs` each operand is evaluated exactly once,
   * first, and then exactly one update runs: the domain method for `+`/`-`
   * on a domain, the cast assignment (with its type check unless `op` is a
   * shift) for a primitive type, the plain assignment otherwise.
   */
  lemma CompoundAssignmentRun(n: Names, op: string, lhs: Ast, rhs: Ast, ev: Ast -> bool)
    ensures
      var b := CompoundAssignment(n, op, lhs, rhs).0.body;
      var run := RunPath(b, ev);
      run == b[..4] + [Update(op, LTmp(n), RTmp(n), ev)]
      && CountMoves(run, LTmp(n)) == 1 && CountMoves(run, RTmp(n)) == 1
    ensures |CastAssign(op, LTmp(n), RTmp(n)).body| == (if IsShift(op) then 1 else 2)
  {
    var l, r := LTmp(n), RTmp(n);
    var b := CompoundAssignment(n, op, lhs, rhs).0.body;
    CompoundLastTaken(n, op, lhs, rhs, ev);
    assert b[0] == DefVar(l, TempFlags.(canParam := true)) && b[2] == DefVar(r, TempFlags.(canParam := true));
    TempsThenUpdate(b, Update(op, l, r, ev), l, r, ev);
  }

  /** Four straight statements that declare and assign `l` and `r`, then a statement that runs one update. */
  lemma TempsThenUpdate(b: seq<Ast>, update: Ast, l: Ident, r: Ident, ev: Ast -> bool)
    requires |b| == 5 && l != r
    requires b[0] == DefVar(l, TempFlags.(canParam := true)) && b[2] == DefVar(r, TempFlags.(canParam := true))
    requires IsMoveInto(b[1], l) && IsMoveInto(b[3], r)
    requires Taken(b[4], ev) == [update] && !IsMoveInto(update, l) && !IsMoveInto(update, r)
    ensures RunPath(b, ev) == b[..4] + [update]
    ensures CountMoves(RunPath(b, ev), l) == 1 && CountMoves(RunPath(b, ev), r) == 1
  {
    assert b == b[..4] + [b[4]];
    RunPathAppend(b[..4], [b[4]], ev);
    RunPathStraight(b[..4], ev);
    RunPathSingle(b[4], ev);
    CountMovesInTemps(b[0], b[1], b[2], b[3], update, l, r);
    assert b[..4] + [update] == [b[0], b[1], b[2], b[3], update];
  }

  lemma CountMovesInTemps(d1: Ast, m1: Ast, d2: Ast, m2: Ast, u: Ast, l: Ident, r: Ident)
    requires !IsMoveInto(d1, l) && !IsMoveInto(d1, r) && !IsMoveInto(d2, l) && !IsMoveInto(d2, r)
    requires IsMoveInto(m1, l) && !IsMoveInto(m1, r) && IsMoveInto(m2, r) && !IsMoveInto(m2, l)
    requires !IsMoveInto(u, l) && !IsMoveInto(u, r)
    ensures CountMoves([d1, m1, d2, m2, u], l) == 1 && CountMoves([d1, m1, d2, m2, u], r) == 1
  {
    CountMovesCons(d1, [m1, d2, m2, u], l);
    CountMovesCons(m1, [d2, m2, u], l);
    CountMovesCons(d2, [m2, u], l);
    CountMovesCons(m2, [u], l);
    CountMovesCons(u, [], l);
    CountMovesCons(d1, [m1, d2, m2, u], r);
    CountMovesCons(m1, [d2, m2, u], r);
    CountMovesCons(d2, [m2, u], r);
    CountMovesCons(m2, [u], r);
    CountMovesCons(u, [], r);
    assert [d1, m1, d2, m2, u] == [d1] + [m1, d2, m2, u];
    assert [m1, d2, m2, u] == [m1] + [d2, m2, u];
    assert [d2, m2, u] == [d2] + [m2, u];
    assert [m2, u] == [m2] + [u];
    assert [u] == [u] + [];
  }

  // ---- formal arguments ----

  /**
   * A formal argument: a `type` formal becomes a blank-intent type variable
   * of generic type with no declared type; any other formal keeps its intent
   * and declared type, and is generic exactly when it has neither a declared
   * type nor a default.
   */
  function BuildArg(n: Names, intent: Intent, name: string, typ: Option<Ast>, init: Option<Ast>, variable: Option<Ast>): (r: (Ast, Names))
    ensures r.0.Def? && r.0.sym.Arg? && r.0.sym.ident == Ident(name, n.nextId) && r.0.init.None?
    ensures r.0.sym.intent != IntentType
    ensures r.0.sym.defaultExpr == init && r.0.sym.variableExpr == variable
    ensures intent == IntentType ==>
      r.0.sym.intent == IntentBlank && r.0.sym.flags.isTypeVariable && r.0.sym.typ == TAny && r.0.exprType.None?
    ensures intent != IntentType ==>
      r.0.sym.intent == intent && !r.0.sym.flags.isTypeVariable && r.0.exprType == typ
      && (r.0.sym.typ == TAny <==> typ.None? && init.None?)
    ensures r.1 == n.(nextId := n.nextId + 1)
  {
    var (a, n1) := Fresh(n, name);
    var arg := Arg(a, intent, TUnknown, init, variable, NoFlags);
    if intent == IntentType then
      (Def(arg.(intent := IntentBlank, typ := TAny, flags := NoFlags.(isTypeVariable := true)), None, None), n1)
    else if typ.None? && init.None? then
      (Def(arg.(typ := TAny), None, typ), n1)
    else
      (Def(arg, None, typ), n1)
  }
}

=== FILE: build_loops.dfy ===
/**
 * Loop lowering: index checking and destructuring, loop labels, while-do,
 * do-while, the general for/forall/coforall builder and the param for.
 *
 * A loop becomes a scopeless statement list around a loop block; the loop
 * block carries its loop primitive (`loopInfo`) and its labels.
 */
module BuildLoops {
  import opened Diagnostics
  import opened Ast
  import opened BuildExprs
  import opened BuildParallel

  // ---- index expressions ----

  /** An index expression is a symbol, or a `_build_tuple` of index expressions. */
  predicate ValidIndex(t: Ast)
    decreases t
  {
    t.Sym? || (t.Call? && IsNamed(t.callee, "_build_tuple") && forall i :: 0 <= i < |t.args| ==> ValidIndex(t.args[i]))
  }

  const InvalidIndex := UserFatal("invalid index expression")

  /** Rejects any index expression that is not a symbol or a tuple of valid indices. */
  function CheckIndices(t: Ast): (r: Outcome)
    ensures r.Pass? <==> ValidIndex(t)
    ensures r.Fail? ==> r.diag == InvalidIndex
    decreases t
  {
    if t.Call? then
      if !IsNamed(t.callee, "_build_tuple") then Fail(InvalidIndex)
      else CheckActuals(t.args)
    else if t.Sym? then Pass
    else Fail(InvalidIndex)
  }

  function CheckActuals(args: seq<Ast>): (r: Outcome)
    ensures r.Pass? <==> forall i :: 0 <= i < |args| ==> ValidIndex(args[i])
    ensures r.Fail? ==> r.diag == InvalidIndex
    decreases args
  {
    if args == [] then Pass
    else
      var first := CheckIndices(args[0]);
      if first.Fail? then first
      else
        var rest := CheckActuals(args[1..]);
        assert forall i :: 1 <= i < |args| ==> args[i] == args[1..][i - 1];
        rest
  }

  /** The `i`-th component of a tuple value, as the call `base(i)`. */
  function Element(base: Ast, i: int): Ast
  {
    Call(Computed(base), [Lit(i)])
  }

  /**
   * The statements that destructuring the index `t` bound to `init` puts at
   * the head of a loop body, and the naming context after them.  An
   * unresolved index gets a fresh compiler temporary of its name; a bound
   * one is assigned directly; a tuple binds its `i`-th component to
   * `init(i)`, skipping `_` components.  Each component's statements go in
   * front of those of the components before it.
   */
  function Destructure(n: Names, t: Ast, init: Ast): (r: (seq<Ast>, Names))
    ensures r.1 == n.(nextId := r.1.nextId) && n.nextId <= r.1.nextId
    decreases t
  {
    match t
    case Call(c, args) =>
      if IsNamed(c, "_build_tuple") then DestructureArgs(n, args, init) else ([], n)
    case Sym(ref) =>
      if ref.Unresolved? then
        var (v, m) := Fresh(n, ref.uname);
        ([DefVar(v, TempFlags), Move(SymOf(v), init)], m)
      else ([Move(t, init)], n)
    case _ => ([], n)
  }

  function DestructureArgs(n: Names, args: seq<Ast>, init: Ast): (r: (seq<Ast>, Names))
    ensures r.1 == n.(nextId := r.1.nextId) && n.nextId <= r.1.nextId
    decreases args
  {
    if args == [] then ([], n)
    else
      var pre := DestructureArgs(n, args[..|args| - 1], init);
      var last := args[|args| - 1];
      if SymNamed(last, "_") then pre
      else
        var d := Destructure(pre.1, last, Element(init, |args|));
        (d.0 + pre.0, d.1)
  }

  /** One more component of a tuple index, destructured after those before it. */
  lemma DestructureArgsNext(n: Names, args: seq<Ast>, init: Ast, i: nat, pre: (seq<Ast>, Names))
    requires i < |args| && pre == DestructureArgs(n, args[..i], init)
    ensures SymNamed(args[i], "_") ==> DestructureArgs(n, args[..i + 1], init) == pre
    ensures !SymNamed(args[i], "_") ==>
      var d := Destructure(pre.1, args[i], Element(init, i + 1));
      DestructureArgs(n, args[..i + 1], init) == (d.0 + pre.0, d.1)
  {
    assert args[..i + 1][..i] == args[..i];
  }

  /** Destructures the index `t` into the head of `block`, in place. */
  method DestructureIndices(block: BlockStmt, n: Names, t: Ast, init: Ast) returns (m: Names)
    modifies block
    ensures block.body == Destructure(n, t, init).0 + old(block.body)
    ensures m == Destructure(n, t, init).1
    ensures block.tag == old(block.tag)
    decreases t
  {
    m := n;
    if t.Call? {
      if IsNamed(t.callee, "_build_tuple") {
        m := DestructureComponents(block, n, t.args, init);
      }
    } else if t.Sym? {
      if t.ref.Unresolved? {
        var alloc := Fresh(m, t.ref.uname);
        m := alloc.1;
        block.InsertAtHead(Move(SymOf(alloc.0), init));
        block.InsertAtHead(DefVar(alloc.0, TempFlags));
      } else {
        block.InsertAtHead(Move(t, init));
      }
    }
  }

  /** Destructures the components of a tuple index, left to right, skipping `_`. */
  method DestructureComponents(block: BlockStmt, n: Names, args: seq<Ast>, init: Ast) returns (m: Names)
    modifies block
    ensures block.body == DestructureArgs(n, args, init).0 + old(block.body)
    ensures m == DestructureArgs(n, args, init).1
    ensures block.tag == old(block.tag)
    decreases args
  {
    m := n;
    var i := 0;
    while i < |args|
      invariant 0 <= i <= |args|
      invariant block.body == DestructureArgs(n, args[..i], init).0 + old(block.body)
      invariant m == DestructureArgs(n, args[..i], init).1
      invariant block.tag == old(block.tag)
    {
      var actual := args[i];
      ghost var pre := DestructureArgs(n, args[..i], init);
      DestructureArgsNext(n, args, init, i, pre);
      if !SymNamed(actual, "_") {
        m := DestructureIndices(block, m, actual, Element(init, i + 1));
      }
      i := i + 1;
    }
    assert args[..i] == args;
  }

  /** The name a symbol expression stands for. */
  function NameOf(e: Ast): string
  {
    if e.Sym? && e.ref.Unresolved? then e.ref.uname
    else if e.Sym? && e.ref.Bound? then e.ref.ident.name
    else ""
  }

  /** Reference order: each named index with the value it is bound to, left to right. */
  function Leaves(t: Ast, init: Ast): seq<(string, Ast)>
    decreases t
  {
    match t
    case Call(c, args) => if IsNamed(c, "_build_tuple") then LeavesArgs(args, init) else []
    case Sym(_) => [(NameOf(t), init)]
    case _ => []
  }

  function LeavesArgs(args: seq<Ast>, init: Ast): seq<(string, Ast)>
    decreases args
  {
    if args == [] then []
    else
      var last := args[|args| - 1];
      LeavesArgs(args[..|args| - 1], init) + (if SymNamed(last, "_") then [] else Leaves(last, Element(init, |args|)))
  }

  /** The assignments a statement list makes, as (name of target, value) pairs. */
  function Bindings(stmts: seq<Ast>): seq<(string, Ast)>
  {
    if stmts == [] then []
    else
      (if stmts[0].Call? && stmts[0].callee == Prim(PMove) && |stmts[0].args| == 2
       then [(NameOf(stmts[0].args[0]), stmts[0].args[1])] else [])
      + Bindings(stmts[1..])
  }

  lemma {:induction false} BindingsAppend(a: seq<Ast>, b: seq<Ast>)
    ensures Bindings(a + b) == Bindings(a) + Bindings(b)
  {
    if a == [] {
      assert a + b == b;
    } else {
      assert (a + b)[1..] == a[1..] + b;
      BindingsAppend(a[1..], b);
    }
  }

  function Reverse<T>(s: seq<T>): (r: seq<T>)
    ensures |r| == |s|
  {
    if s == [] then [] else Reverse(s[1..]) + [s[0]]
  }

  lemma {:induction false} ReverseAppend<T>(a: seq<T>, b: seq<T>)
    ensures Reverse(a + b) == Reverse(b) + Reverse(a)
  {
    if a == [] {
      assert a + b == b;
    } else {
      assert (a + b)[1..] == a[1..] + b;
      ReverseAppend(a[1..], b);
    }
  }

  /**
   * Destructuring binds every named index, and only those, to the component
   * at its position; the bindings come out in reverse order because each
   * component is put in front of the earlier ones.
   */
  lemma {:induction false} DestructureBindsLeaves(n: Names, t: Ast, init: Ast)
    ensures Bindings(Destructure(n, t, init).0) == Reverse(Leaves(t, init))
    decreases t
  {
    match t
    case Call(c, args) =>
      if IsNamed(c, "_build_tuple") {
        DestructureArgsBindsLeaves(n, args, init);
      }
    case Sym(ref) =>
      if ref.Unresolved? {
        var v := Ident(ref.uname, n.nextId);
        var s := [DefVar(v, TempFlags), Move(SymOf(v), init)];
        assert s[1..][1..] == [];
        assert Bindings(s[1..]) == [(NameOf(SymOf(v)), init)] + Bindings(s[1..][1..]);
        assert Bindings(s) == [] + Bindings(s[1..]);
      } else {
        var s := [Move(t, init)];
        assert s[1..] == [];
      }
    case _ =>
  }

  lemma {:induction false} DestructureArgsBindsLeaves(n: Names, args: seq<Ast>, init: Ast)
    ensures Bindings(DestructureArgs(n, args, init).0) == Reverse(LeavesArgs(args, init))
    decreases args
  {
    if args != [] {
      var pre := DestructureArgs(n, args[..|args| - 1], init);
      var last := args[|args| - 1];
      DestructureArgsBindsLeaves(n, args[..|args| - 1], init);
      if SymNamed(last, "_") {
        assert DestructureArgs(n, args, init) == pre;
        assert LeavesArgs(args, init) == LeavesArgs(args[..|args| - 1], init) + [];
        assert LeavesArgs(args[..|args| - 1], init) + [] == LeavesArgs(args[..|args| - 1], init);
      } else {
        var d := Destructure(pre.1, last, Element(init, |args|));
        DestructureBindsLeaves(pre.1, last, Element(init, |args|));
        BindingsAppend(d.0, pre.0);
        ReverseAppend(LeavesArgs(args[..|args| - 1], init), Leaves(last, Element(init, |args|)));
      }
    }
  }

  // ---- running a lowered loop ----

  /** Blocks that only group statements: their statements run in place. */
  predicate Opens(tag: BlockTag)
  {
    tag == Normal || tag == Scopeless
  }

  predicate IsLoopTag(tag: BlockTag)
  {
    tag == WhileDo || tag == DoWhile || tag == ParamFor || tag == For || tag == Forall || tag == Coforall
  }

  /** The statements in the order they run once, with grouping blocks opened. */
  function Flat(stmts: seq<Ast>): seq<Ast>
    decreases stmts
  {
    if stmts == [] then [] else Flat(stmts[..|stmts| - 1]) + FlatOne(stmts[|stmts| - 1])
  }

  function FlatOne(s: Ast): seq<Ast>
    decreases s
  {
    if s.Block? && Opens(s.tag) then Flat(s.body) else [s]
  }

  function Repeat(s: seq<Ast>, k: nat): seq<Ast>
  {
    if k == 0 then [] else s + Repeat(s, k - 1)
  }

  /**
   * The statements in the order they run when every loop at this level
   * makes `k` iterations (loops nested in a loop body stay whole).
   */
  function Unroll(stmts: seq<Ast>, k: nat): seq<Ast>
    decreases stmts
  {
    if stmts == [] then [] else Unroll(stmts[..|stmts| - 1], k) + UnrollOne(stmts[|stmts| - 1], k)
  }

  function UnrollOne(s: Ast, k: nat): seq<Ast>
    decreases s
  {
    if s.Block? && Opens(s.tag) then Unroll(s.body, k)
    else if s.Block? && IsLoopTag(s.tag) then Repeat(Flat(s.body), k)
    else [s]
  }

  lemma FlatSnoc(s: seq<Ast>, x: Ast)
    ensures Flat(s + [x]) == Flat(s) + FlatOne(x)
  {
    var t := s + [x];
    assert t[..|t| - 1] == s && t[|t| - 1] == x;
  }

  lemma UnrollSnoc(s: seq<Ast>, x: Ast, k: nat)
    ensures Unroll(s + [x], k) == Unroll(s, k) + UnrollOne(x, k)
  {
    var t := s + [x];
    assert t[..|t| - 1] == s && t[|t| - 1] == x;
  }

  lemma {:induction false} FlatAppend(a: seq<Ast>, b: seq<Ast>)
    ensures Flat(a + b) == Flat(a) + Flat(b)
    decreases |b|
  {
    if b == [] {
      assert a + b == a;
    } else {
      var init, last := b[..|b| - 1], b[|b| - 1];
      assert b == init + [last];
      assert a + b == (a + init) + [last];
      FlatAppend(a, init);
      FlatSnoc(a + init, last);
      FlatSnoc(init, last);
      var fa, fi, f := Flat(a), Flat(init), FlatOne(last);
      assert (fa + fi) + f == fa + (fi + f);
    }
  }

  lemma {:induction false} UnrollAppend(a: seq<Ast>, b: seq<Ast>, k: nat)
    ensures Unroll(a + b, k) == Unroll(a, k) + Unroll(b, k)
    decreases |b|
  {
    if b == [] {
      assert a + b == a;
    } else {
      var init, last := b[..|b| - 1], b[|b| - 1];
      assert b == init + [last];
      assert a + b == (a + init) + [last];
      UnrollAppend(a, init, k);
      UnrollSnoc(a + init, last, k);
      UnrollSnoc(init, last, k);
      var ua, ui, u := Unroll(a, k), Unroll(init, k), UnrollOne(last, k);
      assert (ua + ui) + u == ua + (ui + u);
    }
  }

  lemma UnrollSingle(s: Ast, k: nat)
    ensures Unroll([s], k) == UnrollOne(s, k)
  {
    assert [s][..0] == [];
  }

  lemma FlatSingle(s: Ast)
    ensures Flat([s]) == FlatOne(s)
  {
    assert [s][..0] == [];
  }

  /** Statements that are neither grouping blocks nor loops run as they are. */
  lemma {:induction false} UnrollAtoms(s: seq<Ast>, k: nat)
    requires forall i :: 0 <= i < |s| ==> !(s[i].Block? && (Opens(s[i].tag) || IsLoopTag(s[i].tag)))
    ensures Unroll(s, k) == s
    decreases |s|
  {
    if s != [] {
      var init, last := s[..|s| - 1], s[|s| - 1];
      assert s == init + [last];
      UnrollAtoms(init, k);
      UnrollSnoc(init, last, k);
    }
  }

  lemma {:induction false} FlatAtoms(s: seq<Ast>)
    requires forall i :: 0 <= i < |s| ==> !(s[i].Block? && Opens(s[i].tag))
    ensures Flat(s) == s
    decreases |s|
  {
    if s != [] {
      var init, last := s[..|s| - 1], s[|s| - 1];
      assert s == init + [last];
      FlatAtoms(init);
      FlatSnoc(init, last);
    }
  }

  /** A loop between straight-line statements runs its body `k` times. */
  lemma UnrollAround(before: seq<Ast>, loop: Ast, after: seq<Ast>, k: nat)
    requires loop.Block? && IsLoopTag(loop.tag)
    ensures Unroll(before + [loop] + after, k) == Unroll(before, k) + Repeat(Flat(loop.body), k) + Unroll(after, k)
  {
    var u := Unroll(before, k);
    var rep := Repeat(Flat(loop.body), k);
    UnrollAppend(before + [loop], after, k);
    UnrollSnoc(before, loop, k);
    assert UnrollOne(loop, k) == rep;
    assert Unroll(before + [loop], k) == u + rep;
  }

  lemma {:induction false} CountMovesRepeat(s: seq<Ast>, k: nat, x: Ident)
    ensures CountMoves(Repeat(s, k), x) == k * CountMoves(s, x)
    decreases k
  {
    if k > 0 {
      CountMovesAppend(s, Repeat(s, k - 1), x);
      CountMovesRepeat(s, k - 1, x);
      RepeatCountStep(CountMoves(Repeat(s, k), x), CountMoves(s, x), CountMoves(Repeat(s, k - 1), x), k);
    }
  }

  /** One more copy adds one more per-copy count. */
  lemma RepeatCountStep(total: nat, c: nat, rest: nat, k: nat)
    requires k > 0 && total == c + rest && rest == (k - 1) * c
    ensures total == k * c
  {
  }

  lemma CountLoopRun(head: seq<Ast>, iter: seq<Ast>, tail: seq<Ast>, k: nat, x: Ident)
    ensures CountMoves(head + Repeat(iter, k) + tail, x) == CountMoves(head, x) + k * CountMoves(iter, x) + CountMoves(tail, x)
  {
    CountMovesAppend(head + Repeat(iter, k), tail, x);
    CountMovesAppend(head, Repeat(iter, k), x);
    CountMovesRepeat(iter, k, x);
  }

  /** A scopeless block of plain statements around one loop and a closing label, unrolled `k` times. */
  lemma UnrollLoopBlock(r: Ast, before: seq<Ast>, loop: Ast, post: Ast, k: nat)
    requires loop.Block? && IsLoopTag(loop.tag) && post.Label?
    requires forall i :: 0 <= i < |before| ==> !(before[i].Block? && (Opens(before[i].tag) || IsLoopTag(before[i].tag)))
    requires r == PlainBlock(Scopeless, before + [loop] + [post])
    ensures Unroll([r], k) == before + Repeat(Flat(loop.body), k) + [post]
  {
    UnrollSingle(r, k);
    UnrollAround(before, loop, [post], k);
    UnrollAtoms(before, k);
    UnrollAtoms([post], k);
  }

  /** The assignments to `c` over a run: those of the head, then `k` times those of an iteration; a label assigns nothing. */
  lemma CountLoopBlockMoves(head: seq<Ast>, iter: seq<Ast>, post: Ast, k: nat, c: Ident)
    requires post.Label?
    ensures CountMoves(head + Repeat(iter, k) + [post], c) == CountMoves(head, c) + k * CountMoves(iter, c)
  {
    CountLoopRun(head, iter, [post], k, c);
    CountMovesCons(post, [], c);
  }

  /** A body that does not assign `c`, followed by the test that does, assigns it once. */
  lemma TestedIterationMoves(body: Ast, test: Ast, c: Ident)
    requires IsMoveInto(test, c) && CountMoves(Flat([body]), c) == 0
    ensures CountMoves(Flat([body]) + [test], c) == 1
  {
    CountMovesAppend(Flat([body]), [test], c);
    CountMovesCons(test, [], c);
  }

  // ---- loop labels ----

  /** The `_pre_loop<uid>` and `_post_loop<uid>` labels of a new loop. */
  function NewLoopLabels(n: Names): (r: (LoopLabels, Names))
    ensures r.0.pre.name == "_pre_loop" + Istr(n.loopUid) && r.0.post.name == "_post_loop" + Istr(n.loopUid)
    ensures r.0.pre.id == n.nextId && r.0.post.id == n.nextId + 1
    ensures r.1 == n.(nextId := n.nextId + 2, loopUid := n.loopUid + 1)
  {
    (LoopLabels(Ident("_pre_loop" + Istr(n.loopUid), n.nextId), Ident("_post_loop" + Istr(n.loopUid), n.nextId + 1)),
     n.(nextId := n.nextId + 2, loopUid := n.loopUid + 1))
  }

  /** Loops built from different counter values never share a label name. */
  lemma LoopLabelsDistinct(a: Names, b: Names)
    requires a.loopUid != b.loopUid
    ensures NewLoopLabels(a).0.pre.name != NewLoopLabels(b).0.pre.name
    ensures NewLoopLabels(a).0.post.name != NewLoopLabels(b).0.post.name
    ensures NewLoopLabels(a).0.pre.name != NewLoopLabels(b).0.post.name
  {
    if NewLoopLabels(a).0.pre.name == NewLoopLabels(b).0.pre.name {
      NumberedNameInjective("_pre_loop", a.loopUid, b.loopUid);
    }
    if NewLoopLabels(a).0.post.name == NewLoopLabels(b).0.post.name {
      NumberedNameInjective("_post_loop", a.loopUid, b.loopUid);
    }
    assert NewLoopLabels(a).0.pre.name[2] == 'r' && NewLoopLabels(b).0.post.name[2] == 'o';
  }

  // ---- while-do and do-while ----

  function CondVar(n: Names): Ident { Ident("_cond", n.nextId) }

  function CondTest(n: Names, cond: Ast): Ast { Move(SymOf(CondVar(n)), cond) }

  /**
   * `while cond do body`: the condition temporary is set before the loop and
   * again at the end of every iteration.
   */
  function WhileDoLoop(n: Names, cond: Ast, body: Ast): (r: (Ast, Names))
    ensures r.1 == n.(nextId := n.nextId + 3, loopUid := n.loopUid + 1)
    ensures var labels := NewLoopLabels(n.(nextId := n.nextId + 1)).0;
      r.0.Block? && r.0.tag == Scopeless && |r.0.body| == 5
      && r.0.body[0] == Label(labels.pre) && r.0.body[4] == Label(labels.post)
      && r.0.body[3] == Block(WhileDo, [body, CondTest(n, cond)], Some(PrimCall(PLoopWhileDo, [SymOf(CondVar(n))])), Some(labels))
  {
    var (c, n1) := Fresh(n, "_cond");
    var (labels, n2) := NewLoopLabels(n1);
    var loop := Block(WhileDo, [body, Move(SymOf(c), cond)], Some(PrimCall(PLoopWhileDo, [SymOf(c)])), Some(labels));
    (PlainBlock(Scopeless, [Label(labels.pre), DefVar(c, TempFlags), Move(SymOf(c), cond), loop, Label(labels.post)]), n2)
  }

  /** Over `k` iterations the condition is evaluated before the loop and after each iteration's body. */
  lemma WhileDoTestsBeforeEachIteration(n: Names, cond: Ast, body: Ast, k: nat)
    ensures
      var labels := NewLoopLabels(n.(nextId := n.nextId + 1)).0;
      Unroll([WhileDoLoop(n, cond, body).0], k)
      == [Label(labels.pre), DefVar(CondVar(n), TempFlags), CondTest(n, cond)]
         + Repeat(Flat([body]) + [CondTest(n, cond)], k) + [Label(labels.post)]
  {
    var labels := NewLoopLabels(n.(nextId := n.nextId + 1)).0;
    var c := CondVar(n);
    var test := CondTest(n, cond);
    var loop := Block(WhileDo, [body, test], Some(PrimCall(PLoopWhileDo, [SymOf(c)])), Some(labels));
    var before := [Label(labels.pre), DefVar(c, TempFlags), test];
    var r := WhileDoLoop(n, cond, body).0;
    assert r == PlainBlock(Scopeless, before + [loop] + [Label(labels.post)]);
    UnrollLoopBlock(r, before, loop, Label(labels.post), k);
    assert loop.body == [body] + [test];
    FlatAppend([body], [test]);
    FlatSingle(test);
  }

  /**
   * For `k` iterations the condition temporary is assigned `k + 1` times:
   * once before the loop and once per iteration.
   */
  lemma WhileDoEvaluatesTestOncePerIteration(n: Names, cond: Ast, body: Ast, k: nat)
    requires CountMoves(Flat([body]), CondVar(n)) == 0
    ensures CountMoves(Unroll([WhileDoLoop(n, cond, body).0], k), CondVar(n)) == k + 1
  {
    var c := CondVar(n);
    var labels := NewLoopLabels(n.(nextId := n.nextId + 1)).0;
    var test := CondTest(n, cond);
    WhileDoTestsBeforeEachIteration(n, cond, body, k);
    var head := [Label(labels.pre), DefVar(c, TempFlags), test];
    CountLoopBlockMoves(head, Flat([body]) + [test], Label(labels.post), k, c);
    TestedIterationMoves(body, test, c);
    LoopHeadMoves(labels.pre, c, test);
  }

  /** Before a while-do loop, its label, the declaration and the first test assign `c` once. */
  lemma LoopHeadMoves(pre: Ident, c: Ident, test: Ast)
    requires IsMoveInto(test, c)
    ensures CountMoves([Label(pre), DefVar(c, TempFlags), test], c) == 1
  {
    assert [Label(pre), DefVar(c, TempFlags), test] == [Label(pre)] + ([DefVar(c, TempFlags)] + [test]);
    CountMovesCons(Label(pre), [DefVar(c, TempFlags)] + [test], c);
    CountMovesCons(DefVar(c, TempFlags), [test], c);
    CountMovesCons(test, [], c);
  }


  /** The body of a do-while with the condition test appended: inside the body's
   * only statement when that is a block, so that the condition sees the
   * variables declared there, and at the end of the body otherwise. */
  function WithTest(body: Ast, test: Ast): (r: Ast)
    requires body.Block?
    ensures r.Block? && r.tag == body.tag
  {
    if |body.body| == 1 && body.body[0].Block? then
      body.(body := [body.body[0].(body := body.body[0].body + [test])])
    else body.(body := body.body + [test])
  }

  /** `do body while cond`: the condition is evaluated only at the end of each iteration. */
  function DoWhileLoop(n: Names, cond: Ast, body: Ast): (r: (Ast, Names))
    requires body.Block?
    ensures r.1 == n.(nextId := n.nextId + 3, loopUid := n.loopUid + 1)
    ensures var labels := NewLoopLabels(n.(nextId := n.nextId + 1)).0;
      r.0.Block? && r.0.tag == Scopeless && |r.0.body| == 4
      && r.0.body[0] == Label(labels.pre) && r.0.body[3] == Label(labels.post)
      && r.0.body[2] == Block(DoWhile, [WithTest(body, CondTest(n, cond))], Some(PrimCall(PLoopDoWhile, [SymOf(CondVar(n))])), Some(labels))
  {
    var (c, n1) := Fresh(n, "_cond");
    var (labels, n2) := NewLoopLabels(n1);
    var loop := Block(DoWhile, [WithTest(body, Move(SymOf(c), cond))], Some(PrimCall(PLoopDoWhile, [SymOf(c)])), Some(labels));
    (PlainBlock(Scopeless, [Label(labels.pre), DefVar(c, TempFlags), loop, Label(labels.post)]), n2)
  }

  /** Wherever the test was placed, it runs after the whole body. */
  lemma WithTestRunsLast(body: Ast, test: Ast)
    requires body.Block? && Opens(body.tag) && !test.Block?
    requires |body.body| == 1 && body.body[0].Block? ==> Opens(body.body[0].tag)
    ensures Flat([WithTest(body, test)]) == Flat([body]) + [test]
  {
    var w := WithTest(body, test);
    FlatSingle(w);
    FlatSingle(body);
    if |body.body| == 1 && body.body[0].Block? {
      var inner := body.body[0];
      FlatSingle(w.body[0]);
      FlatSingle(inner);
      FlatAppend(inner.body, [test]);
      FlatSingle(test);
    } else {
      FlatAppend(body.body, [test]);
      FlatSingle(test);
    }
  }

  /** Over `k` iterations a do-while runs body then test, `k` times, with no test before the loop. */
  lemma DoWhileTestsAfterEachIteration(n: Names, cond: Ast, body: Ast, k: nat)
    requires body.Block? && Opens(body.tag)
    requires |body.body| == 1 && body.body[0].Block? ==> Opens(body.body[0].tag)
    ensures
      var labels := NewLoopLabels(n.(nextId := n.nextId + 1)).0;
      Unroll([DoWhileLoop(n, cond, body).0], k)
      == [Label(labels.pre), DefVar(CondVar(n), TempFlags)]
         + Repeat(Flat([body]) + [CondTest(n, cond)], k) + [Label(labels.post)]
  {
    var labels := NewLoopLabels(n.(nextId := n.nextId + 1)).0;
    var c := CondVar(n);
    var test := CondTest(n, cond);
    var loop := Block(DoWhile, [WithTest(body, test)], Some(PrimCall(PLoopDoWhile, [SymOf(c)])), Some(labels));
    var before := [Label(labels.pre), DefVar(c, TempFlags)];
    var r := DoWhileLoop(n, cond, body).0;
    assert r == PlainBlock(Scopeless, before + [loop] + [Label(labels.post)]);
    UnrollLoopBlock(r, before, loop, Label(labels.post), k);
    WithTestRunsLast(body, test);
  }

  /** For `k` iterations the condition temporary is assigned exactly `k` times. */
  lemma DoWhileEvaluatesTestOncePerIteration(n: Names, cond: Ast, body: Ast, k: nat)
    requires body.Block? && Opens(body.tag)
    requires |body.body| == 1 && body.body[0].Block? ==> Opens(body.body[0].tag)
    requires CountMoves(Flat([body]), CondVar(n)) == 0
    ensures CountMoves(Unroll([DoWhileLoop(n, cond, body).0], k), CondVar(n)) == k
  {
    var c := CondVar(n);
    var labels := NewLoopLabels(n.(nextId := n.nextId + 1)).0;
    var test := CondTest(n, cond);
    DoWhileTestsAfterEachIteration(n, cond, body, k);
    var head := [Label(labels.pre), DefVar(c, TempFlags)];
    CountLoopBlockMoves(head, Flat([body]) + [test], Label(labels.post), k, c);
    TestedIterationMoves(body, test, c);
    DoWhileHeadMoves(labels.pre, c);
  }

  /** Before a do-while loop, its label and the declaration assign nothing. */
  lemma DoWhileHeadMoves(pre: Ident, c: Ident)
    ensures CountMoves([Label(pre), DefVar(c, TempFlags)], c) == 0
  {
    assert [Label(pre), DefVar(c, TempFlags)] == [Label(pre)] + [DefVar(c, TempFlags)];
    CountMovesCons(Label(pre), [DefVar(c, TempFlags)], c);
    CountMovesCons(DefVar(c, TempFlags), [], c);
  }


  // ---- for, forall and coforall ----

  predicate IsCFor(iterExpr: Ast)
  {
    iterExpr.Call? && iterExpr.callee == Prim(PLoopCFor)
  }

  /** A call of the method `name` of the iterExpr temporary `it`. */
  function IteratorMethod(it: Ident, name: string, args: seq<Ast>): Ast
  {
    Call(Computed(CallNamed(".", [SymOf(it), Str(name)])), args)
  }

  /** A statement before a loop that runs as it is and calls no runtime routine by name. */
  predicate Setup(st: Ast)
  {
    !(st.Block? && (Opens(st.tag) || IsLoopTag(st.tag))) && !(st.Call? && st.callee.Named?)
  }

  /** A statement at the head of a loop body: a definition, an assignment of a
   * value that is no named call, or the C-style increment. */
  predicate Quiet(st: Ast)
  {
    st.Def?
    || (st.Call? && st.callee == Prim(PMove) && |st.args| == 2 && !(st.args[1].Call? && st.args[1].callee.Named?))
    || (st.Call? && st.callee == Named("_cfor_inc"))
  }

  lemma {:induction false} DestructureQuiet(n: Names, t: Ast, init: Ast)
    requires !(init.Call? && init.callee.Named?)
    ensures forall i :: 0 <= i < |Destructure(n, t, init).0| ==> Quiet(Destructure(n, t, init).0[i])
    decreases t
  {
    if t.Call? && IsNamed(t.callee, "_build_tuple") {
      DestructureArgsQuiet(n, t.args, init);
    }
  }

  lemma {:induction false} DestructureArgsQuiet(n: Names, args: seq<Ast>, init: Ast)
    requires !(init.Call? && init.callee.Named?)
    ensures forall i :: 0 <= i < |DestructureArgs(n, args, init).0| ==> Quiet(DestructureArgs(n, args, init).0[i])
    decreases args
  {
    if args != [] {
      var pre := DestructureArgs(n, args[..|args| - 1], init);
      DestructureArgsQuiet(n, args[..|args| - 1], init);
      var last := args[|args| - 1];
      if !SymNamed(last, "_") {
        DestructureQuiet(pre.1, last, Element(init, |args|));
      }
    }
  }

  /**
   * What a loop over `iterExpr` adds around its body: the statements that set
   * it up, those at the head of each iteration, and its loop primitive.  A
   * C-style loop with four actuals evaluates its second and third actuals
   * once, into temporaries, and increments at the head of each iteration;
   * any other iterExpr is bound to `_iterator`, whose current value
   * `_index` is destructured into the indices.
   */
  function LoopParts(n: Names, indices: Ast, iterExpr: Ast): (r: (seq<Ast>, seq<Ast>, Ast, Names))
    ensures forall i :: 0 <= i < |r.0| ==> Setup(r.0[i])
    ensures forall i :: 0 <= i < |r.1| ==> Quiet(r.1[i])
    ensures IsCFor(iterExpr) ==> r.2.Call? && r.2.callee == Prim(PLoopCFor)
    ensures !IsCFor(iterExpr) ==> r.2 == PrimCall(PLoopFor, [SymOf(Ident("_index", n.nextId + 1)), SymOf(Ident("_iterator", n.nextId))])
    ensures !IsCFor(iterExpr) ==> r.1 == Destructure(n.(nextId := n.nextId + 2), indices, SymOf(Ident("_index", n.nextId + 1))).0
  {
    if IsCFor(iterExpr) then
      if |iterExpr.args| == 4 then
        var a := iterExpr.args;
        var (t1, n1) := Fresh(n, "_tmp");
        var (t2, n2) := Fresh(n1, "_tmp");
        ([DefVar(t1, TempFlags), Move(SymOf(t1), a[1]), DefVar(t2, TempFlags), Move(SymOf(t2), a[2])],
         [CallNamed("_cfor_inc", [a[0], a[3]])],
         PrimCall(PLoopCFor, [a[0], SymOf(t1), SymOf(t2), a[3]]),
         n2)
      else ([], [], iterExpr, n)
    else
      var (it, n1) := Fresh(n, "_iterator");
      var (index, n2) := Fresh(n1, "_index");
      var (d, n3) := Destructure(n2, indices, SymOf(index));
      DestructureQuiet(n2, indices, SymOf(index));
      var first := Move(SymOf(index), IteratorMethod(it, "getValue", [IteratorMethod(it, "getHeadCursor", [])]));
      ([DefVar(it, TempFlags), Move(SymOf(it), CallNamed("_getIterator", [iterExpr])), DefVar(index, TempFlags),
        PlainBlock(TypeOnly, [first])],
       d,
       PrimCall(PLoopFor, [SymOf(index), SymOf(it)]),
       n3)
  }

  /** The loop block tagged `tag` around `bodyStmts`, between its set-up and its post label. */
  function LoopAround(n: Names, tag: BlockTag, indices: Ast, iterExpr: Ast, bodyStmts: seq<Ast>): (Ast, Names)
  {
    var (labels, n1) := NewLoopLabels(n);
    var (setup, head, info, n2) := LoopParts(n1, indices, iterExpr);
    var loop := Block(tag, head + bodyStmts + [Label(labels.pre)], Some(info), Some(labels));
    (PlainBlock(Scopeless, setup + [loop, Label(labels.post)]), n2)
  }

  /** The value each iteration of a coforall sets in its task's sync-stack entry when the task ends. */
  function TaskDone(me: Ident): Ast
  {
    CallNamed("=", [CallNamed(".", [SymOf(me), Str("v")]), Sym(BoolLit(true))])
  }

  /** The iteration body of a coforall: push an entry, spawn the task, record the entry. */
  function CoforallBody(me: Ident, ss: Ident, spawn: Ast): seq<Ast>
  {
    [DefVar(me, TempFlags), Move(SymOf(me), CallNamed("_pushSyncStack", [SymOf(ss)])), spawn,
     CallNamed("=", [SymOf(ss), SymOf(me)])]
  }

  /**
   * `for`, `forall` or `coforall` over `iterExpr` with the given indices.
   * The indices are checked first.  A coforall spawns each iteration's
   * body as a task registered on a fresh sync stack and waits on the stack
   * after the loop.
   */
  function ForLoop(n: Names, tag: BlockTag, indices: Ast, iterExpr: Ast, body: Ast): (r: Result<(Ast, Names)>)
    ensures r.Err? <==> !ValidIndex(indices)
    ensures r.Err? ==> r.diag == InvalidIndex
  {
    var check := CheckIndices(indices);
    if check.Fail? then Err(check.diag)
    else if tag == Coforall then Ok(CoforallLoop(n, indices, iterExpr, body))
    else Ok(LoopAround(n, tag, indices, iterExpr, [body]))
  }

  /** The coforall case: a for loop whose iterations spawn tasks joined through a sync stack. */
  function CoforallLoop(n: Names, indices: Ast, iterExpr: Ast, body: Ast): (Ast, Names)
  {
    var (ss, n1) := Fresh(n, "_ss");
    var (me, n2) := Fresh(n1, "_me");
    var (spawn, n3) := BeginStmt(n2, PlainBlock(Normal, [body, TaskDone(me)]), true);
    var (inner, n4) := LoopAround(n3, For, indices, iterExpr, CoforallBody(me, ss, spawn));
    (PlainBlock(Scopeless, SyncBracket(ss, inner.body)), n4)
  }

  /** A for or forall binds its indices from the iterator's current value at the head of each iteration. */
  lemma ForLoopBindsIndices(n: Names, tag: BlockTag, indices: Ast, iterExpr: Ast, body: Ast)
    requires ValidIndex(indices) && tag != Coforall && !IsCFor(iterExpr)
    ensures
      var r := ForLoop(n, tag, indices, iterExpr, body).value.0;
      var index := Ident("_index", n.nextId + 3);
      r.Block? && |r.body| == 6 && r.body[4].Block? && r.body[4].tag == tag
      && r.body[4].loopInfo == Some(PrimCall(PLoopFor, [SymOf(index), SymOf(Ident("_iterator", n.nextId + 2))]))
      && Bindings(r.body[4].body) == Reverse(Leaves(indices, SymOf(index))) + Bindings([body])
  {
    var labels := NewLoopLabels(n).0;
    var n1 := NewLoopLabels(n).1;
    var parts := LoopParts(n1, indices, iterExpr);
    var index := Ident("_index", n.nextId + 3);
    var d := Destructure(n1.(nextId := n1.nextId + 2), indices, SymOf(index));
    var loopBody := parts.1 + [body] + [Label(labels.pre)];
    assert ForLoop(n, tag, indices, iterExpr, body).value.0.body[4].body == loopBody;
    DestructureBindsLeaves(n1.(nextId := n1.nextId + 2), indices, SymOf(index));
    BindingsAppend(parts.1 + [body], [Label(labels.pre)]);
    BindingsAppend(parts.1, [body]);
    assert Bindings([Label(labels.pre)]) == [];
  }

  lemma {:induction false} CountCallsAppend(a: seq<Ast>, b: seq<Ast>, name: string)
    ensures CountCalls(a + b, name) == CountCalls(a, name) + CountCalls(b, name)
  {
    if a == [] {
      assert a + b == b;
    } else {
      assert (a + b)[1..] == a[1..] + b;
      CountCallsAppend(a[1..], b, name);
    }
  }

  lemma {:induction false} CountCallsRepeat(s: seq<Ast>, k: nat, name: string)
    ensures CountCalls(Repeat(s, k), name) == k * CountCalls(s, name)
  {
    if k > 0 {
      CountCallsAppend(s, Repeat(s, k - 1), name);
      CountCallsRepeat(s, k - 1, name);
    }
  }

  lemma {:induction false} CountCallsNone(s: seq<Ast>, name: string)
    requires forall i :: 0 <= i < |s| ==> !(s[i].Call? && s[i].callee == Named(name) && s[i].args == [])
    ensures CountCalls(s, name) == 0
  {
    if s != [] {
      CountCallsNone(s[1..], name);
    }
  }

  /** How many statements of the list push an entry onto `ss`. */
  function CountPushes(stmts: seq<Ast>, ss: Ident): nat
  {
    if stmts == [] then 0 else (if IsPush(stmts[0], ss) then 1 else 0) + CountPushes(stmts[1..], ss)
  }

  lemma {:induction false} CountPushesAppend(a: seq<Ast>, b: seq<Ast>, ss: Ident)
    ensures CountPushes(a + b, ss) == CountPushes(a, ss) + CountPushes(b, ss)
  {
    if a == [] {
      assert a + b == b;
    } else {
      assert (a + b)[1..] == a[1..] + b;
      CountPushesAppend(a[1..], b, ss);
    }
  }

  lemma {:induction false} CountPushesNone(s: seq<Ast>, ss: Ident)
    requires forall i :: 0 <= i < |s| ==> !IsPush(s[i], ss)
    ensures CountPushes(s, ss) == 0
  {
    if s != [] {
      CountPushesNone(s[1..], ss);
    }
  }

  /** The statements one coforall iteration runs after its head, in order. */
  lemma CoforallBodyFlat(me: Ident, ss: Ident, spawn: Ast, post: Ast)
    requires spawn.Block? && spawn.tag == Scopeless && |spawn.body| == 3
    requires !(spawn.body[0].Block? && Opens(spawn.body[0].tag)) && !spawn.body[1].Block?
    requires spawn.body[2].Block? && spawn.body[2].tag == Begin && post.Label?
    ensures
      var b := CoforallBody(me, ss, spawn);
      Flat(b + [post]) == [b[0], b[1]] + spawn.body + [b[3], post]
  {
    var b := CoforallBody(me, ss, spawn);
    assert b + [post] == [b[0], b[1]] + [spawn] + [b[3], post];
    FlatAppend([b[0], b[1]] + [spawn], [b[3], post]);
    FlatAppend([b[0], b[1]], [spawn]);
    FlatAtoms([b[0], b[1]]);
    FlatAtoms([b[3], post]);
    FlatSingle(spawn);
    FlatAtoms(spawn.body);
  }

  /** The statements one iteration runs push the sync stack once and raise the end count once. */
  lemma IterationCounts(me: Ident, ss: Ident, spawn: Ast, post: Ast, run: seq<Ast>)
    requires spawn.Block? && |spawn.body| == 3 && spawn.body[0].Def?
    requires spawn.body[1] == CallNamed("_upEndCount", []) && spawn.body[2].Block? && post.Label?
    requires run == [DefVar(me, TempFlags), Move(SymOf(me), CallNamed("_pushSyncStack", [SymOf(ss)]))] + spawn.body
                    + [CallNamed("=", [SymOf(ss), SymOf(me)]), post]
    ensures CountCalls(run, "_upEndCount") == 1 && CountPushes(run, ss) == 1
  {
    var b0 := DefVar(me, TempFlags);
    var b1 := Move(SymOf(me), CallNamed("_pushSyncStack", [SymOf(ss)]));
    var b3 := CallNamed("=", [SymOf(ss), SymOf(me)]);
    var d, up, bb := spawn.body[0], spawn.body[1], spawn.body[2];
    assert run == [b0, b1, d] + [up] + [bb, b3, post];
    CountCallsAppend([b0, b1, d] + [up], [bb, b3, post], "_upEndCount");
    CountCallsAppend([b0, b1, d], [up], "_upEndCount");
    CountCallsNone([b0, b1, d], "_upEndCount");
    CountCallsNone([bb, b3, post], "_upEndCount");
    CountCallsCons(up, [], "_upEndCount");
    assert run == [b0] + [b1] + [d, up, bb, b3, post];
    CountPushesAppend([b0] + [b1], [d, up, bb, b3, post], ss);
    CountPushesAppend([b0], [b1], ss);
    CountPushesNone([b0], ss);
    CountPushesNone([d, up, bb, b3, post], ss);
    assert CountPushes([b1], ss) == 1 + CountPushes([b1][1..], ss);
  }

  lemma QuietHead(head: seq<Ast>, ss: Ident)
    requires forall i :: 0 <= i < |head| ==> Quiet(head[i])
    ensures Flat(head) == head && CountCalls(head, "_upEndCount") == 0 && CountPushes(head, ss) == 0
  {
    FlatAtoms(head);
    CountCallsNone(head, "_upEndCount");
    CountPushesNone(head, ss);
  }

  /** Statements at the head of a loop body run as they are, before the rest. */
  lemma FlatQuietPrefix(head: seq<Ast>, rest: seq<Ast>)
    requires forall i :: 0 <= i < |head| ==> Quiet(head[i])
    ensures Flat(head + rest) == head + Flat(rest)
  {
    FlatAppend(head, rest);
    FlatAtoms(head);
  }

  /** One iteration of a coforall pushes one sync-stack entry and spawns one task. */
  lemma CoforallIteration(head: seq<Ast>, me: Ident, ss: Ident, spawn: Ast, post: Ast)
    requires forall i :: 0 <= i < |head| ==> Quiet(head[i])
    requires spawn.Block? && spawn.tag == Scopeless && |spawn.body| == 3 && spawn.body[0].Def?
    requires spawn.body[1] == CallNamed("_upEndCount", []) && spawn.body[2].Block? && spawn.body[2].tag == Begin
    requires post.Label?
    ensures CountCalls(Flat(head + (CoforallBody(me, ss, spawn) + [post])), "_upEndCount") == 1
    ensures CountPushes(Flat(head + (CoforallBody(me, ss, spawn) + [post])), ss) == 1
  {
    var b := CoforallBody(me, ss, spawn);
    var run := [b[0], b[1]] + spawn.body + [b[3], post];
    FlatQuietPrefix(head, b + [post]);
    CoforallBodyFlat(me, ss, spawn, post);
    IterationCounts(me, ss, spawn, post, run);
    QuietHead(head, ss);
    CountCallsAppend(head, run, "_upEndCount");
    CountPushesAppend(head, run, ss);
  }



  /** A statement outside a loop that runs as it is and spawns no task. */
  predicate Straight(st: Ast)
  {
    !(st.Block? && (Opens(st.tag) || IsLoopTag(st.tag))) && st != CallNamed("_upEndCount", [])
  }

  /** Over `k` iterations of a loop between straight statements, the tasks spawned are those of `k` iterations. */
  lemma LoopSpawns(before: seq<Ast>, loop: Ast, after: seq<Ast>, k: nat)
    requires loop.Block? && IsLoopTag(loop.tag)
    requires forall i :: 0 <= i < |before| ==> Straight(before[i])
    requires forall i :: 0 <= i < |after| ==> Straight(after[i])
    ensures CountCalls(Unroll(before + [loop] + after, k), "_upEndCount") == k * CountCalls(Flat(loop.body), "_upEndCount")
  {
    UnrollAround(before, loop, after, k);
    UnrollAtoms(before, k);
    UnrollAtoms(after, k);
    CountCallsNone(before, "_upEndCount");
    CountCallsNone(after, "_upEndCount");
    CountCallsRepeat(Flat(loop.body), k, "_upEndCount");
    CountCallsAppend(before + Repeat(Flat(loop.body), k), after, "_upEndCount");
    CountCallsAppend(before, Repeat(Flat(loop.body), k), "_upEndCount");
  }

  /** The loop built around `bodyStmts`: set-up statements, the loop block, the post label. */
  lemma LoopAroundShape(n: Names, tag: BlockTag, indices: Ast, iterExpr: Ast, bodyStmts: seq<Ast>)
    ensures
      var r := LoopAround(n, tag, indices, iterExpr, bodyStmts).0;
      var parts := LoopParts(NewLoopLabels(n).1, indices, iterExpr);
      r.Block? && r.tag == Scopeless && |r.body| >= 2
      && r.body == parts.0 + [r.body[|r.body| - 2], r.body[|r.body| - 1]]
      && r.body[|r.body| - 1] == Label(NewLoopLabels(n).0.post)
      && r.body[|r.body| - 2].Block? && r.body[|r.body| - 2].tag == tag
      && r.body[|r.body| - 2].body == parts.1 + bodyStmts + [Label(NewLoopLabels(n).0.pre)]
  {
  }

  /** The sync-stack bracket a coforall puts around its loop. */
  function SyncBracket(ss: Ident, stmts: seq<Ast>): seq<Ast>
  {
    [DefVar(ss, TempFlags), Move(SymOf(ss), PrimCall(PInit, [Sym(Unresolved("_syncStack"))]))]
    + stmts + [CallNamed("_waitSyncStack", [SymOf(ss)])]
  }

  lemma CoforallUnfold(n: Names, indices: Ast, iterExpr: Ast, body: Ast)
    ensures
      var me := Ident("_me", n.nextId + 1);
      var begin := BeginStmt(n.(nextId := n.nextId + 2), PlainBlock(Normal, [body, TaskDone(me)]), true);
      var r := CoforallLoop(n, indices, iterExpr, body).0;
      r == PlainBlock(Scopeless, SyncBracket(Ident("_ss", n.nextId),
                                             LoopAround(begin.1, For, indices, iterExpr, CoforallBody(me, Ident("_ss", n.nextId), begin.0)).0.body))
  {
  }

  /** The counting argument for a coforall loop between set-up statements and its post label. */
  lemma BracketSpawns(ss: Ident, setup: seq<Ast>, loop: Ast, post: Ast, head: seq<Ast>, me: Ident, spawn: Ast, pre: Ast, k: nat)
    requires forall i :: 0 <= i < |setup| ==> Setup(setup[i])
    requires forall i :: 0 <= i < |head| ==> Quiet(head[i])
    requires spawn.Block? && spawn.tag == Scopeless && |spawn.body| == 3 && spawn.body[0].Def?
    requires spawn.body[1] == CallNamed("_upEndCount", []) && spawn.body[2].Block? && spawn.body[2].tag == Begin
    requires pre.Label? && post.Label?
    requires loop.Block? && loop.tag == For && loop.body == head + CoforallBody(me, ss, spawn) + [pre]
    ensures
      var b := SyncBracket(ss, setup + [loop, post]);
      CountPushes(Flat(loop.body), ss) == 1 && CountCalls(Unroll(b, k), "_upEndCount") == k
  {
    var before := [DefVar(ss, TempFlags), Move(SymOf(ss), PrimCall(PInit, [Sym(Unresolved("_syncStack"))]))] + setup;
    var after := [post, CallNamed("_waitSyncStack", [SymOf(ss)])];
    assert SyncBracket(ss, setup + [loop, post]) == before + [loop] + after;
    LoopSpawns(before, loop, after, k);
    assert loop.body == head + (CoforallBody(me, ss, spawn) + [pre]);
    CoforallIteration(head, me, ss, spawn, pre);
  }

  /** The same for the loop built around the iterations of a coforall. */
  lemma SyncBracketSpawns(nb: Names, indices: Ast, iterExpr: Ast, me: Ident, ss: Ident, spawn: Ast, k: nat)
    requires spawn.Block? && spawn.tag == Scopeless && |spawn.body| == 3 && spawn.body[0].Def?
    requires spawn.body[1] == CallNamed("_upEndCount", []) && spawn.body[2].Block? && spawn.body[2].tag == Begin
    ensures
      var cb := CoforallBody(me, ss, spawn);
      var b := SyncBracket(ss, LoopAround(nb, For, indices, iterExpr, cb).0.body);
      |b| >= 5 && b[|b| - 3].Block? && b[|b| - 3].tag == For
      && CountPushes(Flat(b[|b| - 3].body), ss) == 1
      && CountCalls(Unroll(b, k), "_upEndCount") == k
  {
    var cb := CoforallBody(me, ss, spawn);
    var inner := LoopAround(nb, For, indices, iterExpr, cb).0;
    LoopAroundShape(nb, For, indices, iterExpr, cb);
    var parts := LoopParts(NewLoopLabels(nb).1, indices, iterExpr);
    var loop := inner.body[|inner.body| - 2];
    BracketSpawns(ss, parts.0, loop, inner.body[|inner.body| - 1], parts.1, me, spawn, Label(NewLoopLabels(nb).0.pre), k);
  }

  /** A coforall declares and initialises its sync stack first and waits on it last. */
  lemma CoforallBracketsSyncStack(n: Names, indices: Ast, iterExpr: Ast, body: Ast)
    ensures
      var r := CoforallLoop(n, indices, iterExpr, body).0;
      var ss := Ident("_ss", n.nextId);
      r.Block? && r.tag == Scopeless && |r.body| >= 5
      && r.body[0] == DefVar(ss, TempFlags)
      && r.body[1] == Move(SymOf(ss), PrimCall(PInit, [Sym(Unresolved("_syncStack"))]))
      && r.body[|r.body| - 1] == CallNamed("_waitSyncStack", [SymOf(ss)])
  {
    var ss := Ident("_ss", n.nextId);
    var me := Ident("_me", n.nextId + 1);
    var begin := BeginStmt(n.(nextId := n.nextId + 2), PlainBlock(Normal, [body, TaskDone(me)]), true);
    var cb := CoforallBody(me, ss, begin.0);
    var stmts := LoopAround(begin.1, For, indices, iterExpr, cb).0.body;
    CoforallUnfold(n, indices, iterExpr, body);
    LoopAroundShape(begin.1, For, indices, iterExpr, cb);
    BracketBlock(CoforallLoop(n, indices, iterExpr, body).0, ss, stmts, 0);
  }

  /**
   * Over `k` iterations a coforall spawns exactly `k` tasks, and each
   * iteration of its loop, the third statement from the end, pushes
   * exactly one sync-stack entry.
   */
  lemma CoforallSpawnsOneTaskPerIteration(n: Names, indices: Ast, iterExpr: Ast, body: Ast, k: nat)
    ensures
      var r := CoforallLoop(n, indices, iterExpr, body).0;
      var ss := Ident("_ss", n.nextId);
      r.Block? && |r.body| >= 5 && r.body[|r.body| - 3].Block? && r.body[|r.body| - 3].tag == For
      && CountPushes(Flat(r.body[|r.body| - 3].body), ss) == 1
      && CountCalls(Unroll([r], k), "_upEndCount") == k
  {
    var ss := Ident("_ss", n.nextId);
    var me := Ident("_me", n.nextId + 1);
    var begin := BeginStmt(n.(nextId := n.nextId + 2), PlainBlock(Normal, [body, TaskDone(me)]), true);
    CoforallUnfold(n, indices, iterExpr, body);
    BracketBlockSpawns(CoforallLoop(n, indices, iterExpr, body).0, begin.1, indices, iterExpr, me, ss, begin.0, k);
  }

  /** The counting argument, for a block holding the sync-stack bracket of a coforall's loop. */
  lemma BracketBlockSpawns(r: Ast, nb: Names, indices: Ast, iterExpr: Ast, me: Ident, ss: Ident, spawn: Ast, k: nat)
    requires spawn.Block? && spawn.tag == Scopeless && |spawn.body| == 3 && spawn.body[0].Def?
    requires spawn.body[1] == CallNamed("_upEndCount", []) && spawn.body[2].Block? && spawn.body[2].tag == Begin
    requires r == PlainBlock(Scopeless, SyncBracket(ss, LoopAround(nb, For, indices, iterExpr, CoforallBody(me, ss, spawn)).0.body))
    ensures r.Block? && |r.body| >= 5 && r.body[|r.body| - 3].Block? && r.body[|r.body| - 3].tag == For
    ensures CountPushes(Flat(r.body[|r.body| - 3].body), ss) == 1
    ensures CountCalls(Unroll([r], k), "_upEndCount") == k
  {
    var stmts := LoopAround(nb, For, indices, iterExpr, CoforallBody(me, ss, spawn)).0.body;
    SyncBracketSpawns(nb, indices, iterExpr, me, ss, spawn, k);
    BracketBlock(r, ss, stmts, k);
  }

  /** The ends of a sync-stack bracket, seen through the block that holds it. */
  lemma BracketBlock(r: Ast, ss: Ident, stmts: seq<Ast>, k: nat)
    requires r == PlainBlock(Scopeless, SyncBracket(ss, stmts))
    ensures r.Block? && r.tag == Scopeless && |r.body| == |stmts| + 3
    ensures r.body[0] == DefVar(ss, TempFlags)
    ensures r.body[1] == Move(SymOf(ss), PrimCall(PInit, [Sym(Unresolved("_syncStack"))]))
    ensures r.body[|r.body| - 1] == CallNamed("_waitSyncStack", [SymOf(ss)])
    ensures Unroll([r], k) == Unroll(SyncBracket(ss, stmts), k)
  {
    UnrollSingle(r, k);
  }

  // ---- param for ----

  predicate IsCallNamed(e: Ast, name: string)
  {
    e.Call? && IsNamed(e.callee, name)
  }

  /** `by` and `_build_range` calls carry their two operands. */
  predicate WellFormedRange(range: Ast)
  {
    (IsCallNamed(range, "by") ==> |range.args| >= 2 && (IsCallNamed(range.args[0], "_build_range") ==> |range.args[0].args| >= 2))
    && (IsCallNamed(range, "_build_range") ==> |range.args| >= 2)
  }

  /** Reference reading of a literal range `lo..hi` or `lo..hi by st`: its bounds and stride. */
  function LiteralRange(range: Ast): Option<(Ast, Ast, Ast)>
    requires WellFormedRange(range)
  {
    match range
    case Call(c, args) =>
      if IsNamed(c, "_build_range") then Some((args[0], args[1], Lit(1)))
      else if IsNamed(c, "by") && IsCallNamed(args[0], "_build_range") then Some((args[0].args[0], args[0].args[1], args[1]))
      else None
    case _ => None
  }

  const ParamTempFlags := TempFlags.(canParam := true)
  const NotLiteralRange := UserFatal("iterators for param-for-loops must be literal ranges")

  /**
   * `for param index in range do stmts`: the bounds and the stride (1 when
   * there is no `by`) are evaluated once into temporaries before the loop,
   * and the index starts at 0.
   */
  function ParamForLoop(n: Names, index: string, range: Ast, stmts: Ast): (r: Result<(Ast, Names)>)
    requires WellFormedRange(range)
    ensures r.Err? ==> r.diag == NotLiteralRange
    ensures r.Ok? ==> r.value.1 == n.(nextId := n.nextId + 4)
  {
    var stride := if IsCallNamed(range, "by") then range.args[1] else Lit(1);
    var bounds := if IsCallNamed(range, "by") then range.args[0] else range;
    if !IsCallNamed(bounds, "_build_range") then Err(NotLiteralRange)
    else
      var (iv, n1) := Fresh(n, index);
      var (low, n2) := Fresh(n1, "_tmp");
      var (high, n3) := Fresh(n2, "_tmp");
      var (st, n4) := Fresh(n3, "_tmp");
      var loop := Block(ParamFor, [stmts], Some(PrimCall(PLoopParam, [SymOf(iv), SymOf(low), SymOf(high), SymOf(st)])), None);
      var outer := PlainBlock(Normal, [
        Def(Var(iv, NoFlags, {}), Some(Lit(0)), None),
        DefVar(low, ParamTempFlags), Move(SymOf(low), bounds.args[0]),
        DefVar(high, ParamTempFlags), Move(SymOf(high), bounds.args[1]),
        DefVar(st, ParamTempFlags), Move(SymOf(st), stride),
        loop]);
      Ok((PlainBlock(Scopeless, [outer]), n4))
  }

  /**
   * A param for is accepted exactly for literal ranges; it then evaluates
   * the low bound, the high bound and the stride once each, in that order,
   * into three distinct temporaries that the loop primitive reads, and
   * starts the index at 0.
   */
  lemma ParamForMatchesRange(n: Names, index: string, range: Ast, stmts: Ast)
    requires WellFormedRange(range)
    ensures ParamForLoop(n, index, range, stmts).Ok? <==> LiteralRange(range).Some?
    ensures
      var r := ParamForLoop(n, index, range, stmts);
      r.Ok? ==>
        var (lo, hi, st) := LiteralRange(range).value;
        var outer := r.value.0.body[0];
        var loop := outer.body[7];
        var info := loop.loopInfo.value.args;
        outer.body[0] == Def(Var(Ident(index, n.nextId), NoFlags, {}), Some(Lit(0)), None)
        && info[0] == SymOf(Ident(index, n.nextId))
        && outer.body[2] == Move(info[1], lo) && outer.body[4] == Move(info[2], hi) && outer.body[6] == Move(info[3], st)
        && info[1] != info[2] && info[2] != info[3] && info[1] != info[3]
        && loop.tag == ParamFor && loop.body == [stmts]
  {
  }
}

=== FILE: build_modules.dfy ===
/**
 * Module initialisation: every module gets an init function `__init_<name>`
 * that holds its top-level statements.  Every module but `_Program` also gets
 * a once-only guard `__run_<name>_firsttime<k>`, declared at the head of the
 * program's init function and reset by the function `_initModuleGuards`,
 * which is created on first use.
 */
module BuildModules {
  import opened Diagnostics
  import opened Ast

  // ---- which statements stay in the module ----

  predicate IsGlobDef(s: Ast)
  {
    s.Def? && (s.sym.Fn? || s.sym.ModuleSym? || s.sym.TypeSym?)
  }

  /** A definition of a function, module or type, alone or as the only statement of a block. */
  function StmtIsGlob(s: Ast): bool
  {
    if s.Block? && |s.body| != 1 then false
    else if s.Block? then IsGlobDef(s.body[0])
    else IsGlobDef(s)
  }

  /** A block holding only a module definition is not moved into the init function. */
  predicate StaysInModule(s: Ast)
  {
    s.Block? && |s.body| == 1 && s.body[0].Def? && s.body[0].sym.ModuleSym?
  }

  /**
   * The test that decides whether a statement is relocated, as written: its
   * first disjunct is the constant 1, so `StmtIsGlob` is never consulted.
   */
  predicate RelocationGuard(s: Ast)
  {
    true || !StmtIsGlob(s)
  }

  /** A statement is moved into the init function when the guard holds and it does not stay. */
  predicate Moves(s: Ast)
  {
    !StaysInModule(s)
  }

  /** `Moves` is the decision as written: the guard always holds. */
  lemma MovesAsWritten(s: Ast)
    ensures Moves(s) <==> RelocationGuard(s) && !StaysInModule(s)
    ensures RelocationGuard(s)
  {
  }

  /** The statements moved into the init function, in order. */
  function Relocated(stmts: seq<Ast>): (r: seq<Ast>)
    ensures |r| <= |stmts|
    ensures forall k :: 0 <= k < |r| ==> Moves(r[k])
  {
    if stmts == [] then []
    else
      var last := stmts[|stmts| - 1];
      Relocated(stmts[..|stmts| - 1]) + (if Moves(last) then [last] else [])
  }

  /** The statements left in the module block, in order. */
  function Kept(stmts: seq<Ast>): (r: seq<Ast>)
    ensures |r| <= |stmts|
    ensures forall k :: 0 <= k < |r| ==> StaysInModule(r[k])
  {
    if stmts == [] then []
    else
      var last := stmts[|stmts| - 1];
      Kept(stmts[..|stmts| - 1]) + (if Moves(last) then [] else [last])
  }

  /** Relocation splits the statements: nothing is lost or duplicated. */
  lemma {:induction false} RelocationSplits(stmts: seq<Ast>)
    ensures multiset(Relocated(stmts)) + multiset(Kept(stmts)) == multiset(stmts)
    ensures |Relocated(stmts)| + |Kept(stmts)| == |stmts|
    decreases |stmts|
  {
    if stmts != [] {
      var front, last := stmts[..|stmts| - 1], stmts[|stmts| - 1];
      RelocationSplits(front);
      SplitLast(Relocated(front), Kept(front), stmts, Relocated(stmts), Kept(stmts));
    }
  }

  /** Adding the last element of `s` to either side of a split of the rest splits `s`. */
  lemma SplitLast<T>(r0: seq<T>, k0: seq<T>, s: seq<T>, r: seq<T>, k: seq<T>)
    requires s != []
    requires multiset(r0) + multiset(k0) == multiset(s[..|s| - 1]) && |r0| + |k0| == |s| - 1
    requires (r == r0 + [s[|s| - 1]] && k == k0) || (r == r0 && k == k0 + [s[|s| - 1]])
    ensures multiset(r) + multiset(k) == multiset(s) && |r| + |k| == |s|
  {
    var x := s[|s| - 1];
    assert s == s[..|s| - 1] + [x];
    assert multiset(s) == multiset(s[..|s| - 1]) + multiset{x};
    if r == r0 + [x] {
      assert multiset(r) == multiset(r0) + multiset{x};
    } else {
      assert multiset(k) == multiset(k0) + multiset{x};
    }
  }

  /**
   * Because of the constant first disjunct, a definition of a function (a
   * glob) at the top level of a module is relocated like any other statement.
   */
  lemma GlobsAreRelocated(f: Symbol)
    requires f.Fn?
    ensures StmtIsGlob(Def(f, None, None))
    ensures Relocated([Def(f, None, None)]) == [Def(f, None, None)]
  {
    assert [Def(f, None, None)][..0] == [];
  }

  // ---- the guard ----

  function GuardName(modName: string, moduleNumber: nat): string
  {
    "__run_" + modName + "_firsttime" + Istr(moduleNumber)
  }

  /** Two guards of one module name with different numbers have different names. */
  lemma GuardNamesDistinct(modName: string, a: nat, b: nat)
    requires a != b
    ensures GuardName(modName, a) != GuardName(modName, b)
  {
    if GuardName(modName, a) == GuardName(modName, b) {
      assert ("__run_" + modName + "_firsttime") + Istr(a) == ("__run_" + modName + "_firsttime") + Istr(b);
      NumberedNameInjective("__run_" + modName + "_firsttime", a, b);
    }
  }

  const GuardPragmas: set<string> := {"private"}

  /** The guard's definition at the head of the program's init function: initially true. */
  function GuardDef(guard: Ident): Ast
  {
    Def(Var(guard, NoFlags, GuardPragmas), Some(Sym(BoolLit(true))), None)
  }

  /** The statement of `_initModuleGuards` that sets the guard back to true. */
  function GuardReset(guard: Ident): Ast
  {
    Move(SymOf(guard), Sym(BoolLit(true)))
  }

  /** `if !guard return;` */
  function GuardTest(guard: Ident): Ast
  {
    Cond(CallNamed("!", [SymOf(guard)]), PrimCall(PReturn, [Sym(VoidLit)]), None)
  }

  /** `guard = false;` */
  function GuardClear(guard: Ident): Ast
  {
    CallNamed("=", [SymOf(guard), Sym(BoolLit(false))])
  }

  /** What the init function runs before the module's statements. */
  function Prologue(guard: Option<Ident>): seq<Ast>
  {
    if guard.Some? then [GuardTest(guard.value), GuardClear(guard.value)] else []
  }

  // ---- running a guarded init function ----

  /** The statement is one of the two guard statements for `g`. */
  predicate TouchesGuard(s: Ast, g: Ident)
  {
    s == GuardTest(g) || s == GuardClear(g)
  }

  /**
   * Runs a straight-line init function body with the guard holding `guardOn`:
   * the guard test returns when the guard is false, the clear sets it false,
   * and every other statement runs.  Yields the statements run and the final
   * guard value.
   */
  function RunInit(body: seq<Ast>, g: Ident, guardOn: bool): (seq<Ast>, bool)
  {
    if body == [] then ([], guardOn)
    else if body[0] == GuardTest(g) then (if guardOn then RunInit(body[1..], g, guardOn) else ([], guardOn))
    else if body[0] == GuardClear(g) then RunInit(body[1..], g, false)
    else var (ran, after) := RunInit(body[1..], g, guardOn); ([body[0]] + ran, after)
  }

  lemma {:induction false} RunInitPlain(stmts: seq<Ast>, g: Ident, guardOn: bool)
    requires forall k :: 0 <= k < |stmts| ==> !TouchesGuard(stmts[k], g)
    ensures RunInit(stmts, g, guardOn) == (stmts, guardOn)
    decreases |stmts|
  {
    if stmts != [] {
      RunInitPlain(stmts[1..], g, guardOn);
      assert [stmts[0]] + stmts[1..] == stmts;
    }
  }

  /**
   * The guard makes the init function run once: the first run, with the
   * guard true, runs every relocated statement and clears the guard; a
   * second run then runs nothing.
   */
  lemma InitRunsOnce(g: Ident, stmts: seq<Ast>)
    requires forall k :: 0 <= k < |stmts| ==> !TouchesGuard(stmts[k], g)
    ensures RunInit(Prologue(Some(g)) + stmts, g, true) == (stmts, false)
    ensures RunInit(Prologue(Some(g)) + stmts, g, false) == ([], false)
  {
    var body := Prologue(Some(g)) + stmts;
    assert body[0] == GuardTest(g);
    assert body[1..][0] == GuardClear(g);
    assert body[1..][1..] == stmts;
    RunInitPlain(stmts, g, false);
  }

  // ---- the state `createInitFn` updates ----

  /** The definition of `_initModuleGuards`, placed at the head of the program's block. */
  function GuardsFnDef(g: Ident): Ast
  {
    Def(Fn(g, [], [], {}, RetValue, TUnknown, None, false, false), None, None)
  }

  /**
   * The program-wide state: the counter of guarded modules, the function
   * `_initModuleGuards` once it exists and its body, the program's block and
   * the body of the program's init function.
   */
  class InitState {
    var moduleNumber: nat
    var guardsFn: Option<Ident>
    var guardsBody: seq<Ast>
    var programBlock: seq<Ast>
    var programInit: seq<Ast>

    constructor (programBlock: seq<Ast>, programInit: seq<Ast>)
      ensures this.moduleNumber == 0 && this.guardsFn == None && this.guardsBody == []
      ensures this.programBlock == programBlock && this.programInit == programInit
    {
      this.moduleNumber := 0;
      this.guardsFn := None;
      this.guardsBody := [];
      this.programBlock := programBlock;
      this.programInit := programInit;
    }

    /**
     * Creates `_initModuleGuards` on first use: its definition goes to the
     * head of the program's block and a call of it to the head of the
     * program's init function.  Later calls change nothing.
     */
    method EnsureGuards(n: Names) returns (m: Names)
      modifies this
      ensures old(guardsFn).Some? ==> guardsFn == old(guardsFn) && programBlock == old(programBlock)
                                      && programInit == old(programInit) && m == n
      ensures old(guardsFn).None? ==>
        var g := Ident("_initModuleGuards", n.nextId);
        guardsFn == Some(g)
        && programBlock == [GuardsFnDef(g)] + old(programBlock)
        && programInit == [Call(Resolved(g), [])] + old(programInit)
        && m == n.(nextId := n.nextId + 1)
      ensures guardsFn.Some?
      ensures moduleNumber == old(moduleNumber) && guardsBody == old(guardsBody)
    {
      m := n;
      if guardsFn.None? {
        var (g, n1) := Fresh(n, "_initModuleGuards");
        guardsFn := Some(g);
        programBlock := [GuardsFnDef(g)] + programBlock;
        programInit := [Call(Resolved(g), [])] + programInit;
        m := n1;
      }
    }

    /**
     * The guard of module `modName`: numbered by the counter, which moves
     * on; declared true at the head of the program's init function and set
     * true again by `_initModuleGuards`.
     */
    method AddGuard(modName: string, n: Names) returns (guard: Ident, m: Names)
      modifies this
      ensures guard == Ident(GuardName(modName, old(moduleNumber)), n.nextId) && m == n.(nextId := n.nextId + 1)
      ensures moduleNumber == old(moduleNumber) + 1
      ensures programInit == [GuardDef(guard)] + old(programInit)
      ensures guardsBody == old(guardsBody) + [GuardReset(guard)]
      ensures guardsFn == old(guardsFn) && programBlock == old(programBlock)
    {
      guard, m := Fresh(n, GuardName(modName, moduleNumber)).0, Fresh(n, GuardName(modName, moduleNumber)).1;
      moduleNumber := moduleNumber + 1;
      programInit := [GuardDef(guard)] + programInit;
      guardsBody := guardsBody + [GuardReset(guard)];
    }

    /**
     * What `createInitFn` does to the program before it relocates anything:
     * `_initModuleGuards` on first use, then, for every module but
     * `_Program`, the module's guard.
     */
    method Register(modName: string, n: Names) returns (guard: Option<Ident>, m: Names)
      modifies this
      // `_initModuleGuards` is created by the first call only
      ensures old(guardsFn).Some? ==> guardsFn == old(guardsFn) && programBlock == old(programBlock)
      ensures old(guardsFn).None? ==> guardsFn == Some(Ident("_initModuleGuards", n.nextId))
      ensures old(guardsFn).None? ==> programBlock == [GuardsFnDef(guardsFn.value)] + old(programBlock)
      // every module but `_Program` gets the next numbered guard
      ensures guard.Some? <==> modName != "_Program"
      ensures guard.Some? ==>
        guard.value == Ident(GuardName(modName, old(moduleNumber)), n.nextId + (if old(guardsFn).None? then 1 else 0))
      ensures moduleNumber == old(moduleNumber) + (if guard.Some? then 1 else 0)
      ensures guardsBody == old(guardsBody) + (if guard.Some? then [GuardReset(guard.value)] else [])
      // the program's init defines the guard, then calls `_initModuleGuards` on first use
      ensures programInit ==
        (if guard.Some? then [GuardDef(guard.value)] else [])
        + (if old(guardsFn).None? then [Call(Resolved(guardsFn.value), [])] else [])
        + old(programInit)
      ensures m == n.(nextId := n.nextId + (if old(guardsFn).None? then 1 else 0) + (if guard.Some? then 1 else 0))
    {
      ghost var created := guardsFn.None?;
      ghost var call := if created then [Call(Resolved(Ident("_initModuleGuards", n.nextId)), [])] else [];
      ghost var init0 := programInit;
      m := EnsureGuards(n);
      assert programInit == call + init0;
      guard := None;
      if modName != "_Program" {
        var g, n1 := AddGuard(modName, m);
        assert programInit == [GuardDef(g)] + (call + init0);
        guard, m := Some(g), n1;
      }
    }
  }

  // ---- relocation ----

  lemma RelocateStep(stmts: seq<Ast>, i: nat)
    requires i < |stmts|
    ensures Relocated(stmts[..i + 1]) == Relocated(stmts[..i]) + (if Moves(stmts[i]) then [stmts[i]] else [])
    ensures Kept(stmts[..i + 1]) == Kept(stmts[..i]) + (if Moves(stmts[i]) then [] else [stmts[i]])
  {
    assert stmts[..i + 1][..i] == stmts[..i];
  }

  /**
   * The loop of `createInitFn`: in order, each statement is taken out of the
   * module block and appended to the init function, unless it stays.
   */
  method Relocate(block: BlockStmt, fn: FnStmt)
    modifies block, fn
    ensures block.body == Kept(old(block.body))
    ensures fn.body == old(fn.body) + Relocated(old(block.body))
    ensures block.tag == old(block.tag) && fn.formals == old(fn.formals) && fn.whereClause == old(fn.whereClause)
  {
    var stmts := block.body;
    var at := 0;
    var i := 0;
    while i < |stmts|
      invariant 0 <= i <= |stmts|
      invariant at == |Kept(stmts[..i])|
      invariant block.body == Kept(stmts[..i]) + stmts[i..]
      invariant fn.body == old(fn.body) + Relocated(stmts[..i])
      invariant block.tag == old(block.tag) && fn.formals == old(fn.formals) && fn.whereClause == old(fn.whereClause)
    {
      at := RelocateOne(block, fn, stmts, i, at, old(fn.body));
      i := i + 1;
    }
    assert stmts[..i] == stmts;
  }

  /** One statement of the loop: taken out of the block and appended to the function, or passed over. */
  method RelocateOne(block: BlockStmt, fn: FnStmt, stmts: seq<Ast>, i: nat, at: nat, ghost prior: seq<Ast>) returns (next: nat)
    requires i < |stmts| && at == |Kept(stmts[..i])| && block.body == Kept(stmts[..i]) + stmts[i..]
    requires fn.body == prior + Relocated(stmts[..i])
    modifies block, fn
    ensures next == |Kept(stmts[..i + 1])| && block.body == Kept(stmts[..i + 1]) + stmts[i + 1..]
    ensures fn.body == prior + Relocated(stmts[..i + 1])
    ensures block.tag == old(block.tag) && fn.formals == old(fn.formals) && fn.whereClause == old(fn.whereClause)
  {
    ghost var kept := Kept(stmts[..i]);
    ghost var moved := Relocated(stmts[..i]);
    RelocateStep(stmts, i);
    Unfold(kept, stmts, i);
    if Moves(stmts[i]) {
      block.RemoveAt(at);
      fn.InsertAtTail(stmts[i]);
      assert fn.body == prior + (moved + [stmts[i]]);
      next := at;
    } else {
      assert moved + [] == moved;
      next := at + 1;
    }
  }

  /** The list `kept + xs[i..]` with `xs[i]` taken out, or kept. */
  lemma Unfold<T>(kept: seq<T>, xs: seq<T>, i: nat)
    requires i < |xs|
    ensures (kept + xs[i..])[|kept|] == xs[i]
    ensures (kept + xs[i..])[..|kept|] + (kept + xs[i..])[|kept| + 1..] == kept + xs[i + 1..]
    ensures kept + xs[i..] == (kept + [xs[i]]) + xs[i + 1..]
  {
    assert xs[i..] == [xs[i]] + xs[i + 1..];
  }

  /** The init function of a module. */
  function InitFnSym(f: Ident, body: seq<Ast>): Symbol
  {
    Fn(f, [], body, {}, RetValue, TVoid, None, false, false)
  }

  /**
   * `createInitFn`: the module's init function, holding the guard prologue
   * (except for `_Program`) and then the relocated statements; its
   * definition goes to the head of the module block.
   */
  method CreateInitFn(st: InitState, modName: string, block: BlockStmt, n: Names) returns (initFn: Symbol, guard: Option<Ident>, m: Names)
    modifies st, block
    ensures
      var f := Ident("__init_" + modName, n.nextId);
      initFn == InitFnSym(f, Prologue(guard) + Relocated(old(block.body)))
      && block.body == [Def(initFn, None, None)] + Kept(old(block.body))
    // `_initModuleGuards` is created by the first call only
    ensures old(st.guardsFn).Some? ==> st.guardsFn == old(st.guardsFn) && st.programBlock == old(st.programBlock)
    ensures old(st.guardsFn).None? ==> st.guardsFn == Some(Ident("_initModuleGuards", n.nextId + 1))
    ensures old(st.guardsFn).None? ==> st.programBlock == [GuardsFnDef(st.guardsFn.value)] + old(st.programBlock)
    // every module but `_Program` gets the next numbered guard
    ensures guard.Some? <==> modName != "_Program"
    ensures guard.Some? ==>
      guard.value == Ident(GuardName(modName, old(st.moduleNumber)), n.nextId + 1 + (if old(st.guardsFn).None? then 1 else 0))
    ensures st.moduleNumber == old(st.moduleNumber) + (if guard.Some? then 1 else 0)
    ensures st.guardsBody == old(st.guardsBody) + (if guard.Some? then [GuardReset(guard.value)] else [])
    // the program's init defines the guard, then calls `_initModuleGuards` on first use
    ensures st.programInit ==
      (if guard.Some? then [GuardDef(guard.value)] else [])
      + (if old(st.guardsFn).None? then [Call(Resolved(st.guardsFn.value), [])] else [])
      + old(st.programInit)
    ensures m == n.(nextId := n.nextId + 1 + (if old(st.guardsFn).None? then 1 else 0) + (if guard.Some? then 1 else 0))
  {
    var alloc := Fresh(n, "__init_" + modName);
    var f := alloc.0;
    assert f == Ident("__init_" + modName, n.nextId) && alloc.1 == n.(nextId := n.nextId + 1);
    guard, m := st.Register(modName, alloc.1);
    var fn := new FnStmt([], [], None);
    if guard.Some? {
      fn.InsertAtTail(GuardTest(guard.value));
      fn.InsertAtTail(GuardClear(guard.value));
      assert fn.body == [GuardTest(guard.value), GuardClear(guard.value)];
    }
    assert fn.body == Prologue(guard);
    ghost var stmts := block.body;
    Relocate(block, fn);
    assert fn.body == Prologue(guard) + Relocated(stmts);
    initFn := InitFnSym(f, fn.body);
    block.InsertAtHead(Def(initFn, None, None));
  }
}

=== FILE: build_parallel.dfy ===
/**
 * Task-parallel statements: `begin` (spawn a task), `sync` (the end-count
 * bracket that waits for the tasks a statement spawned), `cobegin` (one task
 * per statement, joined through a sync stack) and `on` (run a statement on
 * the locale of an expression).
 */
module BuildParallel {
  import opened Diagnostics
  import opened Ast

  function BeginFnId(n: Names): Ident { Ident("_begin_fn_" + Istr(n.beginUid), n.nextId) }

  /**
   * `begin stmt`: a function `_begin_fn_<uid>` whose body runs `stmt` and then
   * decrements the end count, preceded by an increment of the end count and
   * spawned from a BEGIN block.
   */
  function BeginStmt(n: Names, stmt: Ast, allocateOnHeap: bool): (r: (Ast, Names))
    ensures r.0.Block? && r.0.tag == Scopeless && |r.0.body| == 3
    ensures r.0.body[0].Def? && r.0.body[0].sym.Fn?
    ensures
      var fn := r.0.body[0].sym;
      fn.ident == BeginFnId(n) && "begin" in fn.pragmas && fn.retType == TVoid
      && ("no heap allocation" in fn.pragmas <==> !allocateOnHeap)
      && fn.body == [stmt, CallNamed("_downEndCount", [])]
    ensures r.0.body[1] == CallNamed("_upEndCount", [])
    ensures r.0.body[2] == PlainBlock(Begin, [Call(Resolved(BeginFnId(n)), [])])
    ensures r.1 == n.(nextId := n.nextId + 1, beginUid := n.beginUid + 1)
  {
    var (fnId, n1) := Fresh(n, "_begin_fn_" + Istr(n.beginUid));
    var pragmas := if allocateOnHeap then {"begin"} else {"begin", "no heap allocation"};
    var fn := Fn(fnId, [], [stmt, CallNamed("_downEndCount", [])], pragmas, RetValue, TVoid, None, false, false);
    (PlainBlock(Scopeless, [Def(fn, None, None), CallNamed("_upEndCount", []), PlainBlock(Begin, [Call(Resolved(fnId), [])])]),
     n1.(beginUid := n.beginUid + 1))
  }

  /** How many calls of the named function a statement list makes at its top level. */
  function CountCalls(stmts: seq<Ast>, name: string): nat
  {
    if stmts == [] then 0
    else (if stmts[0] == CallNamed(name, []) then 1 else 0) + CountCalls(stmts[1..], name)
  }

  lemma CountCallsCons(st: Ast, rest: seq<Ast>, name: string)
    ensures CountCalls([st] + rest, name) == (if st == CallNamed(name, []) then 1 else 0) + CountCalls(rest, name)
  {
    assert ([st] + rest)[1..] == rest;
  }

  /**
   * The end-count bracket of `begin`: the spawning side increments the end
   * count once, before the task is spawned, and the task decrements it once,
   * after its statement (when the statement itself makes no such calls).
   */
  lemma BeginBalancesEndCount(n: Names, stmt: Ast, allocateOnHeap: bool)
    requires stmt != CallNamed("_downEndCount", [])
    ensures
      var b := BeginStmt(n, stmt, allocateOnHeap).0;
      CountCalls(b.body, "_upEndCount") == 1 && CountCalls(b.body[0].sym.body, "_downEndCount") == 1
      && CountCalls(b.body, "_downEndCount") == 0
  {
    var b := BeginStmt(n, stmt, allocateOnHeap).0;
    assert b.body == [b.body[0]] + ([b.body[1]] + ([b.body[2]] + []));
    var fb := b.body[0].sym.body;
    assert fb == [fb[0]] + ([fb[1]] + []);
    forall name | name in {"_upEndCount", "_downEndCount"}
      ensures CountCalls(b.body, name) == CountCalls([b.body[1]], name) + CountCalls([b.body[2]], name)
      ensures CountCalls(fb, name) == (if fb[0] == CallNamed(name, []) then 1 else 0) + CountCalls([fb[1]], name)
    {
      CountCallsCons(b.body[0], [b.body[1]] + ([b.body[2]] + []), name);
      CountCallsCons(b.body[1], [b.body[2]] + [], name);
      CountCallsCons(b.body[2], [], name);
      CountCallsCons(b.body[1], [], name);
      CountCallsCons(fb[0], [fb[1]] + [], name);
      CountCallsCons(fb[1], [], name);
    }
  }

  function EndSave(n: Names): Ident { Ident("_endCountSave", n.nextId) }

  /**
   * `sync stmt`: save the current end count, install a fresh one, run the
   * statement, wait for the fresh count to drain, restore the saved count.
   */
  function EndStmt(n: Names, stmt: Ast): (r: (Ast, Names))
    ensures r.0.Block? && r.0.tag == Scopeless && |r.0.body| == 6
    ensures r.0.body[0] == DefVar(EndSave(n), TempFlags)
    ensures r.0.body[1] == Move(SymOf(EndSave(n)), PrimCall(PGetEndCount, []))
    ensures r.0.body[2] == PrimCall(PSetEndCount, [CallNamed("_endCountAlloc", [])])
    ensures r.0.body[3] == stmt
    ensures r.0.body[4] == CallNamed("_waitEndCount", [])
    ensures r.0.body[5] == PrimCall(PSetEndCount, [SymOf(EndSave(n))])
    ensures r.1 == n.(nextId := n.nextId + 1)
  {
    var (save, n1) := Fresh(n, "_endCountSave");
    (PlainBlock(Scopeless, [
       DefVar(save, TempFlags),
       Move(SymOf(save), PrimCall(PGetEndCount, [])),
       PrimCall(PSetEndCount, [CallNamed("_endCountAlloc", [])]),
       stmt,
       CallNamed("_waitEndCount", []),
       PrimCall(PSetEndCount, [SymOf(save)])]), n1)
  }

  /** The end count in effect: the caller's, or one allocated by the k-th allocation. */
  datatype EndCount = CallerCount | AllocatedCount(k: nat)

  /** The end-count state as a straight-line list of statements changes it. */
  datatype EndState = EndState(current: EndCount, saved: map<Ident, EndCount>, allocations: nat, waited: seq<EndCount>)

  /** The effect on the end-count state of one statement that touches it; other statements leave it alone. */
  function EndStep(s: EndState, st: Ast): EndState
  {
    if st.Call? && st.callee == Prim(PMove) && |st.args| == 2 && st.args[0].Sym? && st.args[0].ref.Bound?
       && st.args[1] == PrimCall(PGetEndCount, [])
    then s.(saved := s.saved[st.args[0].ref.ident := s.current])
    else if st == PrimCall(PSetEndCount, [CallNamed("_endCountAlloc", [])])
    then s.(current := AllocatedCount(s.allocations), allocations := s.allocations + 1)
    else if st.Call? && st.callee == Prim(PSetEndCount) && |st.args| == 1 && st.args[0].Sym? && st.args[0].ref.Bound?
            && st.args[0].ref.ident in s.saved
    then s.(current := s.saved[st.args[0].ref.ident])
    else if st == CallNamed("_waitEndCount", [])
    then s.(waited := s.waited + [s.current])
    else s
  }

  function EndRun(s: EndState, stmts: seq<Ast>): EndState
    decreases |stmts|
  {
    if stmts == [] then s else EndRun(EndStep(s, stmts[0]), stmts[1..])
  }

  lemma EndRunCons(s: EndState, st: Ast, rest: seq<Ast>)
    ensures EndRun(s, [st] + rest) == EndRun(EndStep(s, st), rest)
  {
    assert ([st] + rest)[1..] == rest;
  }

  /**
   * `sync` brackets its statement: the statement runs under a freshly
   * allocated end count, the wait is on that count, and afterwards the count
   * in effect before the block is back (for a statement that leaves the end
   * count as it found it).
   */
  lemma EndRestoresCount(n: Names, stmt: Ast, s: EndState)
    requires EndSave(n) !in s.saved
    requires forall t: EndState :: EndStep(t, stmt) == t
    ensures
      var b := EndStmt(n, stmt).0.body;
      var before := EndRun(s, b[..3]);
      before.current == AllocatedCount(s.allocations)
      && EndRun(s, b).current == s.current
      && EndRun(s, b).waited == s.waited + [AllocatedCount(s.allocations)]
  {
    var b := EndStmt(n, stmt).0.body;
    var s1 := EndStep(s, b[0]);
    var s2 := EndStep(s1, b[1]);
    var s3 := EndStep(s2, b[2]);
    var s4 := EndStep(s3, b[3]);
    var s5 := EndStep(s4, b[4]);
    var s6 := EndStep(s5, b[5]);
    assert s3.current == AllocatedCount(s.allocations);
    assert b[..3] == [b[0]] + ([b[1]] + ([b[2]] + []));
    EndRunCons(s, b[0], [b[1]] + ([b[2]] + []));
    EndRunCons(s1, b[1], [b[2]] + []);
    EndRunCons(s2, b[2], []);
    assert b == [b[0]] + ([b[1]] + ([b[2]] + ([b[3]] + ([b[4]] + ([b[5]] + [])))));
    EndRunCons(s, b[0], [b[1]] + ([b[2]] + ([b[3]] + ([b[4]] + ([b[5]] + [])))));
    EndRunCons(s1, b[1], [b[2]] + ([b[3]] + ([b[4]] + ([b[5]] + []))));
    EndRunCons(s2, b[2], [b[3]] + ([b[4]] + ([b[5]] + [])));
    EndRunCons(s3, b[3], [b[4]] + ([b[5]] + []));
    EndRunCons(s4, b[4], [b[5]] + []);
    EndRunCons(s5, b[5], []);
  }

  /** One branch of a cobegin: push onto the sync stack, spawn the statement, record the branch. */
  function CobeginBranch(n: Names, stmt: Ast, ss: Ident): (r: (Ast, Names))
    ensures r.0.Block? && r.0.tag == Scopeless && |r.0.body| == 6
    ensures r.0.body[0] == DefVar(Ident("_me", n.nextId), TempFlags)
    ensures r.0.body[1] == Move(SymOf(Ident("_me", n.nextId)), CallNamed("_pushSyncStack", [SymOf(ss)]))
    ensures r.0.body[5] == CallNamed("=", [SymOf(ss), SymOf(Ident("_me", n.nextId))])
    ensures r.1 == n.(nextId := n.nextId + 2, beginUid := n.beginUid + 1)
  {
    var (me, n1) := Fresh(n, "_me");
    var beginBlk := PlainBlock(Normal, [stmt, CallNamed("=", [CallNamed(".", [SymOf(me), Str("v")]), Sym(BoolLit(true))])]);
    var (body, n2) := BeginStmt(n1, beginBlk, false);
    (body.(body := [DefVar(me, TempFlags), Move(SymOf(me), CallNamed("_pushSyncStack", [SymOf(ss)]))]
                   + body.body + [CallNamed("=", [SymOf(ss), SymOf(me)])]), n2)
  }

  /**
   * Between the push and the record, a branch spawns its statement as a task
   * that marks its sync-stack entry done when it ends.
   */
  lemma CobeginBranchSpawns(n: Names, stmt: Ast, ss: Ident)
    ensures
      var me := Ident("_me", n.nextId);
      CobeginBranch(n, stmt, ss).0.body[2..5]
      == BeginStmt(n.(nextId := n.nextId + 1),
                   PlainBlock(Normal, [stmt, CallNamed("=", [CallNamed(".", [SymOf(me), Str("v")]), Sym(BoolLit(true))])]),
                   false).0.body
  {
    var me := Ident("_me", n.nextId);
    var beginBlk := PlainBlock(Normal, [stmt, CallNamed("=", [CallNamed(".", [SymOf(me), Str("v")]), Sym(BoolLit(true))])]);
    var body := BeginStmt(n.(nextId := n.nextId + 1), beginBlk, false).0;
    var all := [DefVar(me, TempFlags), Move(SymOf(me), CallNamed("_pushSyncStack", [SymOf(ss)]))] + body.body + [CallNamed("=", [SymOf(ss), SymOf(me)])];
    assert Fresh(n, "_me") == (me, n.(nextId := n.nextId + 1));
    assert CobeginBranch(n, stmt, ss).0.body == all;
    assert all[2..5] == body.body;
  }

  /** The branches of a cobegin over `stmts`, with the naming context after them. */
  function CobeginBranches(n: Names, stmts: seq<Ast>, ss: Ident): (r: (seq<Ast>, Names))
    ensures |r.0| == |stmts|
    ensures r.1.beginUid == n.beginUid + |stmts|
    decreases |stmts|
  {
    if stmts == [] then ([], n)
    else
      var pre := CobeginBranches(n, stmts[..|stmts| - 1], ss);
      var b := CobeginBranch(pre.1, stmts[|stmts| - 1], ss);
      (pre.0 + [b.0], b.1)
  }

  /** A statement assigning a task's sync-stack entry by pushing onto `ss`. */
  predicate IsPush(st: Ast, ss: Ident)
  {
    st.Call? && st.callee == Prim(PMove) && |st.args| == 2 && st.args[1] == CallNamed("_pushSyncStack", [SymOf(ss)])
  }

  /** A statement recording a finished branch's entry back into `ss`. */
  predicate IsRecord(st: Ast, ss: Ident)
  {
    st.Call? && st.callee == Named("=") && |st.args| == 2 && st.args[0] == SymOf(ss)
  }

  /** A branch pushes onto the sync stack first, runs its task in a begin block, and records itself last. */
  predicate Bracketed(b: Ast, ss: Ident)
  {
    b.Block? && |b.body| == 6 && IsPush(b.body[1], ss) && IsRecord(b.body[5], ss)
    && b.body[4].Block? && b.body[4].tag == Begin
  }

  /** Each branch of a cobegin pushes onto the sync stack first and records itself last. */
  lemma {:induction false} CobeginBranchesBracket(n: Names, stmts: seq<Ast>, ss: Ident, i: nat)
    requires i < |stmts|
    ensures Bracketed(CobeginBranches(n, stmts, ss).0[i], ss)
    decreases |stmts|
  {
    var front := stmts[..|stmts| - 1];
    var pre := CobeginBranches(n, front, ss);
    var b := CobeginBranch(pre.1, stmts[|stmts| - 1], ss);
    assert CobeginBranches(n, stmts, ss).0 == pre.0 + [b.0];
    if i < |stmts| - 1 {
      CobeginBranchesBracket(n, front, ss, i);
    } else {
      BranchBracketed(pre.1, stmts[|stmts| - 1], ss);
    }
  }

  lemma BranchBracketed(n: Names, stmt: Ast, ss: Ident)
    ensures Bracketed(CobeginBranch(n, stmt, ss).0, ss)
  {
  }

  lemma CobeginBranchesStep(start: Names, xs: seq<Ast>, i: nat, acc: (seq<Ast>, Names), ss: Ident, b: (Ast, Names))
    requires i < |xs| && acc == CobeginBranches(start, xs[..i], ss) && b == CobeginBranch(acc.1, xs[i], ss)
    ensures CobeginBranches(start, xs[..i + 1], ss).0 == acc.0 + [b.0]
    ensures CobeginBranches(start, xs[..i + 1], ss).1 == b.1
  {
    var ys := xs[..i + 1];
    assert ys[..|ys| - 1] == xs[..i];
    assert ys[|ys| - 1] == xs[i];
  }

  /** Replaces each statement of the block, in place and in order, by its cobegin branch. */
  method SpawnBranches(block: BlockStmt, start: Names, ss: Ident) returns (m: Names)
    modifies block
    ensures block.body == CobeginBranches(start, old(block.body), ss).0
    ensures m == CobeginBranches(start, old(block.body), ss).1
    ensures block.tag == old(block.tag)
  {
    var done;
    done, m := BranchesOf(start, block.body, ss);
    block.body := done;
  }

  /** The branches of the statements, built one statement at a time, in order. */
  method BranchesOf(start: Names, original: seq<Ast>, ss: Ident) returns (done: seq<Ast>, m: Names)
    ensures done == CobeginBranches(start, original, ss).0
    ensures m == CobeginBranches(start, original, ss).1
  {
    var acc: (seq<Ast>, Names) := ([], start);
    var i := 0;
    while i < |original|
      invariant 0 <= i <= |original|
      invariant acc == CobeginBranches(start, original[..i], ss)
    {
      var step := CobeginBranch(acc.1, original[i], ss);
      CobeginBranchesStep(start, original, i, acc, ss, step);
      acc := (acc.0 + [step.0], step.1);
      i := i + 1;
    }
    assert original[..i] == original;
    done, m := acc.0, acc.1;
  }

  /**
   * `cobegin { s1; ...; sk }`: each statement is replaced in place by a branch
   * that spawns it; the block then declares and initialises the sync stack
   * first and waits on it last.
   */
  method CobeginStmt(block: BlockStmt, n: Names) returns (m: Names)
    modifies block
    ensures
      var ss := Ident("_ss", n.nextId);
      block.body == [DefVar(ss, TempFlags), Move(SymOf(ss), PrimCall(PInit, [Sym(Unresolved("_syncStack"))]))]
                    + CobeginBranches(n.(nextId := n.nextId + 1), old(block.body), ss).0
                    + [CallNamed("_waitSyncStack", [SymOf(ss)])]
      && m == CobeginBranches(n.(nextId := n.nextId + 1), old(block.body), ss).1
    ensures block.tag == old(block.tag)
  {
    var alloc := Fresh(n, "_ss");
    var ss := alloc.0;
    assert ss == Ident("_ss", n.nextId) && alloc.1 == n.(nextId := n.nextId + 1);
    m := SpawnBranches(block, alloc.1, ss);
    SyncStackAround(block, ss);
  }

  /** Declares and initialises the sync stack `ss` ahead of the block's statements and waits on it after them. */
  method SyncStackAround(block: BlockStmt, ss: Ident)
    modifies block
    ensures block.body == [DefVar(ss, TempFlags), Move(SymOf(ss), PrimCall(PInit, [Sym(Unresolved("_syncStack"))]))]
                          + old(block.body) + [CallNamed("_waitSyncStack", [SymOf(ss)])]
    ensures block.tag == old(block.tag)
  {
    var init := Move(SymOf(ss), PrimCall(PInit, [Sym(Unresolved("_syncStack"))]));
    var def := DefVar(ss, TempFlags);
    block.InsertAtHead(init);
    block.InsertAtHead(def);
    assert block.body == [def, init] + old(block.body);
    block.InsertAtTail(CallNamed("_waitSyncStack", [SymOf(ss)]));
  }

  /**
   * `on expr do stmt`: with local compilation the statement just runs in a
   * block; otherwise a function `_on_fn_<uid>` taking a dummy locale formal
   * holds the statement and is called from an ON block with the locale of
   * the expression, evaluated once into a temp.
   */
  function OnStmt(n: Names, local: bool, expr: Ast, stmt: Ast): (r: (Ast, Names))
    ensures r.0.Block? && r.0.tag == Scopeless
    ensures local ==> r.0.body == [PlainBlock(Normal, [stmt])] && r.1 == n
    ensures !local ==>
      var fnId := Ident("_on_fn_" + Istr(n.onUid), n.nextId);
      var tmp := Ident("_tmp", n.nextId + 2);
      |r.0.body| == 4
      && r.0.body[0] == DefVar(tmp, TempFlags)
      && r.0.body[1] == Move(SymOf(tmp), PrimCall(PGetRef, [PrimCall(PGetLocale, [expr])]))
      && r.0.body[2].Def? && r.0.body[2].sym.Fn? && r.0.body[2].sym.ident == fnId
      && r.0.body[2].sym.formals == [Def(Arg(Ident("_dummy_locale_arg", n.nextId + 1), IntentBlank, TInt32, None, None, NoFlags), None, None)]
      && r.0.body[2].sym.body == [stmt] && "on" in r.0.body[2].sym.pragmas
      && r.0.body[3] == PlainBlock(On, [Call(Resolved(fnId), [SymOf(tmp)])])
      && r.1 == n.(nextId := n.nextId + 3, onUid := n.onUid + 1)
  {
    if local then (PlainBlock(Scopeless, [PlainBlock(Normal, [stmt])]), n)
    else
      var (fnId, n1) := Fresh(n, "_on_fn_" + Istr(n.onUid));
      var (arg, n2) := Fresh(n1, "_dummy_locale_arg");
      var (tmp, n3) := Fresh(n2, "_tmp");
      var formal := Def(Arg(arg, IntentBlank, TInt32, None, None, NoFlags), None, None);
      var fn := Fn(fnId, [formal], [stmt], {"on"}, RetValue, TVoid, None, false, false);
      (PlainBlock(Scopeless, [
         DefVar(tmp, TempFlags),
         Move(SymOf(tmp), PrimCall(PGetRef, [PrimCall(PGetLocale, [expr])])),
         Def(fn, None, None),
         PlainBlock(On, [Call(Resolved(fnId), [SymOf(tmp)])])]), n3.(onUid := n.onUid + 1))
  }
}

=== FILE: build_select.dfy ===
/**
 * The select statement.  It becomes an if/else-if chain whose tests compare
 * the selector with each clause's conditions; the otherwise body is the
 * final else.
 */
module BuildSelect {
  import opened Diagnostics
  import opened Ast
  import opened BuildExprs

  const NotAWhen := InternalFatal("error in build_select")
  const MultipleOtherwise := UserFatal("Select has multiple otherwise clauses")
  const NoWhenClauses := UserFatal("Select has no when clauses")

  // ---- clauses ----

  /** The conditions of a clause: it must be a conditional whose test is a WHEN primitive. */
  function WhenConds(s: Ast): (r: Option<seq<Ast>>)
    ensures r.Some? ==> s.Cond?
  {
    if s.Cond? && s.test.Call? && s.test.callee == Prim(PWhen) then Some(s.test.args) else None
  }

  /** A clause without conditions is the otherwise clause. */
  predicate IsOtherwise(s: Ast)
  {
    WhenConds(s) == Some([])
  }

  /** Every one of the first `i` clauses is a WHEN conditional. */
  predicate AllWhens(whens: seq<Ast>, i: nat)
    requires i <= |whens|
  {
    forall k :: 0 <= k < i ==> WhenConds(whens[k]).Some?
  }

  /** How many of the first `i` clauses are otherwise clauses. */
  function OtherwiseCount(whens: seq<Ast>, i: nat): nat
    requires i <= |whens|
  {
    if i == 0 then 0 else OtherwiseCount(whens, i - 1) + (if IsOtherwise(whens[i - 1]) then 1 else 0)
  }

  /** The clauses among the first `i` that have conditions, in source order. */
  function WhenClauses(whens: seq<Ast>, i: nat): (r: seq<Ast>)
    requires i <= |whens|
    ensures forall k :: 0 <= k < |r| ==> WhenConds(r[k]).Some? && WhenConds(r[k]).value != []
  {
    if i == 0 then []
    else
      var w := whens[i - 1];
      WhenClauses(whens, i - 1) + (if WhenConds(w).Some? && WhenConds(w).value != [] then [w] else [])
  }

  // ---- the test of one clause ----

  function Compare(sel: Ast, c: Ast): Ast { CallNamed("==", [sel, c]) }

  /**
   * Continues the left-nested `||`: `e` already covers the conditions before
   * position `j`, and each later condition adds one `|| sel == c`.
   */
  function OrFold(e: Ast, m: Names, sel: Ast, cs: seq<Ast>, j: nat): (r: (Ast, Names))
    requires j <= |cs|
    ensures r.1 == m.(nextId := m.nextId + 4 * (|cs| - j), ifUid := m.ifUid + |cs| - j)
    decreases |cs| - j
  {
    if j == |cs| then (e, m)
    else
      var (e', m') := LogicalOr(m, e, Compare(sel, cs[j]));
      OrFold(e', m', sel, cs, j + 1)
  }

  /** The left-nested `||` of `sel == c` over the conditions, in order. */
  function AnyEqual(n: Names, sel: Ast, cs: seq<Ast>): (r: (Ast, Names))
    requires |cs| >= 1
    ensures r.1 == n.(nextId := n.nextId + 4 * (|cs| - 1), ifUid := n.ifUid + |cs| - 1)
  {
    OrFold(Compare(sel, cs[0]), n, sel, cs, 1)
  }

  /** The `i`-th argument of a call (the expression itself when there is none). */
  function ArgAt(e: Ast, i: nat): Ast
  {
    if e.Call? && i < |e.args| then e.args[i] else e
  }

  /** The two operands of a lowered `||`, read back from the function it defines. */
  function OrOperands(e: Ast): Option<(Ast, Ast)>
  {
    var body := DefinedBody(e);
    if |body| == 8 && body[6].Cond? && body[6].elseS.Some?
    then Some((ArgAt(body[1], 1), ArgAt(ArgAt(ArgAt(ArgAt(body[6].elseS.value, 1), 1), 0), 0)))
    else None
  }

  lemma OrOperandsOfLogicalOr(n: Names, left: Ast, right: Ast)
    ensures OrOperands(LogicalOr(n, left, right).0) == Some((left, right))
  {
  }

  /** The `k` operands of a left-nested `||`, read back. */
  function Disjuncts(e: Ast, k: nat): seq<Ast>
  {
    if k <= 1 then [e]
    else match OrOperands(e)
      case None => [e]
      case Some((l, r)) => Disjuncts(l, k - 1) + [r]
  }

  /** The comparisons `sel == c` for the conditions, in order. */
  function Comparisons(sel: Ast, cs: seq<Ast>): (r: seq<Ast>)
    ensures |r| == |cs|
  {
    if cs == [] then [] else Comparisons(sel, cs[..|cs| - 1]) + [Compare(sel, cs[|cs| - 1])]
  }

  lemma {:induction false} ComparisonsAt(sel: Ast, cs: seq<Ast>, k: nat)
    requires k < |cs|
    ensures Comparisons(sel, cs)[k] == Compare(sel, cs[k])
    decreases |cs|
  {
    if k < |cs| - 1 {
      ComparisonsAt(sel, cs[..|cs| - 1], k);
    }
  }

  /** `t` is `_cond_test` over the disjunction of `sel == c` for the conditions `cs`, in order. */
  predicate TestsAny(t: Ast, sel: Ast, cs: seq<Ast>)
  {
    t.Call? && t.callee == Named("_cond_test") && |t.args| == 1
    && Disjuncts(t.args[0], |cs|) == Comparisons(sel, cs)
  }

  lemma {:induction false} OrFoldDisjuncts(e: Ast, m: Names, sel: Ast, cs: seq<Ast>, j: nat)
    requires 1 <= j <= |cs|
    requires Disjuncts(e, j) == Comparisons(sel, cs[..j])
    ensures Disjuncts(OrFold(e, m, sel, cs, j).0, |cs|) == Comparisons(sel, cs)
    decreases |cs| - j
  {
    if j == |cs| {
      assert cs[..j] == cs;
    } else {
      var c := Compare(sel, cs[j]);
      var (e', m') := LogicalOr(m, e, c);
      OrOperandsOfLogicalOr(m, e, c);
      assert cs[..j + 1][..j] == cs[..j];
      assert Disjuncts(e', j + 1) == Comparisons(sel, cs[..j + 1]);
      OrFoldDisjuncts(e', m', sel, cs, j + 1);
    }
  }

  lemma AnyEqualDisjuncts(n: Names, sel: Ast, cs: seq<Ast>)
    requires |cs| >= 1
    ensures Disjuncts(AnyEqual(n, sel, cs).0, |cs|) == Comparisons(sel, cs)
  {
    assert cs[..1] == [cs[0]];
    OrFoldDisjuncts(Compare(sel, cs[0]), n, sel, cs, 1);
  }

  /** Builds the disjunction clause condition by clause condition, as the source does. */
  method Disjunction(n: Names, sel: Ast, cs: seq<Ast>) returns (e: Ast, m: Names)
    requires |cs| >= 1
    ensures (e, m) == AnyEqual(n, sel, cs)
  {
    e, m := Compare(sel, cs[0]), n;
    var j := 1;
    while j < |cs|
      invariant 1 <= j <= |cs|
      invariant OrFold(e, m, sel, cs, j) == AnyEqual(n, sel, cs)
    {
      var next := LogicalOr(m, e, Compare(sel, cs[j]));
      e, m := next.0, next.1;
      j := j + 1;
    }
  }

  /** The arm a clause with conditions becomes. */
  function ClauseArm(m: Names, sel: Ast, w: Ast): (r: (Arm, Names))
    requires WhenConds(w).Some? && WhenConds(w).value != []
    ensures r.0.body == w.thenS
    ensures r.1 == m.(nextId := m.nextId + 4 * (|WhenConds(w).value| - 1), ifUid := m.ifUid + |WhenConds(w).value| - 1)
  {
    var (e, m') := AnyEqual(m, sel, WhenConds(w).value);
    (Arm(CallNamed("_cond_test", [e]), w.thenS), m')
  }

  /** The arm's test is `_cond_test` over the disjunction of the clause's comparisons. */
  lemma ClauseArmTests(m: Names, sel: Ast, w: Ast)
    requires WhenConds(w).Some? && WhenConds(w).value != []
    ensures TestsAny(ClauseArm(m, sel, w).0.test, sel, WhenConds(w).value)
  {
    AnyEqualDisjuncts(m, sel, WhenConds(w).value);
  }

  // ---- the chain ----

  datatype Arm = Arm(test: Ast, body: Ast)

  /** The if/else-if chain over the arms; the last else is the otherwise body. */
  function Chain(arms: seq<Arm>, otherwise: Option<Ast>): (r: Ast)
    requires |arms| >= 1
    ensures r.Cond? && r.test == arms[0].test && r.thenS == arms[0].body
    decreases |arms|
  {
    if |arms| == 1 then Cond(arms[0].test, arms[0].body, otherwise)
    else Cond(arms[0].test, arms[0].body, Some(PlainBlock(Normal, [Chain(arms[1..], otherwise)])))
  }

  /** The statement a select runs: the first arm whose test holds, or else the otherwise body. */
  function Dispatch(arms: seq<Arm>, otherwise: Option<Ast>, ev: Ast -> bool): Option<Ast>
  {
    if arms == [] then otherwise
    else if ev(arms[0].test) then Some(arms[0].body)
    else Dispatch(arms[1..], otherwise, ev)
  }

  /**
   * Runs an if/else-if chain `depth` links deep: a link whose test fails
   * continues into the single conditional of its else block.
   */
  function Follow(c: Ast, depth: nat, ev: Ast -> bool): Option<Ast>
  {
    if !c.Cond? then None
    else if ev(c.test) then Some(c.thenS)
    else if depth == 0 then c.elseS
    else if c.elseS.Some? && c.elseS.value.Block? && |c.elseS.value.body| == 1
    then Follow(c.elseS.value.body[0], depth - 1, ev)
    else None
  }

  /** Running the chain picks what `Dispatch` picks. */
  lemma {:induction false} ChainDispatches(arms: seq<Arm>, otherwise: Option<Ast>, ev: Ast -> bool)
    requires |arms| >= 1
    ensures Follow(Chain(arms, otherwise), |arms| - 1, ev) == Dispatch(arms, otherwise, ev)
    decreases |arms|
  {
    if |arms| > 1 {
      ChainDispatches(arms[1..], otherwise, ev);
    }
  }

  // ---- build_select ----

  /** Clauses that each have a WHEN test with at least one condition. */
  predicate ArmClauses(cls: seq<Ast>)
  {
    forall k :: 0 <= k < |cls| ==> WhenConds(cls[k]).Some? && WhenConds(cls[k]).value != []
  }

  /** The arms of the clauses with conditions, in order, each allocating the names of its `||`s. */
  function Arms(n: Names, sel: Ast, cls: seq<Ast>): (r: (seq<Arm>, Names))
    requires ArmClauses(cls)
    ensures |r.0| == |cls|
    decreases |cls|
  {
    if cls == [] then ([], n)
    else
      var (arms, m) := Arms(n, sel, cls[..|cls| - 1]);
      var (arm, m') := ClauseArm(m, sel, cls[|cls| - 1]);
      (arms + [arm], m')
  }

  /** Every arm runs its own clause's body and tests its own clause's conditions. */
  lemma {:induction false} ArmsTest(n: Names, sel: Ast, cls: seq<Ast>)
    requires ArmClauses(cls)
    ensures forall k :: 0 <= k < |cls| ==>
      Arms(n, sel, cls).0[k].body == cls[k].thenS && TestsAny(Arms(n, sel, cls).0[k].test, sel, WhenConds(cls[k]).value)
    decreases |cls|
  {
    if cls != [] {
      var init := cls[..|cls| - 1];
      ArmsTest(n, sel, init);
      ClauseArmTests(Arms(n, sel, init).1, sel, cls[|cls| - 1]);
      forall k | 0 <= k < |cls| - 1
        ensures Arms(n, sel, cls).0[k].body == cls[k].thenS
        ensures TestsAny(Arms(n, sel, cls).0[k].test, sel, WhenConds(cls[k]).value)
      {
        assert init[k] == cls[k];
      }
    }
  }

  /** Building the arms only allocates: no counter goes back, and the type-select counter is untouched. */
  lemma {:induction false} ArmsAdvance(n: Names, sel: Ast, cls: seq<Ast>)
    requires ArmClauses(cls)
    ensures Advanced(n, Arms(n, sel, cls).1)
    decreases |cls|
  {
    if cls != [] {
      ArmsAdvance(n, sel, cls[..|cls| - 1]);
    }
  }

  datatype Scanned = Scanned(clauses: seq<Ast>, otherwise: Option<Ast>)

  /** One clause of the scan: an otherwise is remembered, any other clause is kept for its arm. */
  function ScanOne(s: Scanned, w: Ast): Result<Scanned>
  {
    match WhenConds(w)
    case None => Err(NotAWhen)
    case Some(cs) =>
      if cs == [] then
        if s.otherwise.Some? then Err(MultipleOtherwise) else Ok(s.(otherwise := Some(w.thenS)))
      else Ok(s.(clauses := s.clauses + [w]))
  }

  /** The scan over the first `i` clauses; the first bad clause stops it. */
  function ScanWhens(whens: seq<Ast>, i: nat): (r: Result<Scanned>)
    requires i <= |whens|
    ensures r.Ok? ==> ArmClauses(r.value.clauses)
    ensures r.Err? ==> r.diag == NotAWhen || r.diag == MultipleOtherwise
  {
    if i == 0 then Ok(Scanned([], None))
    else
      var s :- ScanWhens(whens, i - 1);
      ScanOne(s, whens[i - 1])
  }

  /**
   * The end of `build_select`: an otherwise without any arm is an error;
   * otherwise the chain, or no statement at all when there are no arms.
   */
  function Finish(arms: seq<Arm>, otherwise: Option<Ast>, m: Names): Result<(Option<Ast>, Names)>
  {
    if otherwise.Some? && arms == [] then Err(NoWhenClauses)
    else Ok((if arms == [] then None else Some(Chain(arms, otherwise)), m))
  }

  /** The result of `build_select`. */
  function SelectOf(n: Names, sel: Ast, whens: seq<Ast>): Result<(Option<Ast>, Names)>
  {
    var s :- ScanWhens(whens, |whens|);
    var (arms, m) := Arms(n, sel, s.clauses);
    Finish(arms, s.otherwise, m)
  }

  lemma {:induction false} ScanErrorSticky(whens: seq<Ast>, i: nat, j: nat)
    requires i <= j <= |whens|
    requires ScanWhens(whens, i).Err?
    ensures ScanWhens(whens, j) == ScanWhens(whens, i)
    decreases j
  {
    if j > i {
      ScanErrorSticky(whens, i, j - 1);
    }
  }

  /** After `i` clauses the loop of `build_select` holds the scan `s` and the arms built so far. */
  predicate ScannedAs(n: Names, sel: Ast, whens: seq<Ast>, i: nat, s: Scanned, arms: seq<Arm>, m: Names)
    requires i <= |whens|
  {
    ScanWhens(whens, i) == Ok(s) && (arms, m) == Arms(n, sel, s.clauses)
  }

  /** A clause with conditions adds its arm. */
  lemma ScannedArm(n: Names, sel: Ast, whens: seq<Ast>, i: nat, s: Scanned, arms: seq<Arm>, m: Names, e: Ast, m': Names)
    requires i < |whens| && ScannedAs(n, sel, whens, i, s, arms, m)
    requires WhenConds(whens[i]).Some? && WhenConds(whens[i]).value != []
    requires (e, m') == AnyEqual(m, sel, WhenConds(whens[i]).value)
    ensures ScannedAs(n, sel, whens, i + 1, Scanned(s.clauses + [whens[i]], s.otherwise),
                      arms + [Arm(CallNamed("_cond_test", [e]), whens[i].thenS)], m')
  {
    assert (s.clauses + [whens[i]])[..|s.clauses|] == s.clauses;
  }

  /** The first otherwise clause is remembered. */
  lemma ScannedOtherwise(n: Names, sel: Ast, whens: seq<Ast>, i: nat, s: Scanned, arms: seq<Arm>, m: Names)
    requires i < |whens| && ScannedAs(n, sel, whens, i, s, arms, m)
    requires IsOtherwise(whens[i]) && s.otherwise.None?
    ensures ScannedAs(n, sel, whens, i + 1, Scanned(s.clauses, Some(whens[i].thenS)), arms, m)
  {
  }

  /** A clause that is not a WHEN conditional, or a second otherwise, stops the select. */
  lemma ScannedError(n: Names, sel: Ast, whens: seq<Ast>, i: nat, s: Scanned, arms: seq<Arm>, m: Names)
    requires i < |whens| && ScannedAs(n, sel, whens, i, s, arms, m)
    requires WhenConds(whens[i]).None? || (IsOtherwise(whens[i]) && s.otherwise.Some?)
    ensures SelectOf(n, sel, whens) == Err(if WhenConds(whens[i]).None? then NotAWhen else MultipleOtherwise)
  {
    ScanErrorSticky(whens, i + 1, |whens|);
    SelectOfScanError(n, sel, whens);
  }

  /** After the last clause: a lone otherwise is an error, otherwise the chain is the result. */
  lemma ScannedDone(n: Names, sel: Ast, whens: seq<Ast>, s: Scanned, arms: seq<Arm>, m: Names)
    requires ScannedAs(n, sel, whens, |whens|, s, arms, m)
    ensures SelectOf(n, sel, whens) == Finish(arms, s.otherwise, m)
  {
  }

  /** One clause with conditions: its test, and the next link of the chain. */
  method SelectArm(ghost n: Names, sel: Ast, whens: seq<Ast>, i: nat, ghost s: Scanned, arms: seq<Arm>, m: Names)
    returns (arms': seq<Arm>, m': Names)
    requires i < |whens| && ScannedAs(n, sel, whens, i, s, arms, m)
    requires WhenConds(whens[i]).Some? && WhenConds(whens[i]).value != []
    ensures ScannedAs(n, sel, whens, i + 1, Scanned(s.clauses + [whens[i]], s.otherwise), arms', m')
  {
    var e, m1 := Disjunction(m, sel, WhenConds(whens[i]).value);
    ScannedArm(n, sel, whens, i, s, arms, m, e, m1);
    arms' := arms + [Arm(CallNamed("_cond_test", [e]), whens[i].thenS)];
    m' := m1;
  }

  /** `build_select`, clause by clause. */
  method Select(n: Names, sel: Ast, whens: seq<Ast>) returns (r: Result<(Option<Ast>, Names)>)
    ensures r == SelectOf(n, sel, whens)
  {
    ghost var clauses: seq<Ast> := [];
    var otherwise: Option<Ast> := None;
    var arms: seq<Arm> := [];
    var m := n;
    var i := 0;
    while i < |whens|
      invariant i <= |whens|
      invariant ScannedAs(n, sel, whens, i, Scanned(clauses, otherwise), arms, m)
    {
      var w := whens[i];
      var conds := WhenConds(w);
      if conds.None? || (conds.value == [] && otherwise.Some?) {
        ScannedError(n, sel, whens, i, Scanned(clauses, otherwise), arms, m);
        return Err(if conds.None? then NotAWhen else MultipleOtherwise);
      }
      if conds.value == [] {
        ScannedOtherwise(n, sel, whens, i, Scanned(clauses, otherwise), arms, m);
        otherwise := Some(w.thenS);
      } else {
        arms, m := SelectArm(n, sel, whens, i, Scanned(clauses, otherwise), arms, m);
        clauses := clauses + [w];
      }
      i := i + 1;
    }
    ScannedDone(n, sel, whens, Scanned(clauses, otherwise), arms, m);
    r := Finish(arms, otherwise, m);
  }

  lemma SelectOfScanError(n: Names, sel: Ast, whens: seq<Ast>)
    requires ScanWhens(whens, |whens|).Err?
    ensures SelectOf(n, sel, whens) == Err(ScanWhens(whens, |whens|).diag)
  {
  }

  /** The first otherwise body among the first `i` clauses. */
  function OtherwiseBody(whens: seq<Ast>, i: nat): Option<Ast>
    requires i <= |whens|
  {
    if i == 0 then None
    else if OtherwiseBody(whens, i - 1).Some? then OtherwiseBody(whens, i - 1)
    else if IsOtherwise(whens[i - 1]) then Some(whens[i - 1].thenS)
    else None
  }

  /**
   * The scan succeeds exactly when every clause is a WHEN conditional and
   * there is at most one otherwise; a second otherwise is the user error,
   * and a bad clause before it the internal one.  On success it holds the
   * clauses with conditions, in order, and the otherwise body.
   */
  lemma {:induction false} ScanOutcome(whens: seq<Ast>, i: nat)
    requires i <= |whens|
    ensures ScanWhens(whens, i).Ok? <==> AllWhens(whens, i) && OtherwiseCount(whens, i) <= 1
    ensures AllWhens(whens, i) && OtherwiseCount(whens, i) > 1 ==> ScanWhens(whens, i) == Err(MultipleOtherwise)
    ensures !AllWhens(whens, i) && OtherwiseCount(whens, i) <= 1 ==> ScanWhens(whens, i) == Err(NotAWhen)
    ensures ScanWhens(whens, i).Ok? ==>
      var s := ScanWhens(whens, i).value;
      s.clauses == WhenClauses(whens, i) && s.otherwise == OtherwiseBody(whens, i)
      && (s.otherwise.Some? <==> OtherwiseCount(whens, i) == 1)
      && |s.clauses| + OtherwiseCount(whens, i) == i
    decreases i
  {
    if i > 0 {
      ScanOutcome(whens, i - 1);
      if !AllWhens(whens, i - 1) && OtherwiseCount(whens, i) <= 1 {
        assert ScanWhens(whens, i - 1) == Err(NotAWhen);
      }
    }
  }

  /** `build_select` is the scan's error, or the end applied to the arms of the scanned clauses. */
  lemma SelectOfScan(n: Names, sel: Ast, whens: seq<Ast>)
    ensures
      var scan := ScanWhens(whens, |whens|);
      SelectOf(n, sel, whens)
        == if scan.Err? then Err(scan.diag)
           else Finish(Arms(n, sel, scan.value.clauses).0, scan.value.otherwise, Arms(n, sel, scan.value.clauses).1)
  {
  }

  /** With at most one otherwise, the otherwise is alone exactly when there is a single clause and it is the otherwise. */
  lemma LoneOtherwise(whens: seq<Ast>)
    requires ScanWhens(whens, |whens|).Ok?
    ensures
      var s := ScanWhens(whens, |whens|).value;
      s.otherwise.Some? && s.clauses == [] <==> |whens| == 1 && IsOtherwise(whens[0])
  {
    ScanOutcome(whens, |whens|);
    if |whens| == 1 {
      assert OtherwiseCount(whens, 1) == (if IsOtherwise(whens[0]) then 1 else 0);
    }
  }

  /**
   * `build_select` succeeds exactly when every clause is a WHEN conditional,
   * there is at most one otherwise and the otherwise is not alone.
   */
  lemma SelectSucceeds(n: Names, sel: Ast, whens: seq<Ast>)
    ensures SelectOf(n, sel, whens).Ok? <==>
      AllWhens(whens, |whens|) && OtherwiseCount(whens, |whens|) <= 1
      && !(|whens| == 1 && IsOtherwise(whens[0]))
  {
    SelectOfScan(n, sel, whens);
    ScanOutcome(whens, |whens|);
    if ScanWhens(whens, |whens|).Ok? {
      LoneOtherwise(whens);
    }
  }

  /** An otherwise clause with no when clause is the user error "Select has no when clauses", and nothing else is. */
  lemma SelectNoWhenClauses(n: Names, sel: Ast, whens: seq<Ast>)
    ensures SelectOf(n, sel, whens) == Err(NoWhenClauses) <==> |whens| == 1 && IsOtherwise(whens[0])
  {
    SelectOfScan(n, sel, whens);
    ScanOutcome(whens, |whens|);
    if ScanWhens(whens, |whens|).Ok? {
      LoneOtherwise(whens);
    } else {
      assert |NotAWhen.msg| != |NoWhenClauses.msg| && |MultipleOtherwise.msg| != |NoWhenClauses.msg|;
    }
  }

  /** `build_select` only allocates names. */
  lemma SelectAdvances(n: Names, sel: Ast, whens: seq<Ast>)
    requires SelectOf(n, sel, whens).Ok?
    ensures Advanced(n, SelectOf(n, sel, whens).value.1)
  {
    SelectOfScan(n, sel, whens);
    ArmsAdvance(n, sel, ScanWhens(whens, |whens|).value.clauses);
  }

  /** A successful `build_select` yields no statement exactly when there are no clauses. */
  lemma SelectEmpty(n: Names, sel: Ast, whens: seq<Ast>)
    requires SelectOf(n, sel, whens).Ok?
    ensures SelectOf(n, sel, whens).value.0.None? <==> whens == []
  {
    SelectOfScan(n, sel, whens);
    ScanOutcome(whens, |whens|);
  }

  /**
   * The arms of a select are its clauses with conditions, in source order,
   * each running its clause's body and testing its own conditions against
   * the selector.
   */
  lemma SelectArms(n: Names, sel: Ast, whens: seq<Ast>)
    ensures
      var cl := WhenClauses(whens, |whens|);
      var arms := Arms(n, sel, cl).0;
      forall k :: 0 <= k < |cl| ==> arms[k].body == cl[k].thenS && TestsAny(arms[k].test, sel, WhenConds(cl[k]).value)
  {
    ArmsTest(n, sel, WhenClauses(whens, |whens|));
  }

  /**
   * What the select runs: following the chain picks the body of the first
   * arm whose test holds, or else the otherwise body.
   */
  lemma SelectRunsFirstMatch(n: Names, sel: Ast, whens: seq<Ast>, ev: Ast -> bool)
    requires SelectOf(n, sel, whens).Ok? && SelectOf(n, sel, whens).value.0.Some?
    ensures
      var cl := WhenClauses(whens, |whens|);
      |cl| >= 1
      && Follow(SelectOf(n, sel, whens).value.0.value, |cl| - 1, ev) == Dispatch(Arms(n, sel, cl).0, OtherwiseBody(whens, |whens|), ev)
  {
    SelectOfScan(n, sel, whens);
    var s := ScanWhens(whens, |whens|).value;
    var (arms, m) := Arms(n, sel, s.clauses);
    assert arms != [];
    assert SelectOf(n, sel, whens).value.0.value == Chain(arms, s.otherwise);
    ScanOutcome(whens, |whens|);
    ChainDispatches(arms, s.otherwise, ev);
  }
}

=== FILE: build_tuples.dfy ===
/**
 * Tuple destructuring in variable declarations and in formal arguments.
 *
 * A declaration `var (a, (b, _), c) = e;` arrives as a block of
 * definitions, with a nested block for each nested tuple; a tuple formal
 * `proc f((a, (b, _), c))` arrives the same way.  Each named leaf is bound
 * to the component it stands for, `base(i1)(i2)...`, where every position
 * is counted from 1 over all elements of its level: wildcards and nested
 * tuples take a position too.  The wildcard `_` binds nothing.
 */
module BuildTuples {
  import opened Diagnostics
  import opened Ast
  import opened BuildExprs
  import opened BuildLoops

  /** A definition of the wildcard name `_`. */
  predicate IsWildcard(d: Ast)
  {
    d.Def? && d.sym.ident.name == "_"
  }

  /** The component `base(p1)(p2)...` of `base`. */
  function PathExpr(base: Ast, p: seq<nat>): Ast
    decreases |p|
  {
    if p == [] then base else Element(PathExpr(base, p[..|p| - 1]), p[|p| - 1])
  }

  lemma {:induction false} PathExprCons(base: Ast, k: nat, q: seq<nat>)
    ensures PathExpr(base, [k] + q) == PathExpr(Element(base, k), q)
    decreases |q|
  {
    if q != [] {
      var kq := [k] + q;
      assert kq[..|kq| - 1] == [k] + q[..|q| - 1];
      PathExprCons(base, k, q[..|q| - 1]);
    }
  }

  // ---- the shape of a tuple pattern ----

  /** The first `i` elements, at every depth, are definitions or nested tuple blocks. */
  predicate ShapedUpTo(decls: Ast, i: nat)
    requires decls.Block? && i <= |decls.body|
    decreases decls, i
  {
    i == 0
    || (ShapedUpTo(decls, i - 1)
        && (decls.body[i - 1].Def?
            || (decls.body[i - 1].Block? && ShapedUpTo(decls.body[i - 1], |decls.body[i - 1].body|))))
  }

  lemma {:induction false} ShapedPrefix(decls: Ast, i: nat, j: nat)
    requires decls.Block? && i <= j <= |decls.body|
    requires ShapedUpTo(decls, j)
    ensures ShapedUpTo(decls, i)
    decreases j
  {
    if i < j {
      ShapedPrefix(decls, i, j - 1);
    }
  }

  /** The element at position `p` (1-based at every level), if there is one. */
  function Find(decls: Ast, p: seq<nat>): Option<Ast>
    requires decls.Block?
    decreases decls
  {
    if p == [] || p[0] < 1 || p[0] > |decls.body| then None
    else if |p| == 1 then Some(decls.body[p[0] - 1])
    else if decls.body[p[0] - 1].Block? then Find(decls.body[p[0] - 1], p[1..])
    else None
  }

  function Under(k: nat, ps: seq<seq<nat>>): (r: seq<seq<nat>>)
    ensures |r| == |ps| && forall j :: 0 <= j < |ps| ==> r[j] == [k] + ps[j]
  {
    seq(|ps|, j requires 0 <= j < |ps| => [k] + ps[j])
  }

  /** The positions of the named leaves among the first `i` elements, left to right. */
  function LeafPaths(decls: Ast, i: nat): (r: seq<seq<nat>>)
    requires decls.Block? && i <= |decls.body|
    ensures forall j :: 0 <= j < |r| ==> |r[j]| >= 1 && 1 <= r[j][0] <= i
    decreases decls, i
  {
    if i == 0 then [] else LeafPaths(decls, i - 1) + LeafPathsOf(decls, i)
  }

  /** The positions of the named leaves of element `i` (counted from 1). */
  function LeafPathsOf(decls: Ast, i: nat): (r: seq<seq<nat>>)
    requires decls.Block? && 1 <= i <= |decls.body|
    ensures forall j :: 0 <= j < |r| ==> |r[j]| >= 1 && r[j][0] == i
    decreases decls, i, 0
  {
    var d := decls.body[i - 1];
    if d.Def? && !IsWildcard(d) then [[i]]
    else if d.Block? then Under(i, LeafPaths(d, |d.body|))
    else []
  }

  /** Every named leaf has its position listed. */
  lemma {:induction false} LeafPathsComplete(decls: Ast, i: nat, p: seq<nat>)
    requires decls.Block? && i <= |decls.body|
    requires Find(decls, p).Some? && Find(decls, p).value.Def? && !IsWildcard(Find(decls, p).value)
    requires |p| >= 1 && p[0] <= i
    ensures p in LeafPaths(decls, i)
    decreases decls, i
  {
    assert 1 <= p[0];
    if p[0] < i {
      LeafPathsComplete(decls, i - 1, p);
      InPrefix(LeafPaths(decls, i - 1), LeafPaths(decls, i), p);
    } else {
      LeafPathsOfComplete(decls, i, p);
      InAppended(LeafPaths(decls, i - 1), LeafPathsOf(decls, i), p);
    }
  }

  lemma {:induction false} LeafPathsOfComplete(decls: Ast, i: nat, p: seq<nat>)
    requires decls.Block? && 1 <= i <= |decls.body|
    requires Find(decls, p).Some? && Find(decls, p).value.Def? && !IsWildcard(Find(decls, p).value)
    requires |p| >= 1 && p[0] == i
    ensures p in LeafPathsOf(decls, i)
    decreases decls, i, 0
  {
    var d := decls.body[i - 1];
    if |p| == 1 {
      assert d == Find(decls, p).value;
      assert p == [i];
    } else {
      assert d.Block? && Find(d, p[1..]) == Find(decls, p);
      LeafPathsComplete(d, |d.body|, p[1..]);
      var inner := LeafPaths(d, |d.body|);
      var k :| 0 <= k < |inner| && inner[k] == p[1..];
      assert Under(i, inner)[k] == p;
    }
  }

  lemma InAppended<T>(a: seq<T>, b: seq<T>, x: T)
    requires x in b
    ensures x in a + b
  {
    var k :| 0 <= k < |b| && b[k] == x;
    assert (a + b)[|a| + k] == x;
  }

  lemma InPrefix<T>(a: seq<T>, b: seq<T>, x: T)
    requires x in a && a <= b
    ensures x in b
  {
    var k :| 0 <= k < |a| && a[k] == x;
    assert b[k] == x;
  }

  // ---- build_tuple_var_decl ----

  const UnexpectedInDecl := InternalFatal("Unexpected expression in build_tuple_var_decl")

  /**
   * The definitions a tuple declaration places before its insertion point,
   * in order, after its first `i` elements.
   */
  function DeclsUpTo(base: Ast, decls: Ast, i: nat): (r: Result<seq<Ast>>)
    requires decls.Block? && i <= |decls.body|
    ensures r.Ok? <==> ShapedUpTo(decls, i)
    ensures r.Err? ==> r.diag == UnexpectedInDecl
    ensures r.Ok? ==> forall j :: 0 <= j < |r.value| ==>
              r.value[j].Def? && !IsWildcard(r.value[j]) && r.value[j].init.Some?
    decreases decls, i
  {
    if i == 0 then Ok([])
    else
      var pre :- DeclsUpTo(base, decls, i - 1);
      var d := decls.body[i - 1];
      if d.Def? then
        Ok(if IsWildcard(d) then pre else pre + [d.(init := Some(Element(base, i)))])
      else if d.Block? then
        var sub :- DeclsUpTo(Element(base, i), d, |d.body|);
        Ok(pre + sub)
      else
        Err(UnexpectedInDecl)
  }

  function TupleDecls(base: Ast, decls: Ast): Result<seq<Ast>>
    requires decls.Block?
  {
    DeclsUpTo(base, decls, |decls.body|)
  }

  /** Each definition in `vs` is the named leaf at the matching position of `ps`, bound to its component. */
  predicate BoundAt(base: Ast, decls: Ast, vs: seq<Ast>, ps: seq<seq<nat>>)
    requires decls.Block?
  {
    |vs| == |ps|
    && forall j :: 0 <= j < |ps| ==>
         Find(decls, ps[j]).Some? && Find(decls, ps[j]).value.Def? && !IsWildcard(Find(decls, ps[j]).value)
         && vs[j] == Find(decls, ps[j]).value.(init := Some(PathExpr(base, ps[j])))
  }

  lemma BoundAtAppend(base: Ast, decls: Ast, vs1: seq<Ast>, ps1: seq<seq<nat>>, vs2: seq<Ast>, ps2: seq<seq<nat>>)
    requires decls.Block? && BoundAt(base, decls, vs1, ps1) && BoundAt(base, decls, vs2, ps2)
    ensures BoundAt(base, decls, vs1 + vs2, ps1 + ps2)
  {
    forall j | 0 <= j < |ps1 + ps2|
      ensures (ps1 + ps2)[j] == (if j < |ps1| then ps1[j] else ps2[j - |ps1|])
      ensures (vs1 + vs2)[j] == (if j < |vs1| then vs1[j] else vs2[j - |vs1|])
    {
    }
  }

  lemma BoundAtUnder(base: Ast, decls: Ast, i: nat, vs: seq<Ast>, qs: seq<seq<nat>>)
    requires decls.Block? && 1 <= i <= |decls.body| && decls.body[i - 1].Block?
    requires BoundAt(Element(base, i), decls.body[i - 1], vs, qs)
    requires forall j :: 0 <= j < |qs| ==> |qs[j]| >= 1
    ensures BoundAt(base, decls, vs, Under(i, qs))
  {
    var d := decls.body[i - 1];
    forall j | 0 <= j < |qs|
      ensures Find(decls, [i] + qs[j]) == Find(d, qs[j])
      ensures PathExpr(base, [i] + qs[j]) == PathExpr(Element(base, i), qs[j])
    {
      PathExprCons(base, i, qs[j]);
      assert ([i] + qs[j])[1..] == qs[j];
    }
  }

  /**
   * The emitted definitions are the named leaves in left-to-right order,
   * each initialised from the component at its position.
   */
  lemma {:induction false} DeclsFollowLeafPaths(base: Ast, decls: Ast, i: nat)
    requires decls.Block? && i <= |decls.body| && ShapedUpTo(decls, i)
    ensures BoundAt(base, decls, DeclsUpTo(base, decls, i).value, LeafPaths(decls, i))
    decreases decls, i
  {
    if i > 0 {
      DeclsFollowLeafPaths(base, decls, i - 1);
      var d := decls.body[i - 1];
      var vs := DeclsUpTo(base, decls, i - 1).value;
      var ps := LeafPaths(decls, i - 1);
      if d.Def? {
        if !IsWildcard(d) {
          assert Find(decls, [i]) == Some(d);
          assert PathExpr(base, [i]) == Element(PathExpr(base, []), i);
          assert BoundAt(base, decls, [d.(init := Some(Element(base, i)))], [[i]]);
          BoundAtAppend(base, decls, vs, ps, [d.(init := Some(Element(base, i)))], [[i]]);
        } else {
          assert DeclsUpTo(base, decls, i).value == vs + [];
          assert LeafPaths(decls, i) == ps + [];
        }
      } else {
        assert d.Block? && ShapedUpTo(d, |d.body|);
        DeclsFollowLeafPaths(Element(base, i), d, |d.body|);
        var sub := DeclsUpTo(Element(base, i), d, |d.body|).value;
        var qs := LeafPaths(d, |d.body|);
        BoundAtUnder(base, decls, i, sub, qs);
        BoundAtAppend(base, decls, vs, ps, sub, Under(i, qs));
        assert DeclsUpTo(base, decls, i).value == vs + sub;
      }
    }
  }

  /**
   * Inserts the definitions of a tuple declaration before the statement at
   * `at` of `target`; `next` is where that statement has moved to.
   */
  lemma DeclsStep(base: Ast, decls: Ast, i: nat)
    requires decls.Block? && i < |decls.body| && ShapedUpTo(decls, i + 1)
    ensures
      var d := decls.body[i];
      DeclsUpTo(base, decls, i + 1).value == DeclsUpTo(base, decls, i).value
        + (if d.Block? then DeclsUpTo(Element(base, i + 1), d, |d.body|).value
           else if IsWildcard(d) then [] else [d.(init := Some(Element(base, i + 1)))])
  {
  }

  lemma Splice<T>(a: seq<T>, done: seq<T>, extra: seq<T>, b: seq<T>)
    ensures (a + done + b)[..|a + done|] + extra + (a + done + b)[|a + done|..] == a + (done + extra) + b
  {
    assert (a + done + b)[..|a + done|] == a + done;
    assert (a + done + b)[|a + done|..] == b;
  }

  method TupleVarDecl(target: BlockStmt, at: nat, base: Ast, decls: Ast) returns (r: Outcome, next: nat)
    requires decls.Block? && at < |target.body|
    modifies target
    ensures r.Pass? <==> ShapedUpTo(decls, |decls.body|)
    ensures r.Fail? ==> r.diag == UnexpectedInDecl
    ensures r.Pass? ==>
      next == at + |TupleDecls(base, decls).value|
      && target.body == old(target.body)[..at] + TupleDecls(base, decls).value + old(target.body)[at..]
    ensures target.tag == old(target.tag)
    decreases decls
  {
    next := at;
    ghost var front, back := target.body[..at], target.body[at..];
    var i := 0;
    while i < |decls.body|
      invariant 0 <= i <= |decls.body|
      invariant ShapedUpTo(decls, i)
      invariant next == at + |DeclsUpTo(base, decls, i).value|
      invariant target.body == front + DeclsUpTo(base, decls, i).value + back
      invariant target.tag == old(target.tag)
    {
      ghost var done := DeclsUpTo(base, decls, i).value;
      var d := decls.body[i];
      if d.Def? {
        DeclsStep(base, decls, i);
        if !IsWildcard(d) {
          var def := d.(init := Some(Element(base, i + 1)));
          Splice(front, done, [def], back);
          target.InsertBefore(next, def);
          next := next + 1;
        } else {
          assert done + [] == done;
        }
      } else if d.Block? {
        var sub;
        sub, next := TupleVarDecl(target, next, Element(base, i + 1), d);
        if sub.Pass? {
          DeclsStep(base, decls, i);
          Splice(front, done, DeclsUpTo(Element(base, i + 1), d, |d.body|).value, back);
        } else {
          if ShapedUpTo(decls, |decls.body|) {
            ShapedPrefix(decls, i + 1, |decls.body|);
          }
          return sub, next;
        }
      } else {
        if ShapedUpTo(decls, |decls.body|) {
          ShapedPrefix(decls, i + 1, |decls.body|);
        }
        return Fail(UnexpectedInDecl), next;
      }
      i := i + 1;
    }
    r := Pass;
  }

  // ---- build_tuple_arg: the destructuring definitions ----

  /** The definitions a tuple formal adds to the function, left to right, after `i` elements. */
  function ArgDefsUpTo(base: Ast, decls: Ast, i: nat): (r: seq<Ast>)
    requires decls.Block? && i <= |decls.body|
    ensures forall j :: 0 <= j < |r| ==> r[j].Def? && !IsWildcard(r[j])
    decreases decls, i
  {
    if i == 0 then []
    else
      var d := decls.body[i - 1];
      ArgDefsUpTo(base, decls, i - 1)
        + (if d.Def? && !IsWildcard(d) then [d.(init := Some(Element(base, i)))]
           else if d.Block? then ArgDefsUpTo(Element(base, i), d, |d.body|)
           else [])
  }

  /** On a well-formed pattern, a tuple formal binds exactly what a tuple declaration binds. */
  lemma {:induction false} ArgDefsAgreeWithVarDecl(base: Ast, decls: Ast, i: nat)
    requires decls.Block? && i <= |decls.body| && ShapedUpTo(decls, i)
    ensures DeclsUpTo(base, decls, i) == Ok(ArgDefsUpTo(base, decls, i))
    decreases decls, i
  {
    if i > 0 {
      ArgDefsAgreeWithVarDecl(base, decls, i - 1);
      ArgDefsStep(base, decls, i - 1);
      var d := decls.body[i - 1];
      if d.Def? {
        assert ArgDefsUpTo(base, decls, i - 1) + [] == ArgDefsUpTo(base, decls, i - 1);
      } else {
        assert ShapedUpTo(d, |d.body|);
        ArgDefsAgreeWithVarDecl(Element(base, i), d, |d.body|);
        var sub := ArgDefsUpTo(Element(base, i), d, |d.body|);
        assert DeclsUpTo(base, decls, i) == Ok(ArgDefsUpTo(base, decls, i - 1) + sub);
      }
    }
  }

  // ---- build_tuple_arg: the where clause ----

  /** A conjunct of the where clause, with components named by position. */
  datatype Clause =
    | SizeIs(count: nat, path: seq<nat>)
    | IsTupleAt(path: seq<nat>)
    | Both(left: Clause, right: Clause)

  function SizeAnd(k: nat, path: seq<nat>, rest: Option<Clause>): Clause
  {
    if rest.Some? then Both(SizeIs(k, path), rest.value) else SizeIs(k, path)
  }

  /** The clauses for the nested tuples among the first `i` elements, joined left to right. */
  function WhereUpTo(decls: Ast, path: seq<nat>, i: nat): Option<Clause>
    requires decls.Block? && i <= |decls.body|
    decreases decls, i
  {
    if i == 0 then None
    else
      var pre := WhereUpTo(decls, path, i - 1);
      var d := decls.body[i - 1];
      if d.Block? then
        var p := path + [i];
        var nc := Both(IsTupleAt(p), SizeAnd(|d.body|, p, WhereUpTo(d, p, |d.body|)));
        Some(if pre.Some? then Both(pre.value, nc) else nc)
      else
        pre
  }

  /** The where clause of a tuple pattern: its size test, then its nested tuples. */
  function TupleWhere(decls: Ast, path: seq<nat>): Clause
    requires decls.Block?
  {
    SizeAnd(|decls.body|, path, WhereUpTo(decls, path, |decls.body|))
  }

  /** An actual argument, as far as the where clause can observe it. */
  datatype Value = Scalar | TupleVal(elems: seq<Value>)

  function At(v: Value, p: seq<nat>): Option<Value>
    decreases |p|
  {
    if p == [] then Some(v)
    else
      match At(v, p[..|p| - 1])
      case None => None
      case Some(w) =>
        if w.TupleVal? && 1 <= p[|p| - 1] <= |w.elems| then Some(w.elems[p[|p| - 1] - 1]) else None
  }

  predicate Holds(c: Clause, v: Value)
  {
    match c
    case SizeIs(k, p) => At(v, p).Some? && At(v, p).value.TupleVal? && |At(v, p).value.elems| == k
    case IsTupleAt(p) => At(v, p).Some? && At(v, p).value.TupleVal?
    case Both(l, r) => Holds(l, v) && Holds(r, v)
  }

  /** `v` is a tuple of the pattern's arity, and so is every component the pattern destructures. */
  predicate Matches(v: Value, decls: Ast)
    requires decls.Block?
    decreases decls
  {
    v.TupleVal? && |v.elems| == |decls.body|
    && forall k :: 0 <= k < |decls.body| && decls.body[k].Block? ==> Matches(v.elems[k], decls.body[k])
  }

  lemma AtSnoc(v: Value, p: seq<nat>, k: nat)
    requires At(v, p).Some? && At(v, p).value.TupleVal? && 1 <= k <= |At(v, p).value.elems|
    ensures At(v, p + [k]) == Some(At(v, p).value.elems[k - 1])
  {
    assert (p + [k])[..|p + [k]| - 1] == p;
  }

  lemma {:induction false} WhereUpToMeaning(decls: Ast, path: seq<nat>, i: nat, v: Value)
    requires decls.Block? && i <= |decls.body|
    requires At(v, path).Some? && At(v, path).value.TupleVal? && |At(v, path).value.elems| == |decls.body|
    ensures (WhereUpTo(decls, path, i).None? || Holds(WhereUpTo(decls, path, i).value, v))
            <==> forall k :: 0 <= k < i && decls.body[k].Block? ==> Matches(At(v, path).value.elems[k], decls.body[k])
    decreases decls, i
  {
    if i > 0 {
      WhereUpToMeaning(decls, path, i - 1, v);
      var d := decls.body[i - 1];
      var elems := At(v, path).value.elems;
      if d.Block? {
        var p := path + [i];
        AtSnoc(v, path, i);
        TupleWhereMeaning(d, p, v);
        assert Holds(Both(IsTupleAt(p), TupleWhere(d, p)), v) <==> Matches(elems[i - 1], d);
      }
    }
  }

  /** The where clause accepts an actual exactly when it has the pattern's shape. */
  lemma {:induction false} TupleWhereMeaning(decls: Ast, path: seq<nat>, v: Value)
    requires decls.Block?
    ensures Holds(TupleWhere(decls, path), v) <==> At(v, path).Some? && Matches(At(v, path).value, decls)
    decreases decls, |decls.body| + 1
  {
    if At(v, path).Some? && At(v, path).value.TupleVal? && |At(v, path).value.elems| == |decls.body| {
      WhereUpToMeaning(decls, path, |decls.body|, v);
    }
  }

  /** The size test `count == base.size`. */
  function SizeTest(count: nat, e: Ast): Ast
  {
    CallNamed("==", [Lit(count), CallNamed(".", [e, Str("size")])])
  }

  function Ands(c: Clause): nat
  {
    match c
    case Both(l, r) => 1 + Ands(l) + Ands(r)
    case _ => 0
  }

  /**
   * The clause as the builder writes it: each conjunction is a `&&`, lowered
   * left operand first.
   */
  function Lower(n: Names, root: Ast, c: Clause): (r: (Ast, Names))
    ensures r.1 == n.(nextId := n.nextId + 4 * Ands(c), ifUid := n.ifUid + Ands(c))
    ensures c.SizeIs? ==> r.0 == SizeTest(c.count, PathExpr(root, c.path))
    decreases c
  {
    match c
    case SizeIs(k, p) => (SizeTest(k, PathExpr(root, p)), n)
    case IsTupleAt(p) => (PrimCall(PIsTuple, [PathExpr(root, p)]), n)
    case Both(left, right) =>
      var a := Lower(n, root, left);
      var b := Lower(a.1, root, right);
      LogicalAnd(b.1, a.0, b.0)
  }

  /** `where` and `m` are the lowered form of the optional clause `c`, started from `n`. */
  predicate LoweredAs(n: Names, root: Ast, c: Option<Clause>, where: Option<Ast>, m: Names)
  {
    if c.None? then where.None? && m == n
    else where.Some? && (where.value, m) == Lower(n, root, c.value)
  }

  lemma LowerBoth(n: Names, root: Ast, l: Clause, r: Clause)
    ensures
      var a := Lower(n, root, l);
      var b := Lower(a.1, root, r);
      Lower(n, root, Both(l, r)) == LogicalAnd(b.1, a.0, b.0)
  {
  }

  lemma LowerNested(m: Names, root: Ast, p: seq<nat>, d: Ast, sub: Ast, m1: Names)
    requires d.Block? && (sub, m1) == Lower(m, root, TupleWhere(d, p))
    ensures Lower(m, root, Both(IsTupleAt(p), TupleWhere(d, p))) == LogicalAnd(m1, PrimCall(PIsTuple, [PathExpr(root, p)]), sub)
  {
    LowerBoth(m, root, IsTupleAt(p), TupleWhere(d, p));
  }

  /** A nested tuple at position `i + 1` adds its test to the clause so far, as the right operand. */
  lemma WhereUpToNested(decls: Ast, path: seq<nat>, i: nat, p: seq<nat>)
    requires decls.Block? && i < |decls.body| && decls.body[i].Block? && p == path + [i + 1]
    ensures
      var pre := WhereUpTo(decls, path, i);
      var nc := Both(IsTupleAt(p), TupleWhere(decls.body[i], p));
      WhereUpTo(decls, path, i + 1) == Some(if pre.Some? then Both(pre.value, nc) else nc)
  {
  }

  /** The clause after the first nested tuple is that tuple's test. */
  lemma WhereFirstNested(n: Names, root: Ast, path: seq<nat>, decls: Ast, i: nat, sub: Ast, m1: Names, clause: (Ast, Names))
    requires decls.Block? && i < |decls.body| && decls.body[i].Block?
    requires WhereUpTo(decls, path, i).None?
    requires (sub, m1) == Lower(n, root, TupleWhere(decls.body[i], path + [i + 1]))
    requires clause == LogicalAnd(m1, PrimCall(PIsTuple, [PathExpr(root, path + [i + 1])]), sub)
    ensures LoweredAs(n, root, WhereUpTo(decls, path, i + 1), Some(clause.0), clause.1)
  {
    var p := path + [i + 1];
    WhereUpToNested(decls, path, i, p);
    LowerNested(n, root, p, decls.body[i], sub, m1);
  }

  /** A later nested tuple's test is joined to the clause so far, as its right operand. */
  lemma WhereNextNested(n: Names, root: Ast, path: seq<nat>, decls: Ast, i: nat,
                        where: Ast, m: Names, sub: Ast, m1: Names, clause: (Ast, Names), joined: (Ast, Names))
    requires decls.Block? && i < |decls.body| && decls.body[i].Block?
    requires WhereUpTo(decls, path, i).Some? && (where, m) == Lower(n, root, WhereUpTo(decls, path, i).value)
    requires (sub, m1) == Lower(m, root, TupleWhere(decls.body[i], path + [i + 1]))
    requires clause == LogicalAnd(m1, PrimCall(PIsTuple, [PathExpr(root, path + [i + 1])]), sub)
    requires joined == LogicalAnd(clause.1, where, clause.0)
    ensures LoweredAs(n, root, WhereUpTo(decls, path, i + 1), Some(joined.0), joined.1)
  {
    var p := path + [i + 1];
    var nc := Both(IsTupleAt(p), TupleWhere(decls.body[i], p));
    var wpre := WhereUpTo(decls, path, i).value;
    WhereUpToNested(decls, path, i, p);
    LowerNested(m, root, p, decls.body[i], sub, m1);
    LowerBoth(n, root, wpre, nc);
  }

  lemma WhereOtherStep(n: Names, root: Ast, path: seq<nat>, decls: Ast, i: nat, where: Option<Ast>, m: Names)
    requires decls.Block? && i < |decls.body| && !decls.body[i].Block?
    requires LoweredAs(n, root, WhereUpTo(decls, path, i), where, m)
    ensures LoweredAs(n, root, WhereUpTo(decls, path, i + 1), where, m)
  {
  }

  lemma WhereFinish(n: Names, root: Ast, path: seq<nat>, decls: Ast, where: Option<Ast>, m: Names)
    requires decls.Block? && LoweredAs(n, root, WhereUpTo(decls, path, |decls.body|), where, m)
    ensures
      var size := SizeTest(|decls.body|, PathExpr(root, path));
      (if where.Some? then LogicalAnd(m, size, where.value) else (size, m)) == Lower(n, root, TupleWhere(decls, path))
  {
    var w := WhereUpTo(decls, path, |decls.body|);
    if w.Some? {
      LowerBoth(n, root, SizeIs(|decls.body|, path), w.value);
    }
  }

  lemma AppendAssoc<T>(a: seq<T>, b: seq<T>, c: seq<T>)
    ensures a + (b + c) == (a + b) + c
  {
  }

  lemma ArgDefsStep(base: Ast, decls: Ast, i: nat)
    requires decls.Block? && i < |decls.body|
    ensures
      var d := decls.body[i];
      ArgDefsUpTo(base, decls, i + 1) == ArgDefsUpTo(base, decls, i)
        + (if d.Def? && !IsWildcard(d) then [d.(init := Some(Element(base, i + 1)))]
           else if d.Block? then ArgDefsUpTo(Element(base, i + 1), d, |d.body|)
           else [])
  {
  }

  /**
   * Adds the destructuring definitions of the pattern at `path` below
   * `root` to the head of `fn` and returns the pattern's where clause.
   */
  method TupleArgClauses(fn: FnStmt, n: Names, root: Ast, path: seq<nat>, tupledefs: Ast)
    returns (w: Ast, m: Names)
    requires tupledefs.Block?
    modifies fn
    ensures fn.body == Reverse(ArgDefsUpTo(PathExpr(root, path), tupledefs, |tupledefs.body|)) + old(fn.body)
    ensures (w, m) == Lower(n, root, TupleWhere(tupledefs, path))
    ensures fn.formals == old(fn.formals) && fn.whereClause == old(fn.whereClause)
    decreases tupledefs, |tupledefs.body| + 1
  {
    ghost var rest := fn.body;
    var where: Option<Ast> := None;
    m := n;
    var i := 0;
    while i < |tupledefs.body|
      invariant 0 <= i <= |tupledefs.body|
      invariant fn.body == Reverse(ArgDefsUpTo(PathExpr(root, path), tupledefs, i)) + rest
      invariant LoweredAs(n, root, WhereUpTo(tupledefs, path, i), where, m)
      invariant fn.formals == old(fn.formals) && fn.whereClause == old(fn.whereClause)
    {
      where, m := TupleArgElement(fn, n, root, path, tupledefs, i, where, m, rest);
      i := i + 1;
    }
    w, m := TupleWhereJoin(n, root, path, tupledefs, where, m);
  }

  /** After the loop: the size test, joined with the nested tuples' clause when there is one. */
  method TupleWhereJoin(ghost n: Names, root: Ast, path: seq<nat>, tupledefs: Ast, where: Option<Ast>, m: Names)
    returns (w: Ast, m': Names)
    requires tupledefs.Block? && LoweredAs(n, root, WhereUpTo(tupledefs, path, |tupledefs.body|), where, m)
    ensures (w, m') == Lower(n, root, TupleWhere(tupledefs, path))
  {
    WhereFinish(n, root, path, tupledefs, where, m);
    var size := SizeTest(|tupledefs.body|, PathExpr(root, path));
    if where.Some? {
      var joined := LogicalAnd(m, size, where.value);
      w, m' := joined.0, joined.1;
    } else {
      w, m' := size, m;
    }
  }

  /**
   * One element of a tuple formal, at position `i + 1`: a named leaf goes
   * to the head of the body, a nested tuple is destructured and its test
   * is joined to the clause so far.
   */
  method TupleArgElement(fn: FnStmt, n: Names, root: Ast, path: seq<nat>, tupledefs: Ast, i: nat,
                         where: Option<Ast>, m: Names, ghost rest: seq<Ast>)
    returns (where': Option<Ast>, m': Names)
    requires tupledefs.Block? && i < |tupledefs.body|
    requires fn.body == Reverse(ArgDefsUpTo(PathExpr(root, path), tupledefs, i)) + rest
    requires LoweredAs(n, root, WhereUpTo(tupledefs, path, i), where, m)
    modifies fn
    ensures fn.body == Reverse(ArgDefsUpTo(PathExpr(root, path), tupledefs, i + 1)) + rest
    ensures LoweredAs(n, root, WhereUpTo(tupledefs, path, i + 1), where', m')
    ensures fn.formals == old(fn.formals) && fn.whereClause == old(fn.whereClause)
    decreases tupledefs, i + 1
  {
    if tupledefs.body[i].Block? {
      where', m' := TupleArgNested(fn, n, root, path, tupledefs, i, where, m, rest);
    } else {
      TupleArgLeaf(fn, PathExpr(root, path), tupledefs, i, rest);
      WhereOtherStep(n, root, path, tupledefs, i, where, m);
      where', m' := where, m;
    }
  }

  /** A definition at position `i + 1` goes to the head of the body, bound to its component, unless it is the wildcard. */
  method TupleArgLeaf(fn: FnStmt, base: Ast, tupledefs: Ast, i: nat, ghost rest: seq<Ast>)
    requires tupledefs.Block? && i < |tupledefs.body| && !tupledefs.body[i].Block?
    requires fn.body == Reverse(ArgDefsUpTo(base, tupledefs, i)) + rest
    modifies fn
    ensures fn.body == Reverse(ArgDefsUpTo(base, tupledefs, i + 1)) + rest
    ensures fn.formals == old(fn.formals) && fn.whereClause == old(fn.whereClause)
  {
    var d := tupledefs.body[i];
    ghost var pre := ArgDefsUpTo(base, tupledefs, i);
    ArgDefsStep(base, tupledefs, i);
    if d.Def? && !IsWildcard(d) {
      var def := d.(init := Some(Element(base, i + 1)));
      fn.InsertAtHead(def);
      ReverseAppend(pre, [def]);
      assert Reverse([def]) == [def] by {
        assert [def][1..] == [];
      }
      AppendAssoc([def], Reverse(pre), rest);
    } else {
      assert pre + [] == pre;
    }
  }

  /** A nested tuple at position `i + 1`: its definitions go to the head of the body, and its test joins the clause. */
  method TupleArgNested(fn: FnStmt, n: Names, root: Ast, path: seq<nat>, tupledefs: Ast, i: nat,
                        where: Option<Ast>, m: Names, ghost rest: seq<Ast>)
    returns (where': Option<Ast>, m': Names)
    requires tupledefs.Block? && i < |tupledefs.body| && tupledefs.body[i].Block?
    requires fn.body == Reverse(ArgDefsUpTo(PathExpr(root, path), tupledefs, i)) + rest
    requires LoweredAs(n, root, WhereUpTo(tupledefs, path, i), where, m)
    modifies fn
    ensures fn.body == Reverse(ArgDefsUpTo(PathExpr(root, path), tupledefs, i + 1)) + rest
    ensures LoweredAs(n, root, WhereUpTo(tupledefs, path, i + 1), where', m')
    ensures fn.formals == old(fn.formals) && fn.whereClause == old(fn.whereClause)
    decreases tupledefs, i
  {
    var base := PathExpr(root, path);
    var d := tupledefs.body[i];
    var p := path + [i + 1];
    assert PathExpr(root, p) == Element(base, i + 1) by {
      assert p[..|p| - 1] == path;
    }
    var sub, m1 := TupleArgClauses(fn, m, root, p, d);
    NestedDefsStep(base, tupledefs, i, rest);
    var clause := LogicalAnd(m1, PrimCall(PIsTuple, [PathExpr(root, p)]), sub);
    if where.Some? {
      var joined := LogicalAnd(clause.1, where.value, clause.0);
      WhereNextNested(n, root, path, tupledefs, i, where.value, m, sub, m1, clause, joined);
      where', m' := Some(joined.0), joined.1;
    } else {
      WhereFirstNested(n, root, path, tupledefs, i, sub, m1, clause);
      where', m' := Some(clause.0), clause.1;
    }
  }

  /** The definitions of a nested tuple go in front of those of the elements before it. */
  lemma NestedDefsStep(base: Ast, tupledefs: Ast, i: nat, rest: seq<Ast>)
    requires tupledefs.Block? && i < |tupledefs.body| && tupledefs.body[i].Block?
    ensures
      var d := tupledefs.body[i];
      Reverse(ArgDefsUpTo(Element(base, i + 1), d, |d.body|)) + (Reverse(ArgDefsUpTo(base, tupledefs, i)) + rest)
      == Reverse(ArgDefsUpTo(base, tupledefs, i + 1)) + rest
  {
    var d := tupledefs.body[i];
    var pre := ArgDefsUpTo(base, tupledefs, i);
    var inner := ArgDefsUpTo(Element(base, i + 1), d, |d.body|);
    ArgDefsStep(base, tupledefs, i);
    ReverseAppend(pre, inner);
    AppendAssoc(Reverse(inner), Reverse(pre), rest);
  }

  /** The compiler-generated formal that receives the whole tuple. */
  function TupleArgTmp(n: Names): Ident
  {
    Ident("_tuple_arg_tmp" + Istr(n.tupleArgUid), n.nextId)
  }

  function TupleFormal(arg: Ident): Ast
  {
    Def(Arg(arg, IntentBlank, TUnknown, None, None, TempFlags.(canParam := true)), None, Some(Sym(Unresolved("_tuple"))))
  }

  /**
   * The top-level destructuring of a tuple formal: a new formal, the
   * definitions of the named leaves at the head of the body, and the
   * shape test joined to any where clause the function already has.
   */
  method TupleArg(fn: FnStmt, n: Names, tupledefs: Ast) returns (w: Ast, m: Names)
    requires tupledefs.Block?
    modifies fn
    ensures fn.formals == old(fn.formals) + [TupleFormal(TupleArgTmp(n))]
    ensures fn.body == Reverse(ArgDefsUpTo(SymOf(TupleArgTmp(n)), tupledefs, |tupledefs.body|)) + old(fn.body)
    ensures
      var clause := Lower(n.(nextId := n.nextId + 1, tupleArgUid := n.tupleArgUid + 1),
                          SymOf(TupleArgTmp(n)), TupleWhere(tupledefs, []));
      (old(fn.whereClause).None? ==> (w, m) == clause)
      && (old(fn.whereClause).Some? ==> (w, m) == LogicalAnd(clause.1, old(fn.whereClause).value, clause.0))
    ensures fn.whereClause == Some(w)
  {
    var arg := TupleArgTmp(n);
    var n1 := n.(nextId := n.nextId + 1, tupleArgUid := n.tupleArgUid + 1);
    fn.InsertFormalAtTail(TupleFormal(arg));
    var base := SymOf(arg);
    assert PathExpr(base, []) == base;
    w, m := TupleArgClauses(fn, n1, base, [], tupledefs);
    if fn.whereClause.Some? {
      var joined := LogicalAnd(m, fn.whereClause.value, w);
      w, m := joined.0, joined.1;
    }
    fn.whereClause := Some(w);
  }
}

=== FILE: build_type_select.dfy ===
/**
 * The type-select statement.  Each clause becomes a parameter function that
 * returns the clause's number; every one of them has the same name, so they
 * form one overload set and resolution picks the clause whose formal types
 * match the selectors.  The statement calls that name on the selectors, keeps
 * the number in a temp and selects on it.  The counter that numbers the name
 * is never advanced.
 */
module BuildTypeSelect {
  import opened Diagnostics
  import opened Ast
  import opened BuildSelect

  const TypeMultipleOtherwise := UserFatal("Type select statement has multiple otherwise clauses")
  const ArityMismatch := UserFatal("Type select statement requires number of selectors to be equal to number of when conditions")

  /** The name of every function a type select defines. */
  function TypeSelectName(uid: nat): string { "_typeselect" + Istr(uid) }

  // ---- one clause's function ----

  /**
   * A formal of a clause function: of any type for the otherwise clause, and
   * otherwise of unknown type constrained by the clause's condition.
   */
  function TypeFormal(a: Ident, c: Ast, otherwise: bool): Ast
  {
    if otherwise then Def(Arg(a, IntentBlank, TAny, None, None, NoFlags), None, None)
    else Def(Arg(a, IntentBlank, TUnknown, None, None, NoFlags), None, Some(c))
  }

  /** The formals `_t1`, ..., `_t<k>` for the first `k` conditions of `cs`, with ids from `m` on. */
  function TypeFormals(m: Names, cs: seq<Ast>, otherwise: bool, k: nat): (r: seq<Ast>)
    requires k <= |cs|
    ensures |r| == k
  {
    if k == 0 then []
    else TypeFormals(m, cs, otherwise, k - 1) + [TypeFormal(Ident("_t" + Istr(k), m.nextId + k - 1), cs[k - 1], otherwise)]
  }

  lemma {:induction false} TypeFormalsAt(m: Names, cs: seq<Ast>, otherwise: bool, k: nat, j: nat)
    requires j < k <= |cs|
    ensures TypeFormals(m, cs, otherwise, k)[j] == TypeFormal(Ident("_t" + Istr(j + 1), m.nextId + j), cs[j], otherwise)
    decreases k
  {
    if j < k - 1 {
      TypeFormalsAt(m, cs, otherwise, k - 1, j);
    }
  }

  /** The function of clause number `caseId`: its formals, and a body that returns the number. */
  function TypeCaseFnOf(m: Names, uid: nat, caseId: nat, cs: seq<Ast>, otherwise: bool): (r: (Ast, Names))
    ensures r.1 == m.(nextId := m.nextId + 1 + |cs|)
  {
    var (f, m1) := Fresh(m, TypeSelectName(uid));
    (Def(Fn(f, TypeFormals(m1, cs, otherwise, |cs|), [PrimCall(PReturn, [Lit(caseId)])], {}, RetParam, TUnknown, None, false, false), None, None),
     m1.(nextId := m1.nextId + |cs|))
  }

  /** A parameter function of the overload set that returns `caseId` and takes `arity` formals. */
  predicate ReturnsCase(d: Ast, uid: nat, caseId: nat, arity: nat)
  {
    d.Def? && d.sym.Fn? && d.sym.ident.name == TypeSelectName(uid) && d.sym.retTag == RetParam
    && d.sym.body == [PrimCall(PReturn, [Lit(caseId)])] && |d.sym.formals| == arity
  }

  /**
   * The clause function is a parameter function returning its number, and
   * formal `k` is `_t<k+1>`: of any type for the otherwise clause, constrained
   * by condition `k` otherwise.
   */
  lemma TypeCaseFnShape(m: Names, uid: nat, caseId: nat, cs: seq<Ast>, otherwise: bool, k: nat)
    requires k < |cs|
    ensures
      var d := TypeCaseFnOf(m, uid, caseId, cs, otherwise).0;
      ReturnsCase(d, uid, caseId, |cs|) && d.sym.ident.id == m.nextId
      && d.sym.formals[k] == TypeFormal(Ident("_t" + Istr(k + 1), m.nextId + 1 + k), cs[k], otherwise)
  {
    TypeFormalsAt(m.(nextId := m.nextId + 1), cs, otherwise, |cs|, k);
  }

  lemma TypeFormalsNext(m: Names, cs: seq<Ast>, otherwise: bool, i: nat)
    requires i < |cs|
    ensures TypeFormals(m, cs, otherwise, i + 1)
            == TypeFormals(m, cs, otherwise, i) + [TypeFormal(Ident("_t" + Istr(i + 1), m.nextId + i), cs[i], otherwise)]
  {
  }

  /** The loop over the conditions: formal `_t<k>` for condition `k`, each with a fresh id. */
  method AddTypeFormals(fn: FnStmt, m1: Names, cs: seq<Ast>, otherwise: bool) returns (m': Names)
    requires fn.formals == [] && fn.body == []
    modifies fn
    ensures fn.formals == TypeFormals(m1, cs, otherwise, |cs|) && fn.body == []
    ensures m' == m1.(nextId := m1.nextId + |cs|)
  {
    m' := m1;
    var i := 0;
    while i < |cs|
      invariant i <= |cs|
      invariant fn.formals == TypeFormals(m1, cs, otherwise, i)
      invariant m' == m1.(nextId := m1.nextId + i)
      invariant fn.body == []
    {
      var lid := i + 1;
      var made := Fresh(m', "_t" + Istr(lid));
      assert made.0 == Ident("_t" + Istr(i + 1), m1.nextId + i);
      var f := TypeFormal(made.0, cs[i], otherwise);
      TypeFormalsNext(m1, cs, otherwise, i);
      fn.InsertFormalAtTail(f);
      assert fn.formals == TypeFormals(m1, cs, otherwise, i) + [f];
      m' := made.1;
      i := i + 1;
    }
  }

  /** Builds one clause's function: the function first, then its formals in order. */
  method TypeCaseFn(m: Names, uid: nat, caseId: nat, cs: seq<Ast>, otherwise: bool) returns (d: Ast, m': Names)
    ensures (d, m') == TypeCaseFnOf(m, uid, caseId, cs, otherwise)
  {
    var (f, m1) := Fresh(m, TypeSelectName(uid));
    var fn := new FnStmt([], [], None);
    m' := AddTypeFormals(fn, m1, cs, otherwise);
    fn.InsertAtTail(PrimCall(PReturn, [Lit(caseId)]));
    assert fn.body == [PrimCall(PReturn, [Lit(caseId)])];
    d := Def(Fn(f, fn.formals, fn.body, {}, RetParam, TUnknown, None, false, false), None, None);
  }

  // ---- the checks on the clauses ----

  /**
   * The checks of one clause, given whether an otherwise came before; on
   * success, whether an otherwise has now been seen.
   */
  function CheckClause(hasOtherwise: bool, exprs: seq<Ast>, w: Ast): Result<bool>
  {
    match WhenConds(w)
    case None => Err(NotAWhen)
    case Some(cs) =>
      if cs == [] && hasOtherwise then Err(TypeMultipleOtherwise)
      else if cs != [] && |cs| != |exprs| then Err(ArityMismatch)
      else Ok(hasOtherwise || cs == [])
  }

  /** The checks over the first `i` clauses, in order: the first failing one stops the statement. */
  function CheckClauses(exprs: seq<Ast>, whens: seq<Ast>, i: nat): (r: Result<bool>)
    requires i <= |whens|
    ensures r.Ok? ==> AllWhens(whens, i)
  {
    if i == 0 then Ok(false)
    else
      var hasOtherwise :- CheckClauses(exprs, whens, i - 1);
      CheckClause(hasOtherwise, exprs, whens[i - 1])
  }

  /** Every clause among the first `i` with conditions has one condition per selector. */
  predicate ArityOk(exprs: seq<Ast>, whens: seq<Ast>, i: nat)
    requires i <= |whens|
  {
    forall k :: 0 <= k < i && WhenConds(whens[k]).Some? && WhenConds(whens[k]).value != [] ==>
      |WhenConds(whens[k]).value| == |exprs|
  }

  /** The first `i` clauses are WHEN conditionals, at most one is the otherwise, and the others match the selectors. */
  predicate TypeWellFormed(exprs: seq<Ast>, whens: seq<Ast>, i: nat)
    requires i <= |whens|
  {
    AllWhens(whens, i) && OtherwiseCount(whens, i) <= 1 && ArityOk(exprs, whens, i)
  }

  lemma WellFormedSnoc(exprs: seq<Ast>, whens: seq<Ast>, i: nat)
    requires 0 < i <= |whens|
    ensures
      var c := WhenConds(whens[i - 1]);
      && (AllWhens(whens, i) <==> AllWhens(whens, i - 1) && c.Some?)
      && (ArityOk(exprs, whens, i) <==> ArityOk(exprs, whens, i - 1) && (c.Some? && c.value != [] ==> |c.value| == |exprs|))
  {
  }

  /** The checks pass only on well-formed clauses, and report an otherwise exactly when there is one. */
  lemma {:induction false} CheckOkWellFormed(exprs: seq<Ast>, whens: seq<Ast>, i: nat)
    requires i <= |whens| && CheckClauses(exprs, whens, i).Ok?
    ensures TypeWellFormed(exprs, whens, i)
    ensures CheckClauses(exprs, whens, i).value <==> OtherwiseCount(whens, i) == 1
    decreases i
  {
    if i > 0 {
      CheckOkWellFormed(exprs, whens, i - 1);
      WellFormedSnoc(exprs, whens, i);
    }
  }

  /** The checks pass on well-formed clauses. */
  lemma {:induction false} CheckWellFormedOk(exprs: seq<Ast>, whens: seq<Ast>, i: nat)
    requires i <= |whens| && TypeWellFormed(exprs, whens, i)
    ensures CheckClauses(exprs, whens, i).Ok?
    decreases i
  {
    if i > 0 {
      WellFormedSnoc(exprs, whens, i);
      CheckWellFormedOk(exprs, whens, i - 1);
      CheckOkWellFormed(exprs, whens, i - 1);
    }
  }

  /** With every clause a WHEN conditional matching the selectors, a second otherwise is the user error about otherwise clauses. */
  lemma {:induction false} CheckMultipleOtherwise(exprs: seq<Ast>, whens: seq<Ast>, i: nat)
    requires i <= |whens|
    requires AllWhens(whens, i) && ArityOk(exprs, whens, i) && OtherwiseCount(whens, i) > 1
    ensures CheckClauses(exprs, whens, i) == Err(TypeMultipleOtherwise)
    decreases i
  {
    WellFormedSnoc(exprs, whens, i);
    if OtherwiseCount(whens, i - 1) > 1 {
      CheckMultipleOtherwise(exprs, whens, i - 1);
    } else {
      CheckWellFormedOk(exprs, whens, i - 1);
      CheckOkWellFormed(exprs, whens, i - 1);
    }
  }

  /** With every clause a WHEN conditional and at most one otherwise, a clause that does not match the selectors is the user error about their number. */
  lemma {:induction false} CheckArityMismatch(exprs: seq<Ast>, whens: seq<Ast>, i: nat)
    requires i <= |whens|
    requires AllWhens(whens, i) && OtherwiseCount(whens, i) <= 1 && !ArityOk(exprs, whens, i)
    ensures CheckClauses(exprs, whens, i) == Err(ArityMismatch)
    decreases i
  {
    WellFormedSnoc(exprs, whens, i);
    if !ArityOk(exprs, whens, i - 1) {
      CheckArityMismatch(exprs, whens, i - 1);
    } else {
      CheckWellFormedOk(exprs, whens, i - 1);
      CheckOkWellFormed(exprs, whens, i - 1);
    }
  }

  /** With at most one otherwise and every clause matching the selectors, a clause that is not a WHEN conditional is the internal error. */
  lemma {:induction false} CheckNotAWhen(exprs: seq<Ast>, whens: seq<Ast>, i: nat)
    requires i <= |whens|
    requires OtherwiseCount(whens, i) <= 1 && ArityOk(exprs, whens, i) && !AllWhens(whens, i)
    ensures CheckClauses(exprs, whens, i) == Err(NotAWhen)
    decreases i
  {
    WellFormedSnoc(exprs, whens, i);
    if !AllWhens(whens, i - 1) {
      CheckNotAWhen(exprs, whens, i - 1);
    } else {
      CheckWellFormedOk(exprs, whens, i - 1);
      CheckOkWellFormed(exprs, whens, i - 1);
    }
  }

  lemma {:induction false} CheckErrorSticky(exprs: seq<Ast>, whens: seq<Ast>, i: nat, j: nat)
    requires i <= j <= |whens|
    requires CheckClauses(exprs, whens, i).Err?
    ensures CheckClauses(exprs, whens, j) == CheckClauses(exprs, whens, i)
    decreases j
  {
    if j > i {
      CheckErrorSticky(exprs, whens, i, j - 1);
    }
  }

  // ---- what the clauses become ----

  /** The clause of the inner select that runs the body of clause number `caseId`. */
  function TypeCase(caseId: nat, body: Ast): Ast
  {
    Cond(PrimCall(PWhen, [Lit(caseId)]), body, None)
  }

  /** The inner clauses for the first `i` clauses, numbered from 1. */
  function CaseClauses(whens: seq<Ast>, i: nat): (r: seq<Ast>)
    requires i <= |whens| && AllWhens(whens, i)
    ensures |r| == i
  {
    if i == 0 then [] else CaseClauses(whens, i - 1) + [TypeCase(i, whens[i - 1].thenS)]
  }

  /** What clause `w`'s formals are made from: the selectors for the otherwise, its conditions otherwise. */
  function ClauseArgs(exprs: seq<Ast>, w: Ast): seq<Ast>
    requires WhenConds(w).Some?
  {
    if WhenConds(w).value == [] then exprs else WhenConds(w).value
  }

  /** The function of clause `w`, numbered `caseId`. */
  function ClauseFn(m: Names, uid: nat, caseId: nat, exprs: seq<Ast>, w: Ast): (Ast, Names)
    requires WhenConds(w).Some?
  {
    TypeCaseFnOf(m, uid, caseId, ClauseArgs(exprs, w), WhenConds(w).value == [])
  }

  /** The functions for the first `i` clauses, with ids from `n` on; no counter but the ids moves. */
  function CaseFns(n: Names, exprs: seq<Ast>, whens: seq<Ast>, i: nat): (r: (seq<Ast>, Names))
    requires i <= |whens| && AllWhens(whens, i)
    ensures |r.0| == i
    ensures r.1 == n.(nextId := r.1.nextId) && r.1.nextId >= n.nextId
  {
    if i == 0 then ([], n)
    else
      var (fns, m) := CaseFns(n, exprs, whens, i - 1);
      var (d, m') := ClauseFn(m, n.typeSelectUid, i, exprs, whens[i - 1]);
      (fns + [d], m')
  }

  /** The temp that holds the number of the selected clause. */
  function CaseTmpDef(tmp: Ident): Ast
  {
    Def(Var(tmp, TempFlags.(canParam := true), {}), None, None)
  }

  /** After the loop: the temp, the functions, the call of the overload set, and the select over the number. */
  function TypeSelectEnd(uid: nat, exprs: seq<Ast>, fns: seq<Ast>, cases: seq<Ast>, m: Names): Result<(Ast, Names)>
  {
    var (tmp, m1) := Fresh(m, "_tmp");
    var sel :- SelectOf(m1, SymOf(tmp), cases);
    Ok((PlainBlock(Scopeless,
          [CaseTmpDef(tmp)] + fns + [Move(SymOf(tmp), CallNamed(TypeSelectName(uid), exprs))]
          + (if sel.0.Some? then [sel.0.value] else [])),
        sel.1))
  }

  /** The whole statement: the first failing check, or the statement built from every clause. */
  function TypeSelectOf(n: Names, exprs: seq<Ast>, whens: seq<Ast>): Result<(Ast, Names)>
    requires |whens| >= 1
  {
    var hasOtherwise :- CheckClauses(exprs, whens, |whens|);
    var (fns, m) := CaseFns(n, exprs, whens, |whens|);
    TypeSelectEnd(n.typeSelectUid, exprs, fns, CaseClauses(whens, |whens|), m)
  }

  // ---- what the statement holds ----

  lemma {:induction false} CaseClausesAt(whens: seq<Ast>, i: nat, k: nat)
    requires k < i <= |whens| && AllWhens(whens, i)
    ensures CaseClauses(whens, i)[k] == TypeCase(k + 1, whens[k].thenS)
    decreases i
  {
    if k < i - 1 {
      CaseClausesAt(whens, i - 1, k);
    }
  }

  /** The inner clauses are all WHEN clauses with one condition, so the inner select has no otherwise and keeps every clause. */
  lemma {:induction false} CaseClausesSelectable(whens: seq<Ast>, i: nat, j: nat)
    requires j <= i <= |whens| && AllWhens(whens, i)
    ensures
      var cases := CaseClauses(whens, i);
      AllWhens(cases, j) && OtherwiseCount(cases, j) == 0 && WhenClauses(cases, j) == cases[..j]
      && OtherwiseBody(cases, j) == None
    decreases j
  {
    if j > 0 {
      var cases := CaseClauses(whens, i);
      CaseClausesSelectable(whens, i, j - 1);
      CaseClausesAt(whens, i, j - 1);
      assert WhenConds(cases[j - 1]) == Some([Lit(j)]);
      assert cases[..j] == cases[..j - 1] + [cases[j - 1]];
    }
  }

  /**
   * Formal `j` of a clause function is `_t<j+1>`: of any type for the
   * otherwise clause (no conditions), and otherwise of unknown type
   * constrained by condition `j`.
   */
  predicate FormalShaped(f: Ast, j: nat, cs: seq<Ast>)
  {
    f.Def? && f.sym.Arg? && f.sym.ident.name == "_t" + Istr(j + 1)
    && (cs == [] ==> f.sym.typ == TAny && f.exprType == None)
    && (cs != [] ==> j < |cs| && f.sym.typ == TUnknown && f.exprType == Some(cs[j]))
  }

  /** The function of clause `k` (clause `w`): it returns `k+1`, and its formals are shaped by `w`. */
  predicate ClauseFnShaped(d: Ast, uid: nat, k: nat, exprs: seq<Ast>, w: Ast)
    requires WhenConds(w).Some?
  {
    ReturnsCase(d, uid, k + 1, |ClauseArgs(exprs, w)|)
    && forall j :: 0 <= j < |d.sym.formals| ==> FormalShaped(d.sym.formals[j], j, WhenConds(w).value)
  }

  lemma ClauseFnShape(m: Names, uid: nat, k: nat, exprs: seq<Ast>, w: Ast)
    requires WhenConds(w).Some?
    ensures ClauseFnShaped(ClauseFn(m, uid, k + 1, exprs, w).0, uid, k, exprs, w)
  {
    var cs := ClauseArgs(exprs, w);
    var d := ClauseFn(m, uid, k + 1, exprs, w).0;
    forall j | 0 <= j < |d.sym.formals|
      ensures FormalShaped(d.sym.formals[j], j, WhenConds(w).value)
    {
      TypeCaseFnShape(m, uid, k + 1, cs, WhenConds(w).value == [], j);
    }
  }

  /** Each of `fns` is shaped by the clause at its position. */
  predicate AllShaped(fns: seq<Ast>, uid: nat, exprs: seq<Ast>, whens: seq<Ast>)
    requires |fns| <= |whens| && AllWhens(whens, |fns|)
  {
    forall k :: 0 <= k < |fns| ==> ClauseFnShaped(fns[k], uid, k, exprs, whens[k])
  }

  lemma ShapedSnoc(fns: seq<Ast>, d: Ast, uid: nat, exprs: seq<Ast>, whens: seq<Ast>)
    requires |fns| < |whens| && AllWhens(whens, |fns| + 1)
    requires AllShaped(fns, uid, exprs, whens) && ClauseFnShaped(d, uid, |fns|, exprs, whens[|fns|])
    ensures AllShaped(fns + [d], uid, exprs, whens)
  {
    forall k | 0 <= k < |fns| + 1
      ensures ClauseFnShaped((fns + [d])[k], uid, k, exprs, whens[k])
    {
      if k < |fns| {
        assert (fns + [d])[k] == fns[k];
      } else {
        assert (fns + [d])[k] == d;
      }
    }
  }

  /** Every function the loop builds is shaped by its clause. */
  lemma {:induction false} CaseFnsShaped(n: Names, exprs: seq<Ast>, whens: seq<Ast>, i: nat)
    requires i <= |whens| && AllWhens(whens, i)
    ensures AllShaped(CaseFns(n, exprs, whens, i).0, n.typeSelectUid, exprs, whens)
    decreases i
  {
    if i > 0 {
      var j := i - 1;
      assert i == j + 1;
      CaseFnsShaped(n, exprs, whens, j);
      CaseFnsNext(n, exprs, whens, j);
      ClauseFnShape(CaseFns(n, exprs, whens, j).1, n.typeSelectUid, j, exprs, whens[j]);
      ShapedSnoc(CaseFns(n, exprs, whens, j).0, ClauseFn(CaseFns(n, exprs, whens, j).1, n.typeSelectUid, j + 1, exprs, whens[j]).0,
                 n.typeSelectUid, exprs, whens);
    }
  }

  /** Clause `i` adds its function after those of the clauses before it. */
  lemma CaseFnsNext(n: Names, exprs: seq<Ast>, whens: seq<Ast>, i: nat)
    requires i < |whens| && AllWhens(whens, i + 1)
    ensures CaseFns(n, exprs, whens, i + 1).0
            == CaseFns(n, exprs, whens, i).0 + [ClauseFn(CaseFns(n, exprs, whens, i).1, n.typeSelectUid, i + 1, exprs, whens[i]).0]
  {
  }

  /**
   * On well-formed clauses, clause `k` becomes a parameter function of the one
   * overload set that returns `k+1` and takes one formal per selector, and
   * formal `j` of it is `_t<j+1>`: of any type when the clause is the
   * otherwise, and otherwise of unknown type constrained by condition `j`.
   */
  lemma CaseFnReturns(n: Names, exprs: seq<Ast>, whens: seq<Ast>, i: nat, k: nat)
    requires k < i <= |whens| && AllWhens(whens, i) && ArityOk(exprs, whens, i)
    ensures ReturnsCase(CaseFns(n, exprs, whens, i).0[k], n.typeSelectUid, k + 1, |exprs|)
    ensures var d := CaseFns(n, exprs, whens, i).0[k];
      forall j :: 0 <= j < |exprs| ==> FormalShaped(d.sym.formals[j], j, WhenConds(whens[k]).value)
  {
    CaseFnsShaped(n, exprs, whens, i);
  }

  /** The inner select over the numbered clauses succeeds and yields a statement. */
  lemma CasesSelect(m: Names, sel: Ast, whens: seq<Ast>)
    requires |whens| >= 1 && AllWhens(whens, |whens|)
    ensures SelectOf(m, sel, CaseClauses(whens, |whens|)).Ok?
    ensures SelectOf(m, sel, CaseClauses(whens, |whens|)).value.0.Some?
  {
    var cases := CaseClauses(whens, |whens|);
    CaseClausesSelectable(whens, |whens|, |whens|);
    CaseClausesAt(whens, |whens|, 0);
    assert !IsOtherwise(cases[0]);
    SelectSucceeds(m, sel, cases);
    SelectEmpty(m, sel, cases);
  }

  /**
   * `build_type_select` succeeds exactly on well-formed clauses; when it fails
   * it fails with the first failing clause's error.
   */
  lemma TypeSelectSucceeds(n: Names, exprs: seq<Ast>, whens: seq<Ast>)
    requires |whens| >= 1
    ensures TypeSelectOf(n, exprs, whens).Ok? <==> TypeWellFormed(exprs, whens, |whens|)
    ensures TypeSelectOf(n, exprs, whens).Err? ==>
      CheckClauses(exprs, whens, |whens|).Err? && TypeSelectOf(n, exprs, whens) == Err(CheckClauses(exprs, whens, |whens|).diag)
  {
    if CheckClauses(exprs, whens, |whens|).Ok? {
      CheckOkWellFormed(exprs, whens, |whens|);
      var (fns, m) := CaseFns(n, exprs, whens, |whens|);
      var (tmp, m1) := Fresh(m, "_tmp");
      CasesSelect(m1, SymOf(tmp), whens);
    } else if TypeWellFormed(exprs, whens, |whens|) {
      CheckWellFormedOk(exprs, whens, |whens|);
    }
  }

  /** The statement after the loop, once the inner select over the temp is known to be built. */
  lemma TypeSelectEndOk(uid: nat, exprs: seq<Ast>, fns: seq<Ast>, cases: seq<Ast>, m: Names, sel: (Option<Ast>, Names))
    requires SelectOf(m.(nextId := m.nextId + 1), SymOf(Ident("_tmp", m.nextId)), cases) == Ok(sel)
    ensures
      var tmp := Ident("_tmp", m.nextId);
      TypeSelectEnd(uid, exprs, fns, cases, m)
      == Ok((PlainBlock(Scopeless,
               [CaseTmpDef(tmp)] + fns + [Move(SymOf(tmp), CallNamed(TypeSelectName(uid), exprs))]
               + (if sel.0.Some? then [sel.0.value] else [])),
             sel.1))
  {
    assert Fresh(m, "_tmp") == (Ident("_tmp", m.nextId), m.(nextId := m.nextId + 1));
    var inner := SelectOf(m.(nextId := m.nextId + 1), SymOf(Ident("_tmp", m.nextId)), cases);
    assert !inner.IsFailure() && inner.Extract() == sel;
  }

  /**
   * After the loop: the block defines the temp first, then the clause
   * functions, then moves the result of calling the overload set on the
   * selectors into the temp, and ends with the inner select.
   */
  lemma TypeSelectEndShape(uid: nat, exprs: seq<Ast>, fns: seq<Ast>, whens: seq<Ast>, m: Names)
    requires |whens| >= 1 && AllWhens(whens, |whens|)
    ensures
      var r := TypeSelectEnd(uid, exprs, fns, CaseClauses(whens, |whens|), m);
      var tmp := Ident("_tmp", m.nextId);
      r.Ok? && r.value.0.Block? && r.value.0.tag == Scopeless
      && |r.value.0.body| == |fns| + 3
      && r.value.0.body[0] == CaseTmpDef(tmp)
      && r.value.0.body[1..|fns| + 1] == fns
      && r.value.0.body[|fns| + 1] == Move(SymOf(tmp), CallNamed(TypeSelectName(uid), exprs))
      && Advanced(m, r.value.1)
  {
    var tmp := Ident("_tmp", m.nextId);
    var m1 := m.(nextId := m.nextId + 1);
    CasesSelect(m1, SymOf(tmp), whens);
    SelectAdvances(m1, SymOf(tmp), CaseClauses(whens, |whens|));
    var sel := SelectOf(m1, SymOf(tmp), CaseClauses(whens, |whens|)).value;
    TypeSelectEndOk(uid, exprs, fns, CaseClauses(whens, |whens|), m, sel);
    var body := [CaseTmpDef(tmp)] + fns + [Move(SymOf(tmp), CallNamed(TypeSelectName(uid), exprs))] + [sel.0.value];
    assert TypeSelectEnd(uid, exprs, fns, CaseClauses(whens, |whens|), m) == Ok((PlainBlock(Scopeless, body), sel.1));
    assert body[1..|fns| + 1] == fns;
  }

  /** The last statement is the select over the temp with the numbered clauses. */
  lemma TypeSelectEndSelect(uid: nat, exprs: seq<Ast>, fns: seq<Ast>, whens: seq<Ast>, m: Names,
                            r: Result<(Ast, Names)>, inner: Result<(Option<Ast>, Names)>)
    requires |whens| >= 1 && AllWhens(whens, |whens|)
    requires r == TypeSelectEnd(uid, exprs, fns, CaseClauses(whens, |whens|), m)
    requires inner == SelectOf(m.(nextId := m.nextId + 1), SymOf(Ident("_tmp", m.nextId)), CaseClauses(whens, |whens|))
    ensures r.Ok? && inner.Ok? && inner.value.0.Some? && r.value.0.Block? && |r.value.0.body| == |fns| + 3
    ensures r.value.0.body[|fns| + 2] == inner.value.0.value
  {
    var tmp := Ident("_tmp", m.nextId);
    var m1 := m.(nextId := m.nextId + 1);
    CasesSelect(m1, SymOf(tmp), whens);
    var sel := inner.value;
    TypeSelectEndOk(uid, exprs, fns, CaseClauses(whens, |whens|), m, sel);
    var body := [CaseTmpDef(tmp)] + fns + [Move(SymOf(tmp), CallNamed(TypeSelectName(uid), exprs))] + [sel.0.value];
    assert r == Ok((PlainBlock(Scopeless, body), sel.1));
    assert body[|fns| + 2] == sel.0.value;
  }

  /** On well-formed clauses the statement is what follows the loop, on the functions and clauses the loop built. */
  lemma TypeSelectOfEnd(n: Names, exprs: seq<Ast>, whens: seq<Ast>, fns: seq<Ast>, m: Names)
    requires |whens| >= 1 && TypeWellFormed(exprs, whens, |whens|)
    requires (fns, m) == CaseFns(n, exprs, whens, |whens|)
    ensures TypeSelectOf(n, exprs, whens) == TypeSelectEnd(n.typeSelectUid, exprs, fns, CaseClauses(whens, |whens|), m)
  {
    CheckWellFormedOk(exprs, whens, |whens|);
  }

  /**
   * A successful type select: the temp, one function per clause shaped by
   * it (all in the one overload set, numbered from 1), the call of the
   * overload set, and the inner select; only the symbol ids move on.
   */
  lemma TypeSelectShape(n: Names, exprs: seq<Ast>, whens: seq<Ast>)
    requires |whens| >= 1 && TypeWellFormed(exprs, whens, |whens|)
    ensures TypeSelectOf(n, exprs, whens).Ok?
    ensures
      var b := TypeSelectOf(n, exprs, whens).value.0;
      var m := CaseFns(n, exprs, whens, |whens|).1;
      var tmp := Ident("_tmp", m.nextId);
      b.Block? && b.tag == Scopeless && |b.body| == |whens| + 3
      && b.body[0] == CaseTmpDef(tmp)
      && AllShaped(b.body[1..|whens| + 1], n.typeSelectUid, exprs, whens)
      && b.body[|whens| + 1] == Move(SymOf(tmp), CallNamed(TypeSelectName(n.typeSelectUid), exprs))
      && Advanced(n, TypeSelectOf(n, exprs, whens).value.1)
  {
    CheckWellFormedOk(exprs, whens, |whens|);
    var (fns, m) := CaseFns(n, exprs, whens, |whens|);
    CaseFnsShaped(n, exprs, whens, |whens|);
    TypeSelectEndShape(n.typeSelectUid, exprs, fns, whens, m);
  }

  /**
   * The last statement of a successful type select is the select over the
   * temp with one WHEN clause per clause, numbered from 1 and running that
   * clause's body: `CaseClausesSelectable` and `CaseClausesAt` say what those
   * clauses are, and `SelectRunsFirstMatch` what such a select runs.
   */
  lemma TypeSelectDispatch(n: Names, exprs: seq<Ast>, whens: seq<Ast>, m: Names)
    requires |whens| >= 1 && TypeWellFormed(exprs, whens, |whens|)
    requires m == CaseFns(n, exprs, whens, |whens|).1
    ensures
      var r := TypeSelectOf(n, exprs, whens);
      var inner := SelectOf(m.(nextId := m.nextId + 1), SymOf(Ident("_tmp", m.nextId)), CaseClauses(whens, |whens|));
      && r.Ok? && inner.Ok? && inner.value.0.Some? && r.value.0.Block? && |r.value.0.body| == |whens| + 3
      && r.value.0.body[|whens| + 2] == inner.value.0.value
  {
    var fns := CaseFns(n, exprs, whens, |whens|).0;
    TypeSelectOfEnd(n, exprs, whens, fns, m);
    TypeSelectEndSelect(n.typeSelectUid, exprs, fns, whens, m, TypeSelectOf(n, exprs, whens),
                        SelectOf(m.(nextId := m.nextId + 1), SymOf(Ident("_tmp", m.nextId)), CaseClauses(whens, |whens|)));
  }

  /**
   * The uid is never advanced, so the functions of two successive type
   * selects share their name and join one overload set.
   */
  lemma TypeSelectSameName(n: Names, exprs1: seq<Ast>, whens1: seq<Ast>, exprs2: seq<Ast>, whens2: seq<Ast>)
    requires |whens1| >= 1 && TypeSelectOf(n, exprs1, whens1).Ok?
    requires |whens2| >= 1 && TypeSelectOf(TypeSelectOf(n, exprs1, whens1).value.1, exprs2, whens2).Ok?
    ensures
      var n2 := TypeSelectOf(n, exprs1, whens1).value.1;
      var b1 := TypeSelectOf(n, exprs1, whens1).value.0;
      var b2 := TypeSelectOf(n2, exprs2, whens2).value.0;
      b1.Block? && b2.Block? && |b1.body| > 1 && |b2.body| > 1
      && b1.body[1].Def? && b1.body[1].sym.Fn? && b2.body[1].Def? && b2.body[1].sym.Fn?
      && b1.body[1].sym.ident.name == b2.body[1].sym.ident.name == TypeSelectName(n.typeSelectUid)
  {
    var n2 := TypeSelectOf(n, exprs1, whens1).value.1;
    TypeSelectSucceeds(n, exprs1, whens1);
    TypeSelectSucceeds(n2, exprs2, whens2);
    TypeSelectShape(n, exprs1, whens1);
    TypeSelectShape(n2, exprs2, whens2);
    var b1 := TypeSelectOf(n, exprs1, whens1).value.0;
    var b2 := TypeSelectOf(n2, exprs2, whens2).value.0;
    assert b1.body[1..|whens1| + 1][0] == b1.body[1];
    assert b2.body[1..|whens2| + 1][0] == b2.body[1];
  }

  // ---- the loop ----

  /** After `i` clauses the loop of `build_type_select` has passed their checks and built their functions and inner clauses. */
  predicate TypeScannedAs(n: Names, exprs: seq<Ast>, whens: seq<Ast>, i: nat, hasOtherwise: bool, fns: seq<Ast>, cases: seq<Ast>, m: Names)
    requires i <= |whens|
  {
    CheckClauses(exprs, whens, i) == Ok(hasOtherwise)
    && (fns, m) == CaseFns(n, exprs, whens, i) && cases == CaseClauses(whens, i)
  }

  /** A clause that fails its checks stops the statement with its error. */
  lemma TypeScannedError(exprs: seq<Ast>, whens: seq<Ast>, i: nat, hasOtherwise: bool)
    requires i < |whens| && CheckClauses(exprs, whens, i) == Ok(hasOtherwise)
    requires CheckClause(hasOtherwise, exprs, whens[i]).Err?
    ensures CheckClauses(exprs, whens, |whens|) == Err(CheckClause(hasOtherwise, exprs, whens[i]).diag)
  {
    CheckErrorSticky(exprs, whens, i + 1, |whens|);
  }

  /** A clause that passes its checks adds its function and its inner clause. */
  lemma TypeScannedStep(n: Names, exprs: seq<Ast>, whens: seq<Ast>, i: nat, hasOtherwise: bool, fns: seq<Ast>, cases: seq<Ast>, m: Names,
                        d: Ast, m': Names)
    requires i < |whens| && TypeScannedAs(n, exprs, whens, i, hasOtherwise, fns, cases, m)
    requires CheckClause(hasOtherwise, exprs, whens[i]).Ok?
    requires (d, m') == ClauseFn(m, n.typeSelectUid, i + 1, exprs, whens[i])
    ensures TypeScannedAs(n, exprs, whens, i + 1, CheckClause(hasOtherwise, exprs, whens[i]).value,
                          fns + [d], cases + [TypeCase(i + 1, whens[i].thenS)], m')
  {
  }

  /** One clause: its checks, then its function. */
  method TypeClause(ghost n: Names, exprs: seq<Ast>, whens: seq<Ast>, i: nat, ghost fns: seq<Ast>, ghost cases: seq<Ast>,
                    uid: nat, hasOtherwise: bool, m: Names)
    returns (r: Result<(Ast, bool, Names)>)
    requires i < |whens| && TypeScannedAs(n, exprs, whens, i, hasOtherwise, fns, cases, m) && uid == n.typeSelectUid
    ensures r.Err? ==> CheckClauses(exprs, whens, |whens|) == Err(r.diag)
    ensures r.Ok? ==>
      var (d, ho, m') := r.value;
      whens[i].Cond? && TypeScannedAs(n, exprs, whens, i + 1, ho, fns + [d], cases + [TypeCase(i + 1, whens[i].thenS)], m')
  {
    var conds := WhenConds(whens[i]);
    if conds.None? || (conds.value == [] && hasOtherwise) || (conds.value != [] && |conds.value| != |exprs|) {
      TypeScannedError(exprs, whens, i, hasOtherwise);
      return Err(if conds.None? then NotAWhen else if conds.value == [] then TypeMultipleOtherwise else ArityMismatch);
    }
    var d, m';
    if conds.value == [] {
      d, m' := TypeCaseFn(m, uid, i + 1, exprs, true);
    } else {
      d, m' := TypeCaseFn(m, uid, i + 1, conds.value, false);
    }
    TypeScannedStep(n, exprs, whens, i, hasOtherwise, fns, cases, m, d, m');
    r := Ok((d, hasOtherwise || conds.value == [], m'));
  }

  /** The loop of `build_type_select`: each clause's function goes to `stmts`, its inner clause to `newWhens`. */
  method TypeScanLoop(n: Names, exprs: seq<Ast>, whens: seq<Ast>, stmts: BlockStmt, newWhens: BlockStmt)
    returns (r: Result<Names>)
    requires stmts != newWhens && stmts.body == [] && newWhens.body == []
    modifies stmts, newWhens
    ensures stmts.tag == old(stmts.tag)
    ensures r.Err? ==> CheckClauses(exprs, whens, |whens|) == Err(r.diag)
    ensures r.Ok? ==> exists ho :: TypeScannedAs(n, exprs, whens, |whens|, ho, stmts.body, newWhens.body, r.value)
  {
    var uid := n.typeSelectUid;
    var hasOtherwise := false;
    var caseId := 1;
    var m := n;
    var i := 0;
    while i < |whens|
      invariant i <= |whens| && stmts.tag == old(stmts.tag) && caseId == i + 1
      invariant TypeScannedAs(n, exprs, whens, i, hasOtherwise, stmts.body, newWhens.body, m)
    {
      var clause := TypeClause(n, exprs, whens, i, stmts.body, newWhens.body, uid, hasOtherwise, m);
      if clause.Err? {
        return Err(clause.diag);
      }
      var (d, ho, m') := clause.value;
      newWhens.InsertAtTail(TypeCase(caseId, whens[i].thenS));
      stmts.InsertAtTail(d);
      caseId, hasOtherwise, m := caseId + 1, ho, m';
      i := i + 1;
    }
    r := Ok(m);
  }

  /** The end of `build_type_select`, on the lists the loop built. */
  method TypeSelectFinish(uid: nat, exprs: seq<Ast>, stmts: BlockStmt, newWhens: BlockStmt, m: Names)
    returns (r: Result<(Ast, Names)>)
    requires stmts != newWhens && stmts.tag == Scopeless
    modifies stmts
    ensures r == TypeSelectEnd(uid, exprs, old(stmts.body), newWhens.body, m)
  {
    var (tmp, m1) := Fresh(m, "_tmp");
    ghost var fns := stmts.body;
    stmts.InsertAtHead(CaseTmpDef(tmp));
    stmts.InsertAtTail(Move(SymOf(tmp), CallNamed(TypeSelectName(uid), exprs)));
    assert stmts.body == [CaseTmpDef(tmp)] + fns + [Move(SymOf(tmp), CallNamed(TypeSelectName(uid), exprs))];
    var sel := Select(m1, SymOf(tmp), newWhens.body);
    if sel.Err? {
      return Err(sel.diag);
    }
    ghost var body := stmts.body;
    if sel.value.0.Some? {
      stmts.InsertAtTail(sel.value.0.value);
    }
    assert stmts.body == body + (if sel.value.0.Some? then [sel.value.0.value] else []);
    r := Ok((stmts.AsAst(), sel.value.1));
  }

  /** `build_type_select`: the loop over the clauses, then the temp, the call and the inner select. */
  method TypeSelect(n: Names, exprs: seq<Ast>, whens: seq<Ast>) returns (r: Result<(Ast, Names)>)
    requires |whens| >= 1
    ensures r == TypeSelectOf(n, exprs, whens)
  {
    var stmts := new BlockStmt(Scopeless, []);
    var newWhens := new BlockStmt(Scopeless, []);
    var scan := TypeScanLoop(n, exprs, whens, stmts, newWhens);
    if scan.Err? {
      return Err(scan.diag);
    }
    r := TypeSelectFinish(n.typeSelectUid, exprs, stmts, newWhens, scan.value);
  }
}

=== FILE: comm_envelope.dfy ===
/**
 * The envelope that announces every remote operation, and its wire form on
 * the homogeneous path.  The sender packs the message type, the reply tag
 * and the size as ints, then the part of the union the type selects: for a
 * put or a get the length of a pointer followed by the pointer's bytes,
 * for the shutdown message nothing, for anything else the function id.
 * The receiver unpacks in the same order.
 */
module CommEnvelope {
  import opened Diagnostics
  import opened CommTags
  import opened CommWords

  type byte = b: int | 0 <= b < 256

  /** The message types, numbered as the runtime numbers them. */
  const CommPut := 0
  const CommGet := 1
  const CommFork := 2
  const CommForkNB := 3
  const CommFinish := 4
  const CommBroadcastPrivate := 5

  /** The size of a pointer on a 64-bit host; the homogeneous path packs `sizeof(void *)` bytes, 4 on a 32-bit host. */
  const PtrSize := 8

  /** What the union of an envelope holds. */
  datatype Payload = Addr(addr: nat) | Fid(fid: int) | NoPayload

  /** An envelope: a 4-bit message type, a 27-bit reply tag, a size and the union. */
  datatype MsgInfo = MsgInfo(msgType: int, replyTag: int, size: int, u: Payload)

  /** One item of a PVM buffer: a packed int or a packed run of bytes. */
  datatype Item = IntItem(i: int) | BytesItem(bytes: seq<byte>)

  /** A value the 4-bit signed message-type field of an envelope can hold. */
  predicate FitsMsgType(x: int)
  {
    -8 <= x < 8
  }

  predicate CarriesAddress(msgType: int)
  {
    msgType == CommPut || msgType == CommGet
  }

  /** An envelope whose fields fit their widths and whose union holds the member its type selects. */
  predicate WellFormed(m: MsgInfo)
  {
    FitsMsgType(m.msgType) && FitsReplyTag(m.replyTag) && IsInt32(m.size)
    && (CarriesAddress(m.msgType) ==> m.u.Addr? && IsUint64(m.u.addr))
    && (m.msgType == CommFinish ==> m.u.NoPayload?)
    && (!CarriesAddress(m.msgType) && m.msgType != CommFinish ==> m.u.Fid? && IsInt32(m.u.fid))
  }

  // ---- the bytes of a pointer ----

  /** The low `n` bytes of `a`, least significant first. */
  function LeBytes(a: nat, n: nat): (r: seq<byte>)
    ensures |r| == n
  {
    if n == 0 then [] else [a % 256] + LeBytes(a / 256, n - 1)
  }

  /** The number whose bytes, least significant first, are `bs`. */
  function LeValue(bs: seq<byte>): nat
  {
    if bs == [] then 0 else bs[0] + 256 * LeValue(bs[1..])
  }

  function Pow256(n: nat): (r: nat)
    ensures r >= 1
  {
    if n == 0 then 1 else 256 * Pow256(n - 1)
  }

  lemma {:induction false} LeRoundTrip(a: nat, n: nat)
    requires a < Pow256(n)
    ensures LeValue(LeBytes(a, n)) == a
  {
    if n > 0 {
      LeRoundTrip(a / 256, n - 1);
      assert LeBytes(a, n)[1..] == LeBytes(a / 256, n - 1);
    }
  }

  /** A pointer fits the bytes the sender packs for it. */
  lemma PointerFits(a: nat)
    requires IsUint64(a)
    ensures a < Pow256(PtrSize)
  {
    assert Pow256(4) == 0x1_0000_0000;
    assert Pow256(8) == Pow256(4) * Pow256(4) by {
      assert Pow256(8) == 256 * 256 * 256 * 256 * Pow256(4);
    }
  }

  // ---- the wire form ----

  /** The items the sender packs for an envelope. */
  function Encode(m: MsgInfo): (r: seq<Item>)
    requires WellFormed(m)
    ensures 3 <= |r| <= 5
  {
    [IntItem(m.msgType), IntItem(m.replyTag), IntItem(m.size)]
    + (if CarriesAddress(m.msgType) then [IntItem(PtrSize), BytesItem(LeBytes(m.u.addr, PtrSize))]
       else if m.msgType == CommFinish then []
       else [IntItem(m.u.fid)])
  }

  /** A received int stored into a signed bit-field: the 4-bit type or the 27-bit reply tag. */
  function ToField(x: int, bits: nat): (r: int)
    requires bits == 4 || bits == 27
    ensures bits == 4 ==> FitsMsgType(r) && (FitsMsgType(x) ==> r == x)
    ensures bits == 27 ==> FitsReplyTag(r) && (FitsReplyTag(x) ==> r == x)
  {
    if bits == 4 then
      (if x % 16 >= 8 then x % 16 - 16 else x % 16)
    else
      (if x % 0x800_0000 >= 0x400_0000 then x % 0x800_0000 - 0x800_0000 else x % 0x800_0000)
  }

  /**
   * The envelope the receiver restores from the front of `items`, and how
   * many items it consumed; `None` when the buffer does not hold what the
   * receiver unpacks (a PVM unpacking error, which stops the program).
   */
  function Decode(items: seq<Item>): (r: Option<(MsgInfo, nat)>)
    ensures r.Some? ==> 3 <= r.value.1 <= |items| && r.value.1 <= 5
  {
    if |items| < 3 || !items[0].IntItem? || !items[1].IntItem? || !items[2].IntItem? then None
    else
      var t := items[0].i;
      var payload: Option<(Payload, nat)> :=
        if CarriesAddress(t) then
          if |items| >= 5 && items[3].IntItem? && items[4].BytesItem?
             && items[3].i == PtrSize && |items[4].bytes| == PtrSize
          then Some((Addr(LeValue(items[4].bytes)), 5))
          else None
        else if t == CommFinish then Some((NoPayload, 3))
        else if |items| >= 4 && items[3].IntItem? then Some((Fid(items[3].i), 4))
        else None;
      if payload.None? then None
      else Some((MsgInfo(ToField(t, 4), ToField(items[1].i, 27), items[2].i, payload.value.0), payload.value.1))
  }

  /** The receiver restores exactly the envelope the sender packed, whatever follows it. */
  lemma EnvelopeRoundTrip(m: MsgInfo, rest: seq<Item>)
    requires WellFormed(m)
    ensures Decode(Encode(m) + rest) == Some((m, |Encode(m)|))
  {
    var items := Encode(m) + rest;
    if CarriesAddress(m.msgType) {
      PointerFits(m.u.addr);
      LeRoundTrip(m.u.addr, PtrSize);
      assert items[4] == BytesItem(LeBytes(m.u.addr, PtrSize));
    } else if m.msgType != CommFinish {
      assert items[3] == IntItem(m.u.fid);
    }
  }

  /** Different well-formed envelopes have different wire forms. */
  lemma EncodeInjective(m1: MsgInfo, m2: MsgInfo)
    requires WellFormed(m1) && WellFormed(m2) && Encode(m1) == Encode(m2)
    ensures m1 == m2
  {
    EnvelopeRoundTrip(m1, []);
    EnvelopeRoundTrip(m2, []);
    assert Encode(m1) + [] == Encode(m2) + [];
  }

  // ---- the PVM buffers ----

  /** The send buffer: items packed so far. */
  class SendBuffer {
    var items: seq<Item>

    constructor ()
      ensures items == []
    {
      items := [];
    }

    method PackInt(i: int)
      modifies this
      ensures items == old(items) + [IntItem(i)]
    {
      items := items + [IntItem(i)];
    }

    method PackBytes(bytes: seq<byte>)
      modifies this
      ensures items == old(items) + [BytesItem(bytes)]
    {
      items := items + [BytesItem(bytes)];
    }
  }

  /** The receive buffer: the items of a received message and how far unpacking has got. */
  class RecvBuffer {
    var items: seq<Item>
    var pos: nat

    constructor (items: seq<Item>)
      ensures this.items == items && pos == 0
    {
      this.items := items;
      pos := 0;
    }

    method UnpackInt() returns (r: Option<int>)
      modifies this
      ensures items == old(items)
      ensures old(pos) < |items| && items[old(pos)].IntItem? ==>
        r == Some(items[old(pos)].i) && pos == old(pos) + 1
      ensures !(old(pos) < |items| && items[old(pos)].IntItem?) ==> r == None && pos == old(pos)
    {
      if pos < |items| && items[pos].IntItem? {
        r := Some(items[pos].i);
        pos := pos + 1;
      } else {
        r := None;
      }
    }

    /** Unpacks `n` bytes, which must have been packed as one run of `n` bytes. */
    method UnpackBytes(n: int) returns (r: Option<seq<byte>>)
      modifies this
      ensures items == old(items)
      ensures old(pos) < |items| && items[old(pos)].BytesItem? && |items[old(pos)].bytes| == n ==>
        r == Some(items[old(pos)].bytes) && pos == old(pos) + 1
      ensures !(old(pos) < |items| && items[old(pos)].BytesItem? && |items[old(pos)].bytes| == n) ==>
        r == None && pos == old(pos)
    {
      if pos < |items| && items[pos].BytesItem? && |items[pos].bytes| == n {
        r := Some(items[pos].bytes);
        pos := pos + 1;
      } else {
        r := None;
      }
    }
  }

  /** The envelope half of the sender: packs the fields in order, then the selected union member. */
  method PackEnvelope(buf: SendBuffer, m: MsgInfo)
    requires WellFormed(m)
    modifies buf
    ensures buf.items == old(buf.items) + Encode(m)
  {
    buf.PackInt(m.msgType);
    buf.PackInt(m.replyTag);
    buf.PackInt(m.size);
    if m.msgType == CommPut || m.msgType == CommGet {
      buf.PackInt(PtrSize);
      buf.PackBytes(LeBytes(m.u.addr, PtrSize));
    } else if m.msgType == CommFinish {
    } else {
      buf.PackInt(m.u.fid);
    }
  }

  /** The envelope half of the receiver: unpacks the fields in the order they were packed. */
  method UnpackEnvelope(buf: RecvBuffer) returns (r: Option<MsgInfo>)
    requires buf.pos <= |buf.items|
    modifies buf
    ensures buf.items == old(buf.items)
    ensures var d := Decode(old(buf.items)[old(buf.pos)..]);
      (d.Some? ==> r == Some(d.value.0) && buf.pos == old(buf.pos) + d.value.1)
      && (d.None? ==> r == None)
  {
    ghost var rest := buf.items[buf.pos..];
    var t := buf.UnpackInt();
    var rep := buf.UnpackInt();
    var bytes := buf.UnpackInt();
    if t.None? || rep.None? || bytes.None? {
      return None;
    }
    assert rest[0] == IntItem(t.value) && rest[1] == IntItem(rep.value) && rest[2] == IntItem(bytes.value);
    var u: Payload;
    if t.value == CommPut || t.value == CommGet {
      var packageSize := buf.UnpackInt();
      if packageSize.None? || packageSize.value != PtrSize {
        return None;
      }
      var data := buf.UnpackBytes(packageSize.value);
      if data.None? {
        return None;
      }
      assert rest[3] == IntItem(packageSize.value) && rest[4] == BytesItem(data.value);
      u := Addr(LeValue(data.value));
    } else if t.value == CommFinish {
      u := NoPayload;
    } else {
      var fnid := buf.UnpackInt();
      if fnid.None? {
        return None;
      }
      assert rest[3] == IntItem(fnid.value);
      u := Fid(fnid.value);
    }
    r := Some(MsgInfo(ToField(t.value, 4), ToField(rep.value, 27), bytes.value, u));
  }

  /** Packing an envelope into an empty buffer and unpacking it gives it back. */
  method EnvelopeThroughBuffers(m: MsgInfo) returns (r: Option<MsgInfo>)
    requires WellFormed(m)
    ensures r == Some(m)
  {
    var out := new SendBuffer();
    PackEnvelope(out, m);
    var inb := new RecvBuffer(out.items);
    r := UnpackEnvelope(inb);
    EnvelopeRoundTrip(m, []);
    assert out.items[0..] + [] == Encode(m) + [];
  }
}

=== FILE: comm_locale.dfy ===
/**
 * One locale of a PVM run, as the communication layer sees it: its place
 * among the locales, its tag counter, its diagnostics counters and flags,
 * the barrier flag, its local memory, and the trace of the messages it
 * sends and receives.  PVM itself is not modelled: each send and receive is
 * an event of the trace, and what arrives from other locales is a
 * parameter.
 */
module CommLocale {
  import opened Diagnostics
  import opened CommTags
  import opened CommEnvelope
  import opened CommWords

  const MemmoveError := InternalFatal("memmove error")
  const UnpackError := UserFatal("PVM call pvm_upkint failed in chpl_comm_barrier")

  /** What the locale does on the wire, in order. */
  datatype Event =
    | EnvelopeSent(to: int, info: MsgInfo)
    | DataSent(to: int, tag: int, bytes: seq<byte>)
    | AckReceived(from: int, tag: int)
    | DataReceived(from: int, tag: int, bytes: seq<byte>)
    | AckSent(to: int, tag: int)
    | LocalCall(fid: int, arg: seq<byte>)
    | LocalTask(fid: int, arg: seq<byte>)
    | Broadcast(tag: int, value: int)
    | BarrierJoined(count: int)
    | ParentNotified(signal: int)

  /** Events that put something on the wire. */
  predicate IsMessage(e: Event)
  {
    e.EnvelopeSent? || e.DataSent? || e.AckSent? || e.Broadcast? || e.ParentNotified?
  }

  /** A data message: sent, then acknowledged with one int the sender waits for. */
  function SendData(to: int, tag: int, bytes: seq<byte>): seq<Event>
  {
    [DataSent(to, tag, bytes), AckReceived(to, tag)]
  }

  /** A data message received, then acknowledged. */
  function RecvData(from: int, tag: int, bytes: seq<byte>): seq<Event>
  {
    [DataReceived(from, tag, bytes), AckSent(from, tag)]
  }

  function PutMessages(to: int, tag: int, raddr: nat, bytes: seq<byte>): seq<Event>
  {
    [EnvelopeSent(to, MsgInfo(CommPut, tag, |bytes|, Addr(raddr)))] + SendData(to, tag, bytes)
  }

  function GetMessages(to: int, tag: int, raddr: nat, bytes: seq<byte>): seq<Event>
  {
    [EnvelopeSent(to, MsgInfo(CommGet, tag, |bytes|, Addr(raddr)))] + RecvData(to, tag, bytes)
  }

  function ForkNBMessages(to: int, tag: int, fid: int, arg: seq<byte>): seq<Event>
  {
    [EnvelopeSent(to, MsgInfo(CommForkNB, tag, |arg|, Fid(fid)))] + SendData(to, tag, arg)
  }

  /** A fork also waits for the empty reply on its tag. */
  function ForkMessages(to: int, tag: int, fid: int, arg: seq<byte>): seq<Event>
  {
    [EnvelopeSent(to, MsgInfo(CommFork, tag, |arg|, Fid(fid)))] + SendData(to, tag, arg) + RecvData(to, tag, [])
  }

  /** The messages of a broadcast to the locales below `upto`, skipping locale `me`. */
  function BroadcastMessages(me: int, upto: nat, tag: int, id: int, value: seq<byte>): (r: seq<Event>)
  {
    if upto == 0 then [] else BroadcastMessages(me, upto - 1, tag, id, value) + BroadcastStep(me, upto - 1, tag, id, value)
  }

  /** What a broadcast sends to locale `i`: nothing to itself, else the envelope and the data. */
  function BroadcastStep(me: int, i: int, tag: int, id: int, value: seq<byte>): seq<Event>
  {
    if i == me then []
    else [EnvelopeSent(i, MsgInfo(CommBroadcastPrivate, tag, |value|, Fid(id)))] + SendData(i, tag, value)
  }

  // ---- local memory ----

  /** Memory after `n` bytes at `src` were copied to `dst`. */
  function Copy(mem: seq<byte>, dst: nat, src: nat, n: nat): (r: seq<byte>)
    requires dst + n <= |mem| && src + n <= |mem|
    ensures |r| == |mem|
  {
    mem[..dst] + mem[src..src + n] + mem[dst + n..]
  }

  /** The destination receives the source bytes and nothing else changes. */
  lemma CopyAt(mem: seq<byte>, dst: nat, src: nat, n: nat)
    requires dst + n <= |mem| && src + n <= |mem|
    ensures Copy(mem, dst, src, n)[dst..dst + n] == mem[src..src + n]
    ensures forall i :: 0 <= i < |mem| && !(dst <= i < dst + n) ==> Copy(mem, dst, src, n)[i] == mem[i]
  {
    var r := Copy(mem, dst, src, n);
    assert r[dst..dst + n] == mem[src..src + n];
  }

  /** Memory after `bytes` were written at `at`. */
  function WriteAt(mem: seq<byte>, at: nat, bytes: seq<byte>): (r: seq<byte>)
    requires at + |bytes| <= |mem|
    ensures |r| == |mem|
  {
    mem[..at] + bytes + mem[at + |bytes|..]
  }

  // ---- the barrier ----

  /**
   * How many locales a barrier waits for, given the flag it found: `None`
   * when locale 0 skips the barrier before the exit, every locale before
   * main, and once the flag is set one fewer when a locale other than 0
   * exited on its own.
   */
  function BarrierCount(msg: string, localeID: int, numLocales: int, okay: int): (r: Option<int>)
    ensures r.None? <==> msg == "chpl_comm_exit_all" && localeID == 0
    ensures r.Some? && msg == "barrier before main" ==> r.value == numLocales
    ensures r.Some? && msg != "barrier before main" ==> (r.value == numLocales - 1 <==> okay == 2)
    ensures r.Some? ==> r.value == numLocales || r.value == numLocales - 1
  {
    if msg == "chpl_comm_exit_all" && localeID == 0 then None
    else if msg == "barrier before main" then Some(numLocales)
    else if okay == 2 then Some(numLocales - 1)
    else Some(numLocales)
  }

  /** The flag once the wait is over: the flag itself if set, else the first non-zero value unpacked. */
  function AwaitOkay(okay: int, received: seq<int>): (r: Option<int>)
    ensures okay != 0 ==> r == Some(okay)
    ensures okay == 0 ==> (r.None? <==> forall k :: 0 <= k < |received| ==> received[k] == 0)
    ensures r.Some? ==> r.value != 0
    decreases |received|
  {
    if okay != 0 then Some(okay)
    else if received == [] then None
    else AwaitOkay(received[0], received[1..])
  }

  /** When the flag was clear, the wait ends with the first non-zero value unpacked. */
  lemma {:induction false} AwaitOkayIsFirst(received: seq<int>, k: nat)
    requires k < |received| && received[k] != 0 && forall j :: 0 <= j < k ==> received[j] == 0
    ensures AwaitOkay(0, received) == Some(received[k])
    decreases k
  {
    if k > 0 {
      AwaitOkayIsFirst(received[1..], k - 1);
    }
  }

  // ---- diagnostics counters ----

  datatype Counters = Counters(gets: int, puts: int, forks: int, nbForks: int)

  /** The counters after a remote operation of the given type, counted or not. */
  function Counted(c: Counters, msgType: int, counting: bool): (r: Counters)
    ensures !counting ==> r == c
    ensures r.gets == c.gets + (if counting && msgType == CommGet then 1 else 0)
    ensures r.puts == c.puts + (if counting && msgType == CommPut then 1 else 0)
    ensures r.forks == c.forks + (if counting && msgType == CommFork then 1 else 0)
    ensures r.nbForks == c.nbForks + (if counting && msgType == CommForkNB then 1 else 0)
  {
    if !counting then c
    else if msgType == CommGet then c.(gets := c.gets + 1)
    else if msgType == CommPut then c.(puts := c.puts + 1)
    else if msgType == CommFork then c.(forks := c.forks + 1)
    else if msgType == CommForkNB then c.(nbForks := c.nbForks + 1)
    else c
  }

  // ---- trace invariant ----

  /** Every envelope on the trace is well formed, and every data message travels on a valid reply tag to a known locale. */
  predicate TraceOk(trace: seq<Event>, numLocales: int)
  {
    forall k :: 0 <= k < |trace| ==> EventOk(trace[k], numLocales)
  }

  predicate EventOk(e: Event, numLocales: int)
  {
    match e
    case EnvelopeSent(to, info) => 0 <= to < numLocales && WellFormed(info)
    case DataSent(to, tag, _) => 0 <= to < numLocales && 1 <= tag <= MaxTag
    case AckReceived(from, tag) => 0 <= from < numLocales && 1 <= tag <= MaxTag
    case DataReceived(from, tag, _) => 0 <= from < numLocales && 1 <= tag <= MaxTag
    case AckSent(to, tag) => 0 <= to < numLocales && 1 <= tag <= MaxTag
    case Broadcast(tag, _) => tag == BcastTag
    case _ => true
  }

  lemma TraceOkAppend(a: seq<Event>, b: seq<Event>, n: int)
    requires TraceOk(a, n) && TraceOk(b, n)
    ensures TraceOk(a + b, n)
  {
    forall k | 0 <= k < |a + b|
      ensures EventOk((a + b)[k], n)
    {
      if k < |a| {
        assert (a + b)[k] == a[k];
      } else {
        assert (a + b)[k] == b[k - |a|];
      }
    }
  }

  /** The messages' well-formedness for one remote operation's events. */
  lemma EnvelopeOk(to: int, n: int, msgType: int, tag: int, size: int, u: Payload)
    requires 0 <= to < n && 0 <= msgType <= CommBroadcastPrivate && 1 <= tag <= MaxTag && IsInt32(size)
    requires CarriesAddress(msgType) ==> u.Addr? && IsUint64(u.addr)
    requires msgType == CommFinish ==> u.NoPayload?
    requires !CarriesAddress(msgType) && msgType != CommFinish ==> u.Fid? && IsInt32(u.fid)
    ensures EventOk(EnvelopeSent(to, MsgInfo(msgType, tag, size, u)), n)
  {
  }

  /** A shutdown envelope is well formed whatever reply tag was left in it, since it carries no payload. */
  lemma FinishEnvelopeOk(to: int, n: int, staleTag: int, staleSize: int)
    requires 0 <= to < n && FitsReplyTag(staleTag) && IsInt32(staleSize)
    ensures EventOk(EnvelopeSent(to, MsgInfo(CommFinish, staleTag, staleSize, NoPayload)), n)
  {
  }

  /** The envelopes of a broadcast go to every other locale, once each, in ascending order. */
  function EnvelopeDests(trace: seq<Event>): seq<int>
  {
    if trace == [] then []
    else EnvelopeDests(trace[..|trace| - 1]) + (if trace[|trace| - 1].EnvelopeSent? then [trace[|trace| - 1].to] else [])
  }

  /** The locales below `upto` other than `me`, ascending. */
  function Others(me: int, upto: nat): (r: seq<int>)
    ensures forall i :: 0 <= i < |r| ==> 0 <= r[i] < upto && r[i] != me
    ensures forall i, j :: 0 <= i < j < |r| ==> r[i] < r[j]
    ensures 0 <= me < upto ==> |r| == upto - 1
    ensures !(0 <= me < upto) ==> |r| == upto
  {
    if upto == 0 then [] else Others(me, upto - 1) + (if upto - 1 == me then [] else [upto - 1])
  }

  lemma EnvelopeDestsAppend(a: seq<Event>, b: seq<Event>)
    ensures EnvelopeDests(a + b) == EnvelopeDests(a) + EnvelopeDests(b)
    decreases |b|
  {
    if b != [] {
      var c := a + b;
      var last := b[|b| - 1];
      var x := if last.EnvelopeSent? then [last.to] else [];
      assert c[..|c| - 1] == a + b[..|b| - 1];
      assert c[|c| - 1] == last;
      EnvelopeDestsAppend(a, b[..|b| - 1]);
      assert EnvelopeDests(c) == EnvelopeDests(a) + EnvelopeDests(b[..|b| - 1]) + x;
      assert EnvelopeDests(b) == EnvelopeDests(b[..|b| - 1]) + x;
    } else {
      assert a + b == a;
    }
  }

  lemma {:induction false} BroadcastReachesOthers(me: int, upto: nat, tag: int, id: int, value: seq<byte>)
    ensures EnvelopeDests(BroadcastMessages(me, upto, tag, id, value)) == Others(me, upto)
  {
    if upto > 0 {
      var prev := BroadcastMessages(me, upto - 1, tag, id, value);
      var step := BroadcastStep(me, upto - 1, tag, id, value);
      BroadcastReachesOthers(me, upto - 1, tag, id, value);
      EnvelopeDestsAppend(prev, step);
      StepDests(me, upto - 1, tag, id, value);
    }
  }

  lemma StepDests(me: int, i: int, tag: int, id: int, value: seq<byte>)
    ensures EnvelopeDests(BroadcastStep(me, i, tag, id, value)) == if i == me then [] else [i]
  {
    if i != me {
      var e := EnvelopeSent(i, MsgInfo(CommBroadcastPrivate, tag, |value|, Fid(id)));
      var d := SendData(i, tag, value);
      EnvelopeDestsAppend([e], d);
      assert [e][..0] == [];
      assert d[..1] == [DataSent(i, tag, value)];
      assert [DataSent(i, tag, value)][..0] == [];
    }
  }

  // ---- what the traces promise ----

  /** Every envelope on a well-formed trace is read back whole by its receiver, whatever follows it. */
  lemma TraceEnvelopesDecode(trace: seq<Event>, n: int, k: nat, rest: seq<Item>)
    requires TraceOk(trace, n) && k < |trace| && trace[k].EnvelopeSent?
    ensures WellFormed(trace[k].info)
    ensures Decode(Encode(trace[k].info) + rest) == Some((trace[k].info, |Encode(trace[k].info)|))
  {
    assert EventOk(trace[k], n);
    EnvelopeRoundTrip(trace[k].info, rest);
  }

  /** Each remote operation sends exactly one envelope, to the locale it targets. */
  lemma {:induction false} RemoteOpsAddressOneLocale(to: int, tag: int, raddr: nat, fid: int, bytes: seq<byte>)
    ensures EnvelopeDests(PutMessages(to, tag, raddr, bytes)) == [to]
    ensures EnvelopeDests(GetMessages(to, tag, raddr, bytes)) == [to]
    ensures EnvelopeDests(ForkMessages(to, tag, fid, bytes)) == [to]
    ensures EnvelopeDests(ForkNBMessages(to, tag, fid, bytes)) == [to]
  {
    NoEnvelopes(SendData(to, tag, bytes));
    NoEnvelopes(RecvData(to, tag, bytes));
    NoEnvelopes(RecvData(to, tag, []));
    NoEnvelopes(SendData(to, tag, bytes) + RecvData(to, tag, []));
    var p := MsgInfo(CommPut, tag, |bytes|, Addr(raddr));
    var g := MsgInfo(CommGet, tag, |bytes|, Addr(raddr));
    var f := MsgInfo(CommFork, tag, |bytes|, Fid(fid));
    var b := MsgInfo(CommForkNB, tag, |bytes|, Fid(fid));
    OneEnvelope(EnvelopeSent(to, p), SendData(to, tag, bytes));
    OneEnvelope(EnvelopeSent(to, g), RecvData(to, tag, bytes));
    OneEnvelope(EnvelopeSent(to, b), SendData(to, tag, bytes));
    OneEnvelope(EnvelopeSent(to, f), SendData(to, tag, bytes) + RecvData(to, tag, []));
    assert ForkMessages(to, tag, fid, bytes) == [EnvelopeSent(to, f)] + (SendData(to, tag, bytes) + RecvData(to, tag, []));
  }

  lemma NoEnvelopes(msgs: seq<Event>)
    requires forall k :: 0 <= k < |msgs| ==> !msgs[k].EnvelopeSent?
    ensures EnvelopeDests(msgs) == []
    decreases |msgs|
  {
    if msgs != [] {
      NoEnvelopes(msgs[..|msgs| - 1]);
    }
  }

  lemma OneEnvelope(e: Event, msgs: seq<Event>)
    requires e.EnvelopeSent? && EnvelopeDests(msgs) == []
    ensures EnvelopeDests([e] + msgs) == [e.to]
  {
    EnvelopeDestsAppend([e], msgs);
    assert [e][..0] == [];
  }

  /** Only the blocking fork waits: it receives the empty reply on its tag, the non-blocking one receives nothing. */
  lemma ForkWaitsForReply(to: int, tag: int, fid: int, arg: seq<byte>)
    ensures ForkMessages(to, tag, fid, arg)[3] == DataReceived(to, tag, [])
    ensures forall k :: 0 <= k < |ForkNBMessages(to, tag, fid, arg)| ==>
      !ForkNBMessages(to, tag, fid, arg)[k].DataReceived?
  {
  }

  /**
   * The barrier counts agree after an exit.  A locale other than 0 that
   * exits on its own waits for every locale but 0, and so does any other
   * such locale whose wait ends with the flag it broadcast; locale 0 always
   * waits for every locale.
   */
  lemma {:induction false} ExitBarrierCounts(me: int, other: int, n: int, okay: int, received: seq<int>, k: nat)
    requires 0 < me < n && 0 < other < n
    requires k < |received| && received[k] == 2 && forall j :: 0 <= j < k ==> received[j] == 0
    ensures AwaitOkay(ExitFlag(true, me, n, okay), received) == Some(2)
    ensures BarrierCount("About to finalize", me, n, 2) == Some(n - 1)
    ensures AwaitOkay(ExitFlag(false, other, n, 0), received) == Some(2)
    ensures forall any: bool :: AwaitOkay(ExitFlag(any, 0, n, okay), received) == Some(1)
    ensures BarrierCount("About to finalize", 0, n, 1) == Some(n)
  {
    AwaitOkayIsFirst(received, k);
  }

  // ---- a local get ----

  /**
   * A local get as evidently intended: the bytes at `raddr` land at `addr`,
   * exactly as a remote get writes the bytes it receives.
   */
  function GetLocalIntended(mem: seq<byte>, addr: nat, raddr: nat, size: nat): (r: seq<byte>)
    requires addr + size <= |mem| && raddr + size <= |mem|
    ensures r == WriteAt(mem, addr, mem[raddr..raddr + size])
    ensures r[addr..addr + size] == mem[raddr..raddr + size]
  {
    Copy(mem, addr, raddr, size)
  }

  /**
   * The local get as written copies from `addr` to `raddr`: on memory
   * [1, 2], a get of one byte from 1 into 0 leaves [1, 1], so position 0
   * does not receive the byte at 1.
   */
  lemma GetLocalAsWrittenCounterexample()
    ensures Copy([1, 2], 1, 0, 1) == [1, 1]
    ensures GetLocalIntended([1, 2], 0, 1, 1) == [2, 2]
    ensures Copy([1, 2], 1, 0, 1)[0] != [1, 2][1]
  {
    assert Copy([1, 2], 1, 0, 1) == [1] + [1] + [];
    assert GetLocalIntended([1, 2], 0, 1, 1) == [] + [2] + [2];
  }

  // ---- exits ----

  /** The barrier flag an exit leaves. */
  function ExitFlag(any: bool, localeID: int, numLocales: int, okay: int): int
  {
    if numLocales == 1 || localeID == 0 then 1 else if any then 2 else okay
  }

  /** What an exit sends before its shutdown message. */
  function ExitPrologue(any: bool, localeID: int, numLocales: int): seq<Event>
  {
    if numLocales == 1 then []
    else if localeID == 0 then [Broadcast(BcastTag, 1), BarrierJoined(numLocales)]
    else if any then [Broadcast(BcastTag, 2)]
    else []
  }

  /** Indices into the private broadcast table. */
  const VerboseCommIndex := 0
  const DiagnosticsIndex := 1

  /** The bytes of an int flag, as a 4-byte `int` lies in memory on a little-endian host. */
  function FlagBytes(on: bool): (r: seq<byte>)
    ensures |r| == 4
  {
    LeBytes(if on then 1 else 0, 4)
  }

  // ---- the locale ----

  class Locale {
    const localeID: int
    const numLocales: int
    const tags: TagGen
    const parent: int
    var commDiagnostics: bool
    var verboseComm: bool
    var noDebugPrivate: bool
    var counters: Counters
    var okayToBarrier: int
    var mem: seq<byte>
    var trace: seq<Event>

    predicate Valid()
      reads this, tags
    {
      0 <= localeID < numLocales <= MaxLocales && tags.Valid() && TraceOk(trace, numLocales)
    }

    /** Whether a remote operation is counted. */
    predicate Counting()
      reads this
    {
      commDiagnostics && !noDebugPrivate
    }

    /** The flags and the barrier flag did not change. */
    twostate predicate SettingsKept()
      reads this
    {
      commDiagnostics == old(commDiagnostics) && verboseComm == old(verboseComm)
      && noDebugPrivate == old(noDebugPrivate) && okayToBarrier == old(okayToBarrier)
    }

    constructor (localeID: int, numLocales: int, parent: int, mem: seq<byte>)
      requires 0 <= localeID < numLocales <= MaxLocales
      ensures Valid() && fresh(tags)
      ensures this.localeID == localeID && this.numLocales == numLocales && this.parent == parent && this.mem == mem
      ensures counters == Counters(0, 0, 0, 0) && okayToBarrier == 1
      ensures !commDiagnostics && !verboseComm && !noDebugPrivate && trace == []
    {
      this.localeID := localeID;
      this.numLocales := numLocales;
      this.parent := parent;
      this.mem := mem;
      tags := new TagGen();
      commDiagnostics := false;
      verboseComm := false;
      noDebugPrivate := false;
      counters := Counters(0, 0, 0, 0);
      okayToBarrier := 1;
      trace := [];
    }

    function NumCommGets(): int
      reads this
    {
      counters.gets
    }

    function NumCommPuts(): int
      reads this
    {
      counters.puts
    }

    function NumCommForks(): int
      reads this
    {
      counters.forks
    }

    function NumCommNBForks(): int
      reads this
    {
      counters.nbForks
    }

    /** Counts a remote operation of the given type and draws its reply tag. */
    method Draw(msgType: int, threadID: int) returns (tag: int)
      requires Valid() && IsInt32(threadID)
      modifies this, tags
      ensures Valid() && SettingsKept() && mem == old(mem) && trace == old(trace)
      ensures counters == Counted(old(counters), msgType, old(Counting()))
      ensures tags.uniqueTag == NextUnique(old(tags.uniqueTag))
      ensures tag == TagOf(old(tags.uniqueTag), threadID, localeID) && 1 <= tag <= MaxTag
    {
      counters := Counted(counters, msgType, Counting());
      tag := tags.MakeTag(threadID, localeID);
    }

    /** Appends events to the trace. */
    method Emit(msgs: seq<Event>)
      requires Valid() && TraceOk(msgs, numLocales)
      modifies this
      ensures Valid() && SettingsKept() && mem == old(mem) && counters == old(counters)
      ensures trace == old(trace) + msgs
    {
      TraceOkAppend(trace, msgs, numLocales);
      trace := trace + msgs;
    }

    /**
     * Writes `size` bytes at `addr` to `raddr` on `locale`.  On this locale
     * it is a copy in memory; elsewhere it counts the put, draws a tag and
     * sends the envelope and the data.
     */
    method Put(addr: nat, locale: int, raddr: nat, size: int, threadID: int) returns (r: Outcome)
      requires Valid() && 0 <= locale < numLocales && IsInt32(size) && IsInt32(threadID)
      requires locale == localeID && size >= 0 ==> addr + size <= |mem| && raddr + size <= |mem|
      requires locale != localeID ==> 0 <= size && addr + size <= |mem| && IsUint64(raddr)
      modifies this, tags
      ensures Valid() && SettingsKept()
      ensures locale == localeID ==>
        trace == old(trace) && counters == old(counters) && tags.uniqueTag == old(tags.uniqueTag)
        && (size < 0 ==> r == Fail(MemmoveError) && mem == old(mem))
        && (size >= 0 ==> r == Pass && mem == Copy(old(mem), raddr, addr, size))
      ensures locale != localeID ==>
        r == Pass && mem == old(mem)
        && counters == Counted(old(counters), CommPut, old(Counting()))
        && tags.uniqueTag == NextUnique(old(tags.uniqueTag))
        && trace == old(trace) + PutMessages(locale, TagOf(old(tags.uniqueTag), threadID, localeID), raddr, old(mem)[addr..addr + size])
    {
      if localeID == locale {
        if size < 0 {
          return Fail(MemmoveError);
        }
        mem := Copy(mem, raddr, addr, size);
        return Pass;
      }
      var tag := Draw(CommPut, threadID);
      EnvelopeOk(locale, numLocales, CommPut, tag, size, Addr(raddr));
      Emit(PutMessages(locale, tag, raddr, mem[addr..addr + size]));
      r := Pass;
    }

    /**
     * Reads `size` bytes at `raddr` on `locale` into `addr`.  Elsewhere it
     * counts the get, draws a tag, sends the envelope and receives the
     * `incoming` bytes; on this locale it copies as the put does, from
     * `addr` to `raddr`.
     */
    method Get(addr: nat, locale: int, raddr: nat, size: int, threadID: int, incoming: seq<byte>) returns (r: Outcome)
      requires Valid() && 0 <= locale < numLocales && IsInt32(size) && IsInt32(threadID)
      requires locale == localeID && size >= 0 ==> addr + size <= |mem| && raddr + size <= |mem|
      requires locale != localeID ==> |incoming| == size && addr + size <= |mem| && IsUint64(raddr)
      modifies this, tags
      ensures Valid() && SettingsKept()
      ensures locale == localeID ==>
        trace == old(trace) && counters == old(counters) && tags.uniqueTag == old(tags.uniqueTag)
        && (size < 0 ==> r == Fail(MemmoveError) && mem == old(mem))
        && (size >= 0 ==> r == Pass && mem == Copy(old(mem), raddr, addr, size))
      ensures locale != localeID ==>
        r == Pass && mem == WriteAt(old(mem), addr, incoming)
        && counters == Counted(old(counters), CommGet, old(Counting()))
        && tags.uniqueTag == NextUnique(old(tags.uniqueTag))
        && trace == old(trace) + GetMessages(locale, TagOf(old(tags.uniqueTag), threadID, localeID), raddr, incoming)
    {
      if localeID == locale {
        if size < 0 {
          return Fail(MemmoveError);
        }
        mem := Copy(mem, raddr, addr, size);
        return Pass;
      }
      var tag := Draw(CommGet, threadID);
      EnvelopeOk(locale, numLocales, CommGet, tag, size, Addr(raddr));
      Emit(GetMessages(locale, tag, raddr, incoming));
      mem := WriteAt(mem, addr, incoming);
      r := Pass;
    }

    /**
     * Runs function `fid` on `locale` and waits for it to finish.  On this
     * locale the function is called in place with `arg`, and `callMem` is
     * the memory as the called function leaves it.
     */
    method Fork(locale: int, fid: int, arg: seq<byte>, threadID: int, callMem: seq<byte>)
      requires Valid() && 0 <= locale < numLocales && IsInt32(fid) && |arg| <= Int32Max && IsInt32(threadID)
      modifies this, tags
      ensures Valid() && SettingsKept()
      ensures locale == localeID ==>
        trace == old(trace) + [LocalCall(fid, arg)] && mem == callMem
        && counters == old(counters) && tags.uniqueTag == old(tags.uniqueTag)
      ensures locale != localeID ==>
        mem == old(mem) && counters == Counted(old(counters), CommFork, old(Counting()))
        && tags.uniqueTag == NextUnique(old(tags.uniqueTag))
        && trace == old(trace) + ForkMessages(locale, TagOf(old(tags.uniqueTag), threadID, localeID), fid, arg)
    {
      if localeID == locale {
        trace := trace + [LocalCall(fid, arg)];
        TraceOkAppend(old(trace), [LocalCall(fid, arg)], numLocales);
        mem := callMem;
        return;
      }
      var tag := Draw(CommFork, threadID);
      EnvelopeOk(locale, numLocales, CommFork, tag, |arg|, Fid(fid));
      Emit(ForkMessages(locale, tag, fid, arg));
    }

    /**
     * Starts function `fid` on `locale` without waiting for it.  On this
     * locale the task gets its own copy of `arg`.
     */
    method ForkNB(locale: int, fid: int, arg: seq<byte>, threadID: int)
      requires Valid() && 0 <= locale < numLocales && IsInt32(fid) && |arg| <= Int32Max && IsInt32(threadID)
      modifies this, tags
      ensures Valid() && SettingsKept() && mem == old(mem)
      ensures locale == localeID ==>
        trace == old(trace) + [LocalTask(fid, arg)] && counters == old(counters) && tags.uniqueTag == old(tags.uniqueTag)
      ensures locale != localeID ==>
        counters == Counted(old(counters), CommForkNB, old(Counting()))
        && tags.uniqueTag == NextUnique(old(tags.uniqueTag))
        && trace == old(trace) + ForkNBMessages(locale, TagOf(old(tags.uniqueTag), threadID, localeID), fid, arg)
    {
      if localeID == locale {
        trace := trace + [LocalTask(fid, arg)];
        TraceOkAppend(old(trace), [LocalTask(fid, arg)], numLocales);
        return;
      }
      var tag := Draw(CommForkNB, threadID);
      EnvelopeOk(locale, numLocales, CommForkNB, tag, |arg|, Fid(fid));
      Emit(ForkNBMessages(locale, tag, fid, arg));
    }

    /** Sends entry `id` of the private broadcast table, `value`, to every other locale. */
    method BroadcastPrivate(id: int, value: seq<byte>, threadID: int)
      requires Valid() && IsInt32(id) && |value| <= Int32Max && IsInt32(threadID)
      modifies this, tags
      ensures Valid() && SettingsKept() && mem == old(mem) && counters == old(counters)
      ensures numLocales == 1 ==> trace == old(trace) && tags.uniqueTag == old(tags.uniqueTag)
      ensures numLocales != 1 ==>
        tags.uniqueTag == NextUnique(old(tags.uniqueTag))
        && trace == old(trace) + BroadcastMessages(localeID, numLocales, TagOf(old(tags.uniqueTag), threadID, localeID), id, value)
    {
      if numLocales == 1 {
        return;
      }
      var tag := tags.MakeTag(threadID, localeID);
      var i := 0;
      while i < numLocales
        invariant 0 <= i <= numLocales
        invariant trace == old(trace) + BroadcastMessages(localeID, i, tag, id, value)
        invariant Valid() && SettingsKept() && mem == old(mem) && counters == old(counters)
        invariant tags.uniqueTag == NextUnique(old(tags.uniqueTag))
      {
        BroadcastTo(i, tag, id, value);
        assert BroadcastMessages(localeID, i + 1, tag, id, value)
          == BroadcastMessages(localeID, i, tag, id, value) + BroadcastStep(localeID, i, tag, id, value);
        i := i + 1;
      }
    }

    /** One turn of the broadcast loop. */
    method BroadcastTo(i: int, tag: int, id: int, value: seq<byte>)
      requires Valid() && 0 <= i < numLocales && 1 <= tag <= MaxTag && IsInt32(id) && |value| <= Int32Max
      modifies this
      ensures Valid() && SettingsKept() && mem == old(mem) && counters == old(counters)
      ensures trace == old(trace) + BroadcastStep(localeID, i, tag, id, value)
    {
      if i != localeID {
        EnvelopeOk(i, numLocales, CommBroadcastPrivate, tag, |value|, Fid(id));
        Emit(BroadcastStep(localeID, i, tag, id, value));
      } else {
        assert trace == old(trace) + [];
      }
    }
  
    /**
     * The barrier.  Locale 0 skips the one before the exit; the one before
     * main waits for every locale.  Any other first waits, while the flag is
     * clear, for the flag broadcast by an exiting locale (the values
     * unpacked are `received`), then waits for one locale fewer when that
     * flag is 2 and for every locale otherwise.
     */
    method Barrier(msg: string, received: seq<int>) returns (r: Outcome)
      requires Valid()
      modifies this
      ensures Valid() && mem == old(mem) && counters == old(counters)
      ensures commDiagnostics == old(commDiagnostics) && verboseComm == old(verboseComm) && noDebugPrivate == old(noDebugPrivate)
      ensures BarrierCount(msg, localeID, numLocales, 1).None? ==>
        r == Pass && trace == old(trace) && okayToBarrier == old(okayToBarrier)
      ensures BarrierCount(msg, localeID, numLocales, 1).Some? && msg == "barrier before main" ==>
        r == Pass && trace == old(trace) + [BarrierJoined(numLocales)] && okayToBarrier == old(okayToBarrier)
      ensures BarrierCount(msg, localeID, numLocales, 1).Some? && msg != "barrier before main" ==>
        var w := AwaitOkay(old(okayToBarrier), received);
        (w.None? ==> r == Fail(UnpackError) && trace == old(trace) && okayToBarrier == 0)
        && (w.Some? ==> (r == Pass && okayToBarrier == w.value
            && trace == old(trace) + [BarrierJoined(BarrierCount(msg, localeID, numLocales, w.value).value)]))
    {
      if msg == "chpl_comm_exit_all" && localeID == 0 {
        return Pass;
      }
      if msg == "barrier before main" {
        Emit([BarrierJoined(numLocales)]);
        return Pass;
      }
      var i := 0;
      while okayToBarrier == 0
        invariant 0 <= i <= |received|
        invariant AwaitOkay(okayToBarrier, received[i..]) == AwaitOkay(old(okayToBarrier), received)
        invariant Valid() && trace == old(trace) && mem == old(mem) && counters == old(counters)
        invariant commDiagnostics == old(commDiagnostics) && verboseComm == old(verboseComm) && noDebugPrivate == old(noDebugPrivate)
        decreases |received| - i
      {
        if i == |received| {
          return Fail(UnpackError);
        }
        assert received[i..][1..] == received[i + 1..];
        okayToBarrier := received[i];
        i := i + 1;
      }
      var count := if okayToBarrier == 2 then numLocales - 1 else numLocales;
      Emit([BarrierJoined(count)]);
      r := Pass;
    }

    /** Once set up, a run of several locales clears the barrier flag. */
    method Rollcall()
      modifies this
      ensures okayToBarrier == if numLocales != 1 then 0 else old(okayToBarrier)
      ensures commDiagnostics == old(commDiagnostics) && verboseComm == old(verboseComm) && noDebugPrivate == old(noDebugPrivate)
      ensures mem == old(mem) && counters == old(counters) && trace == old(trace)
    {
      if numLocales != 1 {
        okayToBarrier := 0;
      }
    }

    /** What both exits do last: the shutdown envelope to itself, the final barrier and the signal to the launcher. */
    method Shutdown(staleTag: int, staleSize: int, received: seq<int>) returns (r: Outcome)
      requires Valid() && FitsReplyTag(staleTag) && IsInt32(staleSize)
      modifies this
      ensures Valid() && mem == old(mem) && counters == old(counters)
      ensures commDiagnostics == old(commDiagnostics) && verboseComm == old(verboseComm) && noDebugPrivate == old(noDebugPrivate)
      ensures
        var fin := [EnvelopeSent(localeID, MsgInfo(CommFinish, staleTag, staleSize, NoPayload))];
        var w := AwaitOkay(old(okayToBarrier), received);
        (w.None? ==> r == Fail(UnpackError) && okayToBarrier == 0 && trace == old(trace) + fin)
        && (w.Some? ==> (r == Pass && okayToBarrier == w.value
            && trace == old(trace) + fin + [BarrierJoined(BarrierCount("About to finalize", localeID, numLocales, w.value).value)]
               + (if parent >= 0 then [ParentNotified(1)] else [])))
    {
      FinishEnvelopeOk(localeID, numLocales, staleTag, staleSize);
      Emit([EnvelopeSent(localeID, MsgInfo(CommFinish, staleTag, staleSize, NoPayload))]);
      r := Barrier("About to finalize", received);
      if r.Pass? && parent >= 0 {
        Emit([ParentNotified(1)]);
      }
    }

    /**
     * Exit of the whole program.  Locale 0 sets the flag, broadcasts it and
     * joins the barrier of the locales waiting for it; the others leave the
     * flag alone.  The envelope of the shutdown message is sent with the
     * reply tag and size left in it (`staleTag`, `staleSize`).
     */
    method ExitAll(staleTag: int, staleSize: int, received: seq<int>) returns (r: Outcome)
      requires Valid() && FitsReplyTag(staleTag) && IsInt32(staleSize)
      modifies this
      ensures Valid() && mem == old(mem) && counters == old(counters)
      ensures commDiagnostics == old(commDiagnostics) && verboseComm == old(verboseComm) && noDebugPrivate == old(noDebugPrivate)
      ensures
        var w := AwaitOkay(ExitFlag(false, localeID, numLocales, old(okayToBarrier)), received);
        var front := old(trace) + ExitPrologue(false, localeID, numLocales)
          + [EnvelopeSent(localeID, MsgInfo(CommFinish, staleTag, staleSize, NoPayload))];
        (w.None? ==> r == Fail(UnpackError) && okayToBarrier == 0 && trace == front)
        && (w.Some? ==> (r == Pass && okayToBarrier == w.value
            && trace == front + [BarrierJoined(BarrierCount("About to finalize", localeID, numLocales, w.value).value)]
               + (if parent >= 0 then [ParentNotified(1)] else [])))
    {
      if numLocales == 1 {
        okayToBarrier := 1;
      } else if localeID == 0 {
        okayToBarrier := 1;
        Emit([Broadcast(BcastTag, 1), BarrierJoined(numLocales)]);
      }
      r := Shutdown(staleTag, staleSize, received);
    }

    /**
     * Exit from one locale.  As the exit of the whole program on locale 0;
     * any other locale sets the flag to 2 and broadcasts it, so that the
     * locales other than 0 barrier without it.
     */
    method ExitAny(staleTag: int, staleSize: int, received: seq<int>) returns (r: Outcome)
      requires Valid() && FitsReplyTag(staleTag) && IsInt32(staleSize)
      modifies this
      ensures Valid() && mem == old(mem) && counters == old(counters)
      ensures commDiagnostics == old(commDiagnostics) && verboseComm == old(verboseComm) && noDebugPrivate == old(noDebugPrivate)
      ensures
        var w := AwaitOkay(ExitFlag(true, localeID, numLocales, old(okayToBarrier)), received);
        var front := old(trace) + ExitPrologue(true, localeID, numLocales)
          + [EnvelopeSent(localeID, MsgInfo(CommFinish, staleTag, staleSize, NoPayload))];
        (w.None? ==> r == Fail(UnpackError) && okayToBarrier == 0 && trace == front)
        && (w.Some? ==> (r == Pass && okayToBarrier == w.value
            && trace == front + [BarrierJoined(BarrierCount("About to finalize", localeID, numLocales, w.value).value)]
               + (if parent >= 0 then [ParentNotified(1)] else [])))
    {
      if numLocales == 1 {
        okayToBarrier := 1;
      } else if localeID == 0 {
        okayToBarrier := 1;
        Emit([Broadcast(BcastTag, 1), BarrierJoined(numLocales)]);
      } else {
        okayToBarrier := 2;
        Emit([Broadcast(BcastTag, 2)]);
      }
      r := Shutdown(staleTag, staleSize, received);
    }

    /** Sets a flag of the private broadcast table and sends it to the other locales, uncounted. */
    method SetAndBroadcast(index: int, on: bool, threadID: int)
      requires Valid() && (index == VerboseCommIndex || index == DiagnosticsIndex) && IsInt32(threadID)
      modifies this, tags
      ensures Valid() && mem == old(mem) && counters == old(counters) && okayToBarrier == old(okayToBarrier) && !noDebugPrivate
      ensures commDiagnostics == if index == DiagnosticsIndex then on else old(commDiagnostics)
      ensures verboseComm == if index == VerboseCommIndex then on else old(verboseComm)
      ensures numLocales == 1 ==> trace == old(trace) && tags.uniqueTag == old(tags.uniqueTag)
      ensures numLocales != 1 ==>
        tags.uniqueTag == NextUnique(old(tags.uniqueTag))
        && trace == old(trace) + BroadcastMessages(localeID, numLocales, TagOf(old(tags.uniqueTag), threadID, localeID), index, FlagBytes(on))
    {
      if index == DiagnosticsIndex {
        commDiagnostics := on;
      } else {
        verboseComm := on;
      }
      noDebugPrivate := true;
      BroadcastPrivate(index, FlagBytes(on), threadID);
      noDebugPrivate := false;
    }

    method StartCommDiagnostics(threadID: int)
      requires Valid() && IsInt32(threadID)
      modifies this, tags
      ensures Valid() && commDiagnostics && !noDebugPrivate && verboseComm == old(verboseComm)
      ensures mem == old(mem) && counters == old(counters) && okayToBarrier == old(okayToBarrier)
      ensures numLocales != 1 ==>
        trace == old(trace) + BroadcastMessages(localeID, numLocales, TagOf(old(tags.uniqueTag), threadID, localeID), DiagnosticsIndex, FlagBytes(true))
      ensures numLocales == 1 ==> trace == old(trace) && tags.uniqueTag == old(tags.uniqueTag)
      ensures numLocales != 1 ==> tags.uniqueTag == NextUnique(old(tags.uniqueTag))
    {
      SetAndBroadcast(DiagnosticsIndex, true, threadID);
    }

    method StopCommDiagnostics(threadID: int)
      requires Valid() && IsInt32(threadID)
      modifies this, tags
      ensures Valid() && !commDiagnostics && !noDebugPrivate && verboseComm == old(verboseComm)
      ensures mem == old(mem) && counters == old(counters) && okayToBarrier == old(okayToBarrier)
      ensures numLocales != 1 ==>
        trace == old(trace) + BroadcastMessages(localeID, numLocales, TagOf(old(tags.uniqueTag), threadID, localeID), DiagnosticsIndex, FlagBytes(false))
      ensures numLocales == 1 ==> trace == old(trace) && tags.uniqueTag == old(tags.uniqueTag)
      ensures numLocales != 1 ==> tags.uniqueTag == NextUnique(old(tags.uniqueTag))
    {
      SetAndBroadcast(DiagnosticsIndex, false, threadID);
    }

    method StartVerboseComm(threadID: int)
      requires Valid() && IsInt32(threadID)
      modifies this, tags
      ensures Valid() && verboseComm && !noDebugPrivate && commDiagnostics == old(commDiagnostics)
      ensures mem == old(mem) && counters == old(counters) && okayToBarrier == old(okayToBarrier)
      ensures numLocales != 1 ==>
        trace == old(trace) + BroadcastMessages(localeID, numLocales, TagOf(old(tags.uniqueTag), threadID, localeID), VerboseCommIndex, FlagBytes(true))
      ensures numLocales == 1 ==> trace == old(trace) && tags.uniqueTag == old(tags.uniqueTag)
      ensures numLocales != 1 ==> tags.uniqueTag == NextUnique(old(tags.uniqueTag))
    {
      SetAndBroadcast(VerboseCommIndex, true, threadID);
    }

    method StopVerboseComm(threadID: int)
      requires Valid() && IsInt32(threadID)
      modifies this, tags
      ensures Valid() && !verboseComm && !noDebugPrivate && commDiagnostics == old(commDiagnostics)
      ensures mem == old(mem) && counters == old(counters) && okayToBarrier == old(okayToBarrier)
      ensures numLocales != 1 ==>
        trace == old(trace) + BroadcastMessages(localeID, numLocales, TagOf(old(tags.uniqueTag), threadID, localeID), VerboseCommIndex, FlagBytes(false))
      ensures numLocales == 1 ==> trace == old(trace) && tags.uniqueTag == old(tags.uniqueTag)
      ensures numLocales != 1 ==> tags.uniqueTag == NextUnique(old(tags.uniqueTag))
    {
      SetAndBroadcast(VerboseCommIndex, false, threadID);
    }

    /** Turns counting on or off on this locale only. */
    method SetCommDiagnosticsHere(on: bool)
      modifies this
      ensures commDiagnostics == on && verboseComm == old(verboseComm) && noDebugPrivate == old(noDebugPrivate)
      ensures mem == old(mem) && counters == old(counters) && okayToBarrier == old(okayToBarrier) && trace == old(trace)
    {
      commDiagnostics := on;
    }

    /** Turns verbose communication on or off on this locale only. */
    method SetVerboseCommHere(on: bool)
      modifies this
      ensures verboseComm == on && commDiagnostics == old(commDiagnostics) && noDebugPrivate == old(noDebugPrivate)
      ensures mem == old(mem) && counters == old(counters) && okayToBarrier == old(okayToBarrier) && trace == old(trace)
    {
      verboseComm := on;
    }
  }
}

=== FILE: comm_tags.dfy ===
/**
 * Message tags of the PVM communication layer.  Three tags near the top of
 * the tag space are reserved (notification of the launcher, broadcast and
 * the mask), the tag just above the mask carries message envelopes, and
 * every remote operation draws a fresh reply tag from a per-process
 * counter.
 */
module CommTags {

  const TagMask := 4194303
  const BcastTag := 4194299
  const NotifyTag := 4194295
  /** The tag every envelope travels on. */
  const EnvelopeTag := TagMask + 1
  /** The largest reply tag, and the largest counter value. */
  const MaxTag := 4194294
  /** The locale table holds 64 task ids. */
  const MaxLocales := 64

  const Int32Min := -0x8000_0000
  const Int32Max := 0x7fff_ffff

  predicate IsInt32(x: int)
  {
    Int32Min <= x <= Int32Max
  }

  /** A value the 27-bit signed reply-tag field of an envelope can hold. */
  predicate FitsReplyTag(x: int)
  {
    -0x400_0000 <= x < 0x400_0000
  }

  /** The reserved tags and the envelope tag. */
  predicate Reserved(t: int)
  {
    t == NotifyTag || t == BcastTag || t == TagMask || t == EnvelopeTag
  }

  /** The counter after one tag was drawn: one more, back to 1 after the largest. */
  function NextUnique(u: int): (r: int)
    requires 1 <= u <= MaxTag
    ensures 1 <= r <= MaxTag
    ensures u < MaxTag ==> r == u + 1
    ensures u == MaxTag ==> r == 1
  {
    if u + 1 > MaxTag then 1 else u + 1
  }

  // ---- the reduction loop ----

  /** The tag after the reduction loop: subtract `step` while it is above the largest tag. */
  function Reduce(tag: int, step: int): (r: int)
    requires tag <= MaxTag || step > 0
    decreases if tag > MaxTag then tag - MaxTag else 0
  {
    if tag > MaxTag then Reduce(tag - step, step) else tag
  }

  /** The loop ends at or below the largest tag, and a step smaller than it never goes below 1. */
  lemma {:induction false} ReduceBounds(tag: int, step: int)
    requires 1 <= tag && (tag <= MaxTag || 0 < step < MaxTag)
    ensures 1 <= Reduce(tag, step) <= MaxTag
    ensures tag <= MaxTag ==> Reduce(tag, step) == tag
    decreases if tag > MaxTag then tag - MaxTag else 0
  {
    if tag > MaxTag {
      ReduceBounds(tag - step, step);
    }
  }

  /** The absolute value of a thread id, taken without wrap-around. */
  function AbsTid(threadID: int): (r: nat)
    ensures r == threadID || r == -threadID
  {
    if threadID < 0 then -threadID else threadID
  }

  /** The high bits of a non-negative 32-bit value (an arithmetic right shift by 21). */
  function HighBits(a: int): int
  {
    a / 0x20_0000
  }

  lemma HighBitsRange(threadID: int)
    requires IsInt32(threadID)
    ensures 0 <= HighBits(AbsTid(threadID)) <= 1024
  {
  }

  /** The tag before the reduction loop. */
  function RawTag(u: int, h: int, localeID: int): int
  {
    u + 1000 * localeID + 100 * h
  }

  /** What is subtracted on each turn of the reduction loop. */
  function Step(h: int, localeID: int): int
  {
    100 * localeID + 10 * h
  }

  /** The tag drawn when the counter is `u`, for a thread and locale. */
  function TagOf(u: int, threadID: int, localeID: int): (r: int)
    requires 1 <= u <= MaxTag && IsInt32(threadID) && 0 <= localeID < MaxLocales
  {
    var h := HighBits(AbsTid(threadID));
    HighBitsRange(threadID);
    Reduce(RawTag(u, h, localeID), Step(h, localeID))
  }

  /**
   * Every drawn tag is a valid reply tag: between 1 and the largest tag,
   * so none of the reserved tags nor the envelope tag, and it fits the
   * 27-bit signed reply-tag field of an envelope.  Nothing computed on the
   * way leaves the 32-bit range.
   */
  lemma TagOfValid(u: int, threadID: int, localeID: int)
    requires 1 <= u <= MaxTag && IsInt32(threadID) && 0 <= localeID < MaxLocales
    ensures 1 <= TagOf(u, threadID, localeID) <= MaxTag
    ensures !Reserved(TagOf(u, threadID, localeID))
    ensures FitsReplyTag(TagOf(u, threadID, localeID))
    ensures IsInt32(RawTag(u, HighBits(AbsTid(threadID)), localeID))
  {
    var h := HighBits(AbsTid(threadID));
    HighBitsRange(threadID);
    ReduceBounds(RawTag(u, h, localeID), Step(h, localeID));
  }

  /** On locale 0, for threads with a small id, the tag is the counter itself. */
  lemma TagOfIsCounter(u: int, threadID: int)
    requires 1 <= u <= MaxTag && IsInt32(threadID) && AbsTid(threadID) < 0x20_0000
    ensures TagOf(u, threadID, 0) == u
  {
    ReduceBounds(u, 0);
  }

  // ---- the tag generator ----

  /** The per-process tag counter. */
  class TagGen {
    var uniqueTag: int

    predicate Valid()
      reads this
    {
      1 <= uniqueTag <= MaxTag
    }

    constructor ()
      ensures Valid() && uniqueTag == 1
    {
      uniqueTag := 1;
    }

    /**
     * Draws a reply tag: combines the counter with the locale and the high
     * bits of the thread id, advances the counter, and reduces the tag into
     * range by repeated subtraction.
     */
    method MakeTag(threadID: int, localeID: int) returns (tag: int)
      requires Valid() && IsInt32(threadID) && 0 <= localeID < MaxLocales
      modifies this
      ensures Valid()
      ensures uniqueTag == NextUnique(old(uniqueTag))
      ensures tag == TagOf(old(uniqueTag), threadID, localeID)
      ensures 1 <= tag <= MaxTag && !Reserved(tag)
    {
      TagOfValid(uniqueTag, threadID, localeID);
      var h := HighBits(AbsTid(threadID));
      var step := Step(h, localeID);
      tag := RawTag(uniqueTag, h, localeID);
      ghost var raw := tag;
      uniqueTag := uniqueTag + 1;
      while tag > MaxTag
        invariant Reduce(tag, step) == Reduce(raw, step)
        invariant tag <= MaxTag || step > 0
        decreases tag
      {
        tag := tag - step;
      }
      if uniqueTag > MaxTag {
        uniqueTag := 1;
      }
    }
  }

  // ---- the tag as written, for a thread id of -2^31 ----

  /** Negation of a 32-bit int as the machine does it: -2^31 stays -2^31. */
  function Neg32(x: int): (r: int)
    requires IsInt32(x)
    ensures IsInt32(r)
    ensures x != Int32Min ==> r == -x
  {
    if x == Int32Min then Int32Min else -x
  }

  /** The tag computed with the absolute value taken in 32-bit arithmetic. */
  function TagAsWritten(u: int, threadID: int, localeID: int): int
    requires 1 <= u <= MaxTag && IsInt32(threadID) && 0 <= localeID < MaxLocales
  {
    var a := if threadID < 0 then Neg32(threadID) else threadID;
    var h := HighBits(a);
    if RawTag(u, h, localeID) <= MaxTag then RawTag(u, h, localeID)
    else Reduce(RawTag(u, h, localeID), Step(h, localeID))
  }

  /** For every other thread id the computation as written is the one above. */
  lemma TagAsWrittenAgrees(u: int, threadID: int, localeID: int)
    requires 1 <= u <= MaxTag && IsInt32(threadID) && 0 <= localeID < MaxLocales && threadID != Int32Min
    ensures TagAsWritten(u, threadID, localeID) == TagOf(u, threadID, localeID)
  {
    HighBitsRange(threadID);
    var h := HighBits(AbsTid(threadID));
    if RawTag(u, h, localeID) <= MaxTag {
      ReduceBounds(RawTag(u, h, localeID), Step(h, localeID));
    }
  }

  /** A thread id of -2^31 on locale 0 with the counter at 1 gives the tag -102399, outside the reply-tag range. */
  lemma TagAsWrittenNegative()
    ensures TagAsWritten(1, Int32Min, 0) == -102399
    ensures TagOf(1, Int32Min, 0) == 102401
  {
    assert HighBits(Int32Min) == -1024;
    assert HighBits(AbsTid(Int32Min)) == 1024;
    ReduceBounds(102401, 10240);
  }
}

=== FILE: comm_words.dfy ===
/**
 * 64-bit integers travel as two 32-bit words: the low word first, then the
 * high word.  The sender truncates the value to its low 32 bits and shifts
 * it right by 32 for the high word; the receiver shifts the high word back
 * and adds the low word masked to its 32 unsigned bits.  An unsigned
 * 64-bit value is read and written through the same signed 64-bit view.
 */
module CommWords {
  import opened CommTags

  const Two32 := 0x1_0000_0000
  const Int64Min := -0x8000_0000_0000_0000
  const Int64Max := 0x7fff_ffff_ffff_ffff
  const Two64 := 0x1_0000_0000_0000_0000

  predicate IsInt64(x: int)
  {
    Int64Min <= x <= Int64Max
  }

  predicate IsUint64(x: int)
  {
    0 <= x < Two64
  }

  /** The conversion of a 64-bit value to a 32-bit int: its low 32 bits, read as signed. */
  function Low(v: int): (r: int)
    ensures IsInt32(r)
    ensures r % Two32 == v % Two32
  {
    var m := v % Two32;
    if m > Int32Max then m - Two32 else m
  }

  /** The high word: an arithmetic right shift by 32. */
  function High(v: int): (r: int)
    ensures IsInt64(v) ==> IsInt32(r)
  {
    v / Two32
  }

  /** The receiver's rejoin: the high word shifted left by 32 plus the low word's unsigned bits. */
  function Join(part1: int, part2: int): int
  {
    part2 * Two32 + part1 % Two32
  }

  /** An unsigned 64-bit value read through a signed 64-bit view. */
  function AsSigned(u: int): (r: int)
    requires IsUint64(u)
    ensures IsInt64(r)
  {
    if u > Int64Max then u - Two64 else u
  }

  /** A signed 64-bit value stored into an unsigned 64-bit object. */
  function AsUnsigned(s: int): (r: int)
    requires IsInt64(s)
    ensures IsUint64(r)
  {
    s % Two64
  }

  /** Splitting a signed 64-bit value and rejoining the two words gives it back. */
  lemma JoinSplitSigned(v: int)
    requires IsInt64(v)
    ensures IsInt32(Low(v)) && IsInt32(High(v))
    ensures Join(Low(v), High(v)) == v
  {
    assert v == High(v) * Two32 + v % Two32;
  }

  /** Splitting an unsigned 64-bit value and rejoining the two words gives it back. */
  lemma JoinSplitUnsigned(u: int)
    requires IsUint64(u)
    ensures IsInt32(Low(AsSigned(u))) && IsInt32(High(AsSigned(u)))
    ensures IsInt64(Join(Low(AsSigned(u)), High(AsSigned(u))))
    ensures AsUnsigned(Join(Low(AsSigned(u)), High(AsSigned(u)))) == u
  {
    JoinSplitSigned(AsSigned(u));
  }

  /** The other direction: every pair of 32-bit words is the split of exactly the value they join to. */
  lemma SplitJoin(part1: int, part2: int)
    requires IsInt32(part1) && IsInt32(part2)
    ensures IsInt64(Join(part1, part2))
    ensures Low(Join(part1, part2)) == part1 && High(Join(part1, part2)) == part2
  {
    var j := Join(part1, part2);
    var m := part1 % Two32;
    assert 0 <= m < Two32;
    assert j / Two32 == part2 && j % Two32 == m by {
      DivModUnique(j, part2, m);
    }
    assert part1 == m || part1 == m - Two32;
  }

  lemma DivModUnique(j: int, q: int, m: int)
    requires j == q * Two32 + m && 0 <= m < Two32
    ensures j / Two32 == q && j % Two32 == m
  {
  }

  /** Two values with the same words are the same value: the split loses nothing. */
  lemma SplitInjective(v: int, w: int)
    requires IsInt64(v) && IsInt64(w)
    requires Low(v) == Low(w) && High(v) == High(w)
    ensures v == w
  {
    JoinSplitSigned(v);
    JoinSplitSigned(w);
  }
}

=== FILE: diagnostics.dfy ===
/**
 * Diagnostics raised by the lowering builders, and the Result wrapper
 * through which a builder reports that it stopped with a fatal error
 * instead of returning a tree.
 */
module Diagnostics {

  /** The five error kinds of the compiler's error reporting interface. */
  datatype ErrorTag = IntFatal | UsrFatal | UsrFatalCont | UsrWarn | UsrPrint

  /** The numeric code each error kind is reported with. */
  function TagCode(t: ErrorTag): (c: nat)
    ensures 1 <= c <= 5
    ensures c == 1 <==> t == IntFatal
    ensures c == 2 <==> t == UsrFatal
    ensures c == 3 <==> t == UsrFatalCont
    ensures c == 4 <==> t == UsrWarn
  {
    match t
    case IntFatal => 1
    case UsrFatal => 2
    case UsrFatalCont => 3
    case UsrWarn => 4
    case UsrPrint => 5
  }

  /** An internal or user fatal error ends compilation; the other kinds do not. */
  predicate Halts(t: ErrorTag)
  {
    t == IntFatal || t == UsrFatal
  }

  lemma TagCodeInjective(a: ErrorTag, b: ErrorTag)
    requires TagCode(a) == TagCode(b)
    ensures a == b
  {
  }

  /** One diagnostic: its kind and its message. */
  datatype Diag = Diag(tag: ErrorTag, msg: string)

  function UserFatal(msg: string): (d: Diag)
    ensures Halts(d.tag) && d.msg == msg
    ensures d.tag == UsrFatal
  {
    Diag(UsrFatal, msg)
  }

  function InternalFatal(msg: string): (d: Diag)
    ensures Halts(d.tag) && d.msg == msg
    ensures d.tag == IntFatal
  {
    Diag(IntFatal, msg)
  }

  datatype Option<T> = None | Some(value: T)

  /** Either a value, or the fatal diagnostic that stopped the builder. */
  datatype Result<T> = Ok(value: T) | Err(diag: Diag)
  {
    predicate IsFailure()
    {
      Err?
    }

    function PropagateFailure<U>(): Result<U>
      requires Err?
    {
      Err(diag)
    }

    function Extract(): T
      requires Ok?
    {
      value
    }
  }

  /** A check that either passes or stops with a diagnostic. */
  datatype Outcome = Pass | Fail(diag: Diag)
}
